=== FILE: README.md ===
# yt-dlp-ui core, modelled in Dafny

yt-dlp-ui is a small web front end for yt-dlp. A user registers YouTube channels, the server
enumerates their playlists and videos into SQLite, and a queue of worker loops downloads the
pending videos with yt-dlp. A scheduler re-scrapes channels whose re-scrape interval has
passed. This project models the sequential logic of that backend and proves what it
promises.

The model is split into modules along the source files:

- `Common` (common.dfy): nullable values and JavaScript truthiness, `filter`, `split`, `join` and
  `trim` as JavaScript defines them, with the lemmas relating them.
- `Sorting` (sorting.dfy): the ORDER BY clauses of the store, as one insertion sort over a total
  preorder.
- `Store` (store.dfy): `src/database.js`. The three tables are sequences of rows in rowid order.
  The UNIQUE constraints are the `Valid` invariant, which every write keeps. The ON CONFLICT
  upserts keep a video's status and a playlist's `enabled` flag.
- `YtDlp` (ytdlp.dfy): the pure parts of `src/ytdlp-service.js`. This covers the argument vector
  of `download` (`DownloadArgs`), which is read back by a decoder, and the grouping of `--flat-playlist` output
  into playlists.
- `WorkerPool` (worker_pool.dfy): the queue, the `isProcessing` flag and the worker loops of
  `src/download-manager.js`. The loops are a step relation: a worker tests the queue, a download
  settles, or tasks are pushed. The queue is first in, first out under every interleaving of
  these steps.
- `DownloadManager` (download_manager.dfy): what each step writes to the store and to the
  active-download map. It also covers `downloadPlaylist` (its `downloadOptions` object is
  `PlaylistOptions`), `downloadChannel`, `downloadSingleVideo` and `getQueueStatus`.
- `Scheduler` (scheduler.dfy): `src/scheduler.js`. It covers the due check (`IsDue`), the sweep
  that isolates per-channel failures, and the single recurring timer.
- `YouTubeApi` (youtube_api.dfy): the bookkeeping of `src/youtube-api-service.js`:
  - the daily quota;
  - the API-key check (`HasValidApiKey`);
  - the classification of channel urls by the three regular expressions;
  - the numbering of playlist items across pages.
- `SponsorBlock` (sponsorblock.dfy): the SponsorBlock argument composition and category
  validation of `test/sponsorblock.test.js`. The joining of custom and SponsorBlock arguments is
  `CombineCustomArgs`.

Process spawning, HTTP, SQLite, the file system and the clock are parameters:

- exit codes and output text;
- parsed entries, and a parse function for one line;
- listing results per playlist, and the video info;
- download outcomes;
- stored quota data;
- `now`.

The download manager also calls `db.getPlaylist(id)` and `db.getVideo(videoId)`, which
`src/database.js` does not define. The model assumes both exist as primary-key lookups
(`Store.GetPlaylist`, `Store.GetVideo`). As the source reads, each call would throw a
`TypeError` instead: `downloadPlaylist` would fail for every playlist
(src/download-manager.js:79), and every download that succeeds would be recorded as `failed`,
because the lookup after `download` (src/download-manager.js:59) throws into the catch at
src/download-manager.js:71-74. The model records it as `completed` (`DownloadManager.SettledDb`).

In the same way, the download manager calls `this.ytdlp.enumeratePlaylistVideos`
(src/download-manager.js:91), which `src/ytdlp-service.js` does not define. As the source reads,
that call always throws a `TypeError`, so `downloadPlaylist` could never queue anything. The model
assumes a working enumeration instead: the listing is a parameter that may be an error, and the
model covers both a successful and a failing listing.

Timestamps the database writes with `strftime('%s','now')` are `now` in whole seconds.

Things the code does that a reader may not expect, all stated and proved as written:

- `downloadPlaylist` never re-queues a video whose row is `completed`, `failed` or `downloading`
  (`DownloadManager.SettledNotRequeued`). A failed video is therefore never retried this way.
  `downloadSingleVideo` queues its video whatever its recorded status.
- Both branches of the single-video output template are the same string (`DownloadManager.SingleTemplate`).
- The sweep never writes `last_scraped_at` (`Scheduler.CheckAndDownload` keeps the channel rows).
  While no one else updates the channel, a channel that is due stays due at every later sweep
  (`Scheduler.DueStaysDue`, `Scheduler.SweepKeepsDue`). Only the server's scrape paths clear it:
  adding a channel and the manual scrape both stamp `last_scraped_at`
  (src/server.js:133-137 and 196-200, `Scheduler.ScrapeEndsDue`).
- `writeThumbnail` and the progress callback passed to `download` never take effect. Every
  active download reports progress 0.
- `updateVideoStatus` takes four parameters. The file size and the error text that
  `processDownload` passes are dropped.

## Model

| member | source | states |
|---|---|---|
| Common.OrElse | src/ytdlp-service.js:55 | `a \|\| b` is one of its operands, truthy exactly when either operand is, and the first operand whenever that one is truthy |
| Common.Filter | src/download-manager.js:110-111 | the result holds exactly the elements that pass, each of them passing, and is no longer than the input |
| Common.FilterCount | src/download-manager.js:110-111 | filtering keeps every occurrence of a passing value and none of a failing one |
| Common.FilterPermutation | src/download-manager.js:110-111 | filtering two rearrangements of one sequence gives rearrangements of one result |
| Common.Split | src/ytdlp-service.js:168 | `split` yields at least one piece and no piece holds the separator |
| Common.JoinSplit | src/ytdlp-service.js:168 | joining the pieces of a split with the separator gives back the original string |
| Common.SplitJoin | test/sponsorblock.test.js:147 | splitting a join of separator-free pieces gives the pieces back |
| Common.SplitAround | test/sponsorblock.test.js:147 | a separator between two strings splits into the pieces of either side, concatenated |
| Common.SplitNoSeparator | test/sponsorblock.test.js:147 | a string without the separator is its own single piece |
| Common.TrimStart | src/ytdlp-service.js:42 | the result is a suffix, everything dropped is white space, and it does not start with white space |
| Common.TrimEnd | src/ytdlp-service.js:42 | the result is a prefix, everything dropped is white space, and it does not end with white space |
| Common.Trim | src/ytdlp-service.js:42 | the result has no white space at either end |
| Common.TrimInfix | src/ytdlp-service.js:42 | `trim` keeps exactly the infix between an all-white-space prefix and an all-white-space suffix |
| Common.TrimOfTrimmed | test/sponsorblock.test.js:40 | a string with no surrounding white space is left unchanged |
| Common.TrimIdempotent | src/youtube-api-service.js:18 | trimming twice is trimming once |
| Sorting.Insert | src/database.js:165 | inserting into a sorted sequence keeps it sorted and adds exactly that element |
| Sorting.SortBy | src/database.js:203 | the ORDER BY result is sorted under the key and is a permutation of the rows |
| Sorting.LexTotal | src/database.js:165 | any two strings compare under the BINARY collation |
| Sorting.LexTransitive | src/database.js:165 | the BINARY collation is transitive |
| Sorting.NullableLexIsTotalPreorder | src/database.js:165 | ordering nullable text with NULL first is a total preorder, so ORDER BY playlist_title is well defined |
| Sorting.FilterSorted | src/download-manager.js:110-111 | filtering a sorted sequence keeps it sorted |
| Store.EmptyDbValid | src/database.js:18-73 | a fresh database satisfies every UNIQUE key of the schema |
| Store.GetChannel | src/database.js:93-95 | a channel is found exactly when a row has that id, and the row found has it |
| Store.AddChannel | src/database.js:77-91 | fails exactly when the url is taken; otherwise returns the next row id, keeps the keys valid, leaves earlier rows and the other tables alone, and appends one row |
| Store.AppendChannelValid | src/database.js:21 | a row with the next id and an unused url keeps the keys unique |
| Store.AddChannelDefaults | src/database.js:84-89 | the stored row reads back with mode `enumerate` unless given, falsy custom options as NULL, a falsy interval as 7 days (never 0), and no scrape time |
| Store.UpdateChannel | src/database.js:101-139 | only the row with that id changes; in it exactly the columns the patch sets change, to the value given, NULL included (a `playlist_mode: null` stores NULL), plus `updated_at`; id, url, interval and creation time never change; an unknown id changes nothing |
| Store.UpdateChannelIdempotent | src/database.js:101-139 | applying the same update twice is applying it once |
| Store.UpdateChannelNoChanges | src/database.js:134 | an update with no keys still stamps `updated_at` on that row and changes nothing else |
| Store.GetPlaylist | src/download-manager.js:79 | a playlist is found exactly when a row has that id, and the row found has it |
| Store.AddPlaylist | src/database.js:146-162 | keeps the keys valid, leaves channels and videos alone, and afterwards a row with that (channel, playlist) key exists |
| Store.AddPlaylistExisting | src/database.js:150-153 | on a known key only title, url and `updated_at` of that row change: its id, `enabled` flag, scrape time and creation time are kept, and no other row changes |
| Store.AddPlaylistFresh | src/database.js:147-149 | an unknown key is appended with the next row id, the given `enabled` flag and no scrape time |
| Store.SameKeysValid | src/database.js:45 | rewriting playlist rows without touching ids or keys keeps the schema valid |
| Store.AppendPlaylistValid | src/database.js:45 | a playlist row with the next id and an unused (channel, playlist) key keeps the keys unique |
| Store.UpdatePlaylistEnabled | src/database.js:168-170 | sets `enabled` and `updated_at` on the row with that id and changes nothing else |
| Store.GetPlaylistOf | src/database.js:35 | playlist ids are unique, so a stored row is what its id looks up |
| Store.GetPlaylistsByChannel | src/database.js:164-166 | exactly the channel's playlists, each once, in `playlist_title` order |
| Store.TitleOrderIsTotalPreorder | src/database.js:165 | `ORDER BY playlist_title` is a total preorder on rows |
| Store.GetVideo | src/download-manager.js:59 | a video is found exactly when a row has that video id, and the row found has it |
| Store.GetVideoOf | src/database.js:52 | video ids are unique, so a stored row is what its id looks up |
| Store.AddVideo | src/database.js:173-196 | a known video id changes only its title and `updated_at`; an unknown one is appended; the keys stay valid and other tables are untouched |
| Store.AddVideoKeepsStatus | src/database.js:180-182 | after `addVideo` the id has a row; a known video keeps its status, file path and download time whatever status the data carries; a new one gets the given status or `pending` |
| Store.UpdateVideoStatus | src/database.js:206-213 | sets status, file path, download time and `updated_at` on that video's row only; no other row or column changes |
| Store.IndexOrderIsTotalPreorder | src/database.js:203 | `ORDER BY playlist_index, created_at`, NULL first, is a total preorder |
| Store.GetVideosByPlaylist | src/database.js:202-204 | exactly the rows of that playlist, each once, ordered by index then creation time |
| Store.GetAllChannels | src/database.js:97-99 | every channel once, newest first |
| Store.AllChannelsMembers | src/database.js:97-99 | the listing holds exactly the channels of the table |
| YtDlp.OptionArgsRoundTrip | src/ytdlp-service.js:126-164 | reading the option flags back gives the cookies path when present and every truthy option with its value, and leaves the rest of the vector untouched |
| YtDlp.OptionSlotsFlags | src/ytdlp-service.js:126-164 | the flags `download` emits itself are pairwise distinct and are exactly the known flags |
| YtDlp.ParseEmit | src/ytdlp-service.js:130-164 | parsing what a list of distinct-flag slots emits gives the slots back and the tail after them |
| YtDlp.DownloadArgsRoundTrip | src/ytdlp-service.js:122-171 | the url is the last argument, the custom arguments reappear verbatim and in order, and the options the flags carry are recovered; the one exception is a custom string that starts with a known flag |
| YtDlp.WriteThumbnailIgnored | src/ytdlp-service.js:122-171 | `writeThumbnail` has no effect on the argument vector |
| YtDlp.DoubledSpaceGivesEmptyToken | src/ytdlp-service.js:168 | two spaces in a row in the custom arguments produce an empty argument |
| YtDlp.OutputLines | src/ytdlp-service.js:42 | no line handed to the parser is empty or holds a newline |
| YtDlp.OutputLinesRoundTrip | src/ytdlp-service.js:42 | newline-terminated output of non-empty lines splits back into exactly those lines |
| YtDlp.SummaryIndex | src/ytdlp-service.js:59 | the position found carries the id, and nothing is found exactly when no summary carries it |
| YtDlp.AbsorbChannelStep | src/ytdlp-service.js:53-56 | one more entry keeps channel id and name those of the first entry with a truthy channel id, the name being `channel` else `uploader` |
| YtDlp.AbsorbPlaylistStep | src/ytdlp-service.js:58-68 | one more entry keeps the map a grouping: distinct ids in order of first appearance, first title, playlist url and count of counted entries |
| YtDlp.AbsorbPlaylistSkip | src/ytdlp-service.js:58 | an entry without a playlist id leaves the grouping as it is |
| YtDlp.AbsorbPlaylistNew | src/ytdlp-service.js:59-66 | an entry with an unseen playlist id appends a summary with count 1, its title and url |
| YtDlp.AbsorbPlaylistBump | src/ytdlp-service.js:59-67 | an entry with a seen playlist id raises that summary's count by one and changes nothing else |
| YtDlp.GroupEntries | src/ytdlp-service.js:46-74 | the listing is the grouping of the entries: channel from the first entry with a channel id, one playlist per distinct counted id in first-appearance order with its first title, url and count |
| YtDlp.GroupRest | src/ytdlp-service.js:52-69 | the loop over the remaining entries, started from a grouping of the entries seen, ends with the grouping of all of them |
| YtDlp.ParseLines | src/ytdlp-service.js:43 | succeeds exactly when every line parses, and then yields each line's entry in order; a failure carries the error of the first line that does not parse |
| YtDlp.EnumeratePlaylists | src/ytdlp-service.js:36-78 | a non-zero or missing exit code rejects with the stderr text; otherwise it succeeds exactly when every line parses, with the grouping of the entries, and a parse failure is reported with its message |
| WorkerPool.PoolCheck | src/download-manager.js:31-34 | an idle worker takes the head of a non-empty queue, or returns on an empty one; nothing is lost from the queue and no other worker moves |
| WorkerPool.PoolRelease | src/download-manager.js:34-35 | a settled download returns its worker to the top of its loop and changes nothing else |
| WorkerPool.CheckInv | src/download-manager.js:26-27 | a worker step keeps `isProcessing` set exactly while some loop has not returned |
| WorkerPool.ReleaseInv | src/download-manager.js:26-27 | a settlement keeps `isProcessing` set exactly while some loop has not returned |
| WorkerPool.LaunchInv | src/download-manager.js:22-27 | launching the workers keeps `isProcessing` set exactly while some loop has not returned |
| WorkerPool.StartInv | src/download-manager.js:15-27 | `startDownloads` keeps `isProcessing` set exactly while some loop has not returned |
| WorkerPool.EnqueueInv | src/download-manager.js:141-144 | pushing tasks keeps `isProcessing` set exactly while some loop has not returned |
| WorkerPool.PoolLaunch | src/download-manager.js:22-24 | the first steps of the launched workers take tasks only off the head of the queue |
| WorkerPool.Fresh | src/download-manager.js:20-24 | the `for` loop makes `concurrency` workers (none for a non-positive value), all at the top of their loops |
| WorkerPool.PoolStart | src/download-manager.js:15-28 | nothing happens while processing; otherwise exactly `concurrency` workers start, taking tasks only from the head |
| WorkerPool.LaunchTakesHead | src/download-manager.js:22-36 | launched workers take exactly the first tasks of the queue, in order, and leave the rest |
| WorkerPool.LaunchAssigns | src/download-manager.js:22-36 | the worker launched k-th holds task k, and workers beyond the queue's length have returned |
| WorkerPool.StartShape | src/download-manager.js:16-24 | from an idle pool, exactly `concurrency` workers start: the first min(concurrency, queue length) take the first tasks in order, the rest return, and the pool is processing exactly when some task was handed out |
| WorkerPool.StartTakesHead | src/download-manager.js:16-36 | from an idle pool, the start claims exactly the first min(concurrency, queue length) tasks and leaves the rest queued in order |
| WorkerPool.StartAssigns | src/download-manager.js:20-36 | from an idle pool, the k-th started worker holds task k and the workers beyond the queue have returned |
| WorkerPool.StartFlag | src/download-manager.js:18-27 | after the start, `isProcessing` holds exactly when some worker and some task exist |
| WorkerPool.AssignedExited | src/download-manager.js:26-27 | all launched loops have returned exactly when there were no workers or no tasks |
| WorkerPool.PoolEnqueue | src/download-manager.js:131-144 | pushed tasks go to the back of the queue, and whatever the workers claim comes off the front |
| WorkerPool.PoolApply | src/download-manager.js:15-37 | no step loses or invents a task: what it claims, then the queue left, is the queue before followed by what it pushes; the concurrency never changes |
| WorkerPool.ApplyInv | src/download-manager.js:15-37 | every step keeps `isProcessing` set exactly while some loop has not returned |
| WorkerPool.RunIsFifo | src/download-manager.js:31-36 | over any interleaving of steps, settlements and pushes, the tasks claimed, then the queue left, are the initial queue followed by the pushed tasks: first in, first out, each task claimed once |
| WorkerPool.RunInv | src/download-manager.js:15-37 | any run of steps keeps `isProcessing` set exactly while some loop has not returned |
| DownloadManager.NewManager | src/download-manager.js:5-13 | a new manager has an empty queue, nothing active, is not processing, and satisfies the invariant |
| DownloadManager.SetActive | src/download-manager.js:46 | `Map.set` keeps keys unique, replaces the entry of that key or adds one, and keeps the others |
| DownloadManager.DeleteActive | src/download-manager.js:68 | `Map.delete` removes exactly the entry of that key |
| DownloadManager.NotProcessingIsQuiet | src/download-manager.js:15-28 | while not processing no worker is downloading and the active map is empty |
| DownloadManager.Check | src/download-manager.js:31-46 | a worker step moves the pool as the worker loop does; a claimed video becomes `downloading` with file path and download time cleared and is active at progress 0 from now; otherwise nothing is written |
| DownloadManager.SettledDb | src/download-manager.js:65-74 | a success marks the video `completed` with the download time in seconds; a failure marks it `failed` with no download time; the file path is cleared either way and no other row changes |
| DownloadManager.Finish | src/download-manager.js:65-75 | a settlement frees the worker, writes the outcome and removes exactly that id from the active map; the error is not rethrown |
| DownloadManager.Launch | src/download-manager.js:22-24 | the launched workers' first steps, with their writes, follow the pool's launch and keep the invariant |
| DownloadManager.StartDownloads | src/download-manager.js:15-28 | `startDownloads` with its writes follows the pool's start and keeps the invariant |
| DownloadManager.Enqueue | src/download-manager.js:141-144 | pushing and starting unless running follows the pool's enqueue and keeps the invariant |
| DownloadManager.Apply | src/download-manager.js:15-76 | every event, with its writes, keeps the invariant, changes nothing outside the rows it names, and moves the pool as `PoolApply` does |
| DownloadManager.Run | src/download-manager.js:15-76 | any run of events, with its writes, follows the pool's run and keeps the invariant |
| DownloadManager.ManagerIsFifo | src/download-manager.js:31-36 | the manager's queue is first in, first out under every interleaving |
| DownloadManager.TaskLifecycle | src/download-manager.js:39-76 | a task claimed from the head is `downloading` and active; once settled it is `completed` with its download time or `failed` without, its file path is cleared, it is no longer active, and its worker is back at the top of its loop |
| DownloadManager.AddListedStep | src/download-manager.js:95-106 | one `addVideo` of a listed video keeps existing rows, adds only pending rows of the playlist, and leaves the video with a row |
| DownloadManager.AddListed | src/download-manager.js:94-107 | the `addVideo` loop keeps the keys valid and leaves channels and playlists alone |
| DownloadManager.AddListedKeeps | src/download-manager.js:94-107 | after the loop every listed video has a row, existing rows keep status, file path and download time, and new rows are pending in the playlist |
| DownloadManager.PendingVideos | src/download-manager.js:110-111 | exactly the pending rows of the playlist, each once, in playlist-index order |
| DownloadManager.TemplateFolders | src/download-manager.js:114-116 | a flat channel's files sit directly in the channel folder; otherwise each playlist gets a folder inside it and files are numbered by playlist index |
| DownloadManager.TemplateSplit | src/download-manager.js:114-116 | splitting either template at '/' gives its folder levels: two for flat, three for nested |
| DownloadManager.ArchivePath | src/download-manager.js:126 | the archive path starts with the downloads path and ends with `.downloaded` |
| DownloadManager.PlaylistTasks | src/download-manager.js:131-139 | one task per pending row |
| DownloadManager.PlaylistPlan | src/download-manager.js:79-139 | a missing or disabled playlist, then a missing channel, then a failed enumeration each fail with their message and write nothing; it succeeds exactly when both checks pass and the enumeration succeeds |
| DownloadManager.PlanRows | src/download-manager.js:94-107 | a successful playlist download gives every listed video a row without regressing any existing row |
| DownloadManager.PendingTasks | src/download-manager.js:110-139 | the tasks correspond one to one with the pending rows of the playlist, each carrying its row's url |
| DownloadManager.PlanTasks | src/download-manager.js:110-139 | the tasks are exactly the pending rows after the upserts, one each, sharing the playlist, the channel and one options object |
| DownloadManager.SettledNotRequeued | src/download-manager.js:109-111 | a video whose row is not pending is never queued by a playlist download, whatever the enumeration lists |
| DownloadManager.PlaylistTaskArgs | src/download-manager.js:118-128 | the argument vector of a playlist task carries the archive in the downloads folder, the channel's template, the 1080p mp4 format, the info json and the channel's custom arguments, and drops the thumbnail switch |
| DownloadManager.DownloadPlaylist | src/download-manager.js:78-147 | once both checks pass it fails exactly when the enumeration fails, with its message; on success the number returned is the number of tasks pushed |
| DownloadManager.DownloadPlaylistIsPlan | src/download-manager.js:78-147 | a failed call changes nothing; a successful one pushes the planned tasks and starts the workers unless they are running |
| DownloadManager.DownloadPlaylists | src/download-manager.js:163-167 | the playlist loop succeeds exactly when every enumeration succeeds; an error is one of theirs; the total is the number of tasks pushed |
| DownloadManager.EnabledPlaylists | src/download-manager.js:156-157 | exactly the enabled playlists of the channel, in title order |
| DownloadManager.DownloadChannel | src/download-manager.js:149-170 | an unknown channel or one without enabled playlists throws before anything happens; otherwise it succeeds exactly when every enabled playlist enumerates, `playlists` counts them and `queued` counts the tasks pushed |
| DownloadManager.SingleChannel | src/download-manager.js:190 | a channel is looked up only for a truthy id, and the row found has it |
| DownloadManager.SingleTemplate | src/download-manager.js:191-193 | a single video always gets the flat template, whatever the channel's flat mode |
| DownloadManager.SingleOptions | src/download-manager.js:195-204 | a single video's options carry no download archive, the flat template, and the channel's custom arguments only when a channel was found |
| DownloadManager.DownloadSingleVideo | src/download-manager.js:172-219 | a failed info lookup changes nothing and passes its error on; otherwise the video has a row afterwards (its status may already be `downloading` if a worker claimed it), exactly one task goes to the back of the queue, and the video id is returned |
| DownloadManager.SingleRow | src/download-manager.js:176-188 | a known video keeps its status, playlist, file path and download time; an unknown one is added pending, outside any playlist, with the url given |
| DownloadManager.GetQueueStatus | src/download-manager.js:221-231 | reports the queue length, the active count, and per active download in map order its id, progress and elapsed whole seconds |
| DownloadManager.QueueStatusShape | src/download-manager.js:221-231 | every reported download is at progress 0, is held by a worker, and no id is reported twice |
| DownloadManager.ActiveBounded | src/download-manager.js:21-24 | there are never more active downloads than worker loops |
| Scheduler.DueChannels | src/scheduler.js:38-45 | the channels a sweep visits are exactly the due ones: never scraped, or scraped at least the interval in days ago |
| Scheduler.DueStaysDue | src/scheduler.js:38-45 | a channel due at one instant is due at every later instant while its row is unchanged |
| Scheduler.SweepKeepsDue | src/scheduler.js:35-56 | since a sweep leaves the channel rows alone, every channel due at one sweep is due again at any later sweep |
| Scheduler.ScrapeEndsDue | src/server.js:196-200 | the manual scrape (and, the same way, adding a channel at src/server.js:133-137) stamps `last_scraped_at`, after which the channel is not due until its interval has passed |
| Scheduler.Visit | src/scheduler.js:48-53 | a visit succeeds exactly when the channel has enabled playlists and all of them enumerate |
| Scheduler.Sweep | src/scheduler.js:41-55 | one attempt per due channel, in order; a failure does not stop the channels after it |
| Scheduler.CheckAndDownload | src/scheduler.js:35-56 | every due channel, in `getAllChannels` order, goes through `downloadChannel`; each visit succeeds or fails on its own |
| Scheduler.TriggerChannel | src/scheduler.js:58-61 | `downloadChannel` without the due check; it succeeds exactly when `downloadChannel` does, and an unknown channel fails |
| Scheduler.NewSched | src/scheduler.js:5-6 | a new scheduler has no timer and is not running |
| Scheduler.ClearInterval | src/scheduler.js:11 | exactly that timer stops |
| Scheduler.StartTimerAsWritten | src/scheduler.js:9-26 | the old timer is cleared, and exactly one new timer runs, with the period the runtime makes of `intervalDays` days |
| Scheduler.LongIntervalFloods | src/scheduler.js:15-25 | asking for 25 days or more gives a timer that fires every millisecond |
| Scheduler.NonPositiveIntervalFloods | src/scheduler.js:15-25 | asking for a negative number of days, or 0 when `start` is called directly, also gives a timer that fires every millisecond |
| Scheduler.Period | src/scheduler.js:15 | the period is one the runtime honours; it is `intervalDays` days when that fits, is capped at the longest delay otherwise, and is the 7-day default for a non-positive request |
| Scheduler.StartTimer | src/scheduler.js:9-26 | the old timer is cleared first, so exactly one new timer runs afterwards, with the capped period |
| Scheduler.StartTimerAgrees | src/scheduler.js:15-25 | wherever the runtime honours `intervalDays` days, the capped timer is the timer the code sets |
| Scheduler.Stop | src/scheduler.js:28-33 | no timer runs afterwards and the scheduler is not running |
| Scheduler.StopIdempotent | src/scheduler.js:28-33 | a second `stop` changes nothing |
| Scheduler.RunningIffTimer | src/scheduler.js:65 | `running` holds exactly when one timer runs, and not running exactly when none does |
| Scheduler.GetStatus | src/scheduler.js:63-68 | `running` holds exactly when a timer is set, together with the queue status |
| Scheduler.RequestedDays | src/server.js:299 | `start` receives the body's `intervalDays` when it is truthy and 7 otherwise, so never 0 |
| Scheduler.Start | src/scheduler.js:9-26 | afterwards exactly one new timer runs, with the period the runtime makes of the requested days, and one sweep over the due channels has run |
| Scheduler.StartCapped | src/scheduler.js:9-26 | as `start`, but the one new timer has the capped period |
| Scheduler.Tick | src/scheduler.js:23-25 | a tick runs the same sweep and leaves the timer alone |
| YouTubeApi.LoadQuotaData | src/youtube-api-service.js:52-68 | stored data is kept until its reset time has passed; missing or expired data is replaced by fresh data |
| YouTubeApi.LoadQuotaDataIdempotent | src/youtube-api-service.js:52-68 | reloading what was just loaded changes nothing |
| YouTubeApi.CostOf | src/youtube-api-service.js:98-104 | the three list operations cost one unit and every other operation costs nothing |
| YouTubeApi.TrackQuotaCost | src/youtube-api-service.js:97-113 | adds cost × count to `used`, keeps it even when it throws, and throws exactly when `used` reaches the limit |
| YouTubeApi.QuotaExhaustionSticks | src/youtube-api-service.js:105-112 | once the quota is exhausted every further charge throws |
| YouTubeApi.TrackQuotaCostAdds | src/youtube-api-service.js:104-105 | successive charges add up |
| YouTubeApi.GetQuotaStatus | src/youtube-api-service.js:115-124 | reloads the data, and reports used plus remaining equal to the limit |
| YouTubeApi.QuotaStatusAfterReset | src/youtube-api-service.js:115-124 | after the reset time the whole daily limit is available again |
| YouTubeApi.StoredKey | src/youtube-api-service.js:28-29 | a saved key has no surrounding white space |
| YouTubeApi.SavedKeyReloads | src/youtube-api-service.js:15-36 | saving and loading a key gives the same key, and it is valid exactly when its trimmed form is longer than 30 characters |
| YouTubeApi.RunLength | src/youtube-api-service.js:158 | the `[\w-]+` run is made of word characters and is maximal |
| YouTubeApi.Find | src/youtube-api-service.js:158-169 | `match` finds the leftmost match, and finds none exactly when no position matches |
| YouTubeApi.ClassifyChannelUrl | src/youtube-api-service.js:153-176 | a channel id when the channel pattern matches the trimmed url anywhere; else a handle when the handle pattern does; else a user name when the `/c/` or `/user/` pattern does; the identifier is always the capture of that pattern's leftmost match, as `match[1]` / `match[2]` give |
| YouTubeApi.CapturedShape | src/youtube-api-service.js:158-169 | a capture is a non-empty `[\w-]` run, and a channel id also starts with `UC` |
| YouTubeApi.ClassifiedShape | src/youtube-api-service.js:158-172 | every identifier returned is made of `[\w-]` characters, and a channel id starts with `UC` |
| YouTubeApi.ChannelUrlGivesId | src/youtube-api-service.js:158-159 | `https://www.youtube.com/channel/UC…` yields its channel id |
| YouTubeApi.HandleUrlGivesHandle | src/youtube-api-service.js:162-166 | `https://www.youtube.com/@handle` yields the handle |
| YouTubeApi.UserUrlGivesName | src/youtube-api-service.js:169-173 | `https://www.youtube.com/user/name` yields the legacy user name |
| YouTubeApi.ResolveUsername | src/youtube-api-service.js:184-205 | the lookup is charged one unit before its response is read, and succeeds exactly when the quota holds, the response is no error and names a channel, then returning the first |
| YouTubeApi.GetChannelIdFromUrl | src/youtube-api-service.js:153-182 | a channel id is returned as is, a handle is refused, a url with neither is an error; a `/c/` or `/user/` name is resolved through the API, which always charges one unit and yields that lookup's outcome; no other branch charges |
| YouTubeApi.NumberedAppend | src/youtube-api-service.js:265-269 | appending a page's records continues the numbering without a gap |
| YouTubeApi.EnumeratePlaylistVideos | src/youtube-api-service.js:246-284 | each page is charged before its error is read; it succeeds exactly when no page fails; the records are the items in order, numbered 1, 2, … across pages, each with its title, watch url and the item's channel title as uploader; a failure is the first failing page's |
| SponsorBlock.ActionOf | test/sponsorblock.test.js:30-34 | only `mark` and `remove` select an action |
| SponsorBlock.SponsorBlockArgs | test/sponsorblock.test.js:25-35 | the argument string is empty exactly when disabled, without categories, or for an unknown mode |
| SponsorBlock.SponsorBlockArgsRoundTrip | test/sponsorblock.test.js:26-35 | the argument string carries exactly the effective action and the category string verbatim, and nothing when inactive |
| SponsorBlock.MissingModeIsMark | test/sponsorblock.test.js:27 | a missing or empty mode behaves as `mark` |
| SponsorBlock.SponsorBlockTokens | test/sponsorblock.test.js:31-33 | with space-free categories the argument string is exactly two tokens: flag and categories |
| SponsorBlock.TrimEmptyIff | test/sponsorblock.test.js:37-40 | `trim` gives the empty string exactly for white space only |
| SponsorBlock.CombineNullIff | test/sponsorblock.test.js:37-40 | the combined value is null exactly when both parts are blank |
| SponsorBlock.DisabledGivesNull | test/sponsorblock.test.js:83-100 | with no custom arguments and SponsorBlock inactive the combined value is null |
| SponsorBlock.CombineSponsorBlockOnly | test/sponsorblock.test.js:37-42 | without custom arguments the combined value is the SponsorBlock argument string |
| SponsorBlock.CombineBoth | test/sponsorblock.test.js:124-129 | custom arguments come first, then one space, then the SponsorBlock arguments |
| SponsorBlock.CombinedTokens | test/sponsorblock.test.js:124-129 | `download` splits the combined value into the custom tokens followed by flag and categories |
| SponsorBlock.CheckCategories | test/sponsorblock.test.js:146-149 | accepts exactly when every comma-separated, trimmed item is a known category |
| SponsorBlock.EmptyIsInvalid | test/sponsorblock.test.js:147-148 | the empty string is not a valid category list |
| SponsorBlock.KnownTrimmed | test/sponsorblock.test.js:148 | a known category is unchanged by `trim` |
| SponsorBlock.JoinedKnownIsValid | test/sponsorblock.test.js:143-149 | any non-empty comma-joined list of known categories is valid |
| SponsorBlock.ValidConcat | test/sponsorblock.test.js:147-149 | two valid lists joined by a comma stay valid |
| SponsorBlock.SplitMiddle | test/sponsorblock.test.js:147 | the item between two commas is what sits there |
| SponsorBlock.UnknownItemInvalid | test/sponsorblock.test.js:147-149 | a list with an unknown item is rejected wherever the item sits |

## Left out

- The HTTP server, authentication, cookie upload and signal handling (src/server.js) are not
  modelled, nor is the browser UI (public/js/app.js). Both are plumbing around the core.
  - The only server fact used is that `start` is called with `intervalDays || 7` (src/server.js:299), which `Scheduler.RequestedDays` models.
- The `TypeError`s from the undefined `db.getPlaylist` and `db.getVideo` are not modelled. Both
  are assumed to be primary-key lookups, so the model's downloads complete where the code as
  written would mark them `failed`.
- Real concurrency is not modelled.
  - The interleaving of worker promises during `await` is an arbitrary sequence of events, and
    `RunIsFifo` holds for all of them.
  - `start` does not await its first sweep. The model runs that sweep atomically, and a sweep
    runs each `downloadChannel` as one step.
  - Timer firing times are not modelled: a tick is an event.
- One `now` serves a whole operation. Distinct clock reads inside one operation are not
  distinguished.
- The following are named operations outside the modelled core:
  - `deleteChannel`, `getVideosByChannel` and `close` (src/database.js);
  - `getVideoInfo` (src/ytdlp-service.js), whose result is a parameter;
  - `testApiKey`, `deleteApiKey` and the API's `enumeratePlaylists` (src/youtube-api-service.js:130-151, 38-50, 207-244).
  - The API's `enumeratePlaylists` pages the same way `enumeratePlaylistVideos` does.
- The `--dump-json --flat-playlist` argument vector of `enumeratePlaylists`
  (src/ytdlp-service.js:12-22) is not modelled. The grouping of its output is.
- `getNextMidnightPacific` and time zones are out of scope: the next reset time is a parameter.
  `upload_date` formatting is also out of scope, and the file I/O of the key and quota files is
  a parameter (the stored value).
- The `parseInt` of the concurrency setting is not modelled: the parsed number is a parameter.
  A non-positive or NaN value behaves as 0 workers.
- `path.join` normalisation is not modelled. `ArchivePath` joins with one separator.
- Progress percentages are floats and are never reported, so progress stays 0.
- Fractional `intervalDays` values are not modelled: the period is in whole days.
- `fetch` failures before `resolveUsernameToChannelId` charges quota are not modelled: the
  response is a parameter.
- The cost table is a plain object in the source, so an inherited key such as `toString` would
  yield a non-number cost. Operations are modelled as the three list names and everything else.
- Strings are sequences of code points, not UTF-16 units. Lengths such as the 30-character key
  check agree for ASCII keys.
- Common.Trim: its contract only says the result has no surrounding white space. The full
  characterisation, that it is the infix between white-space prefix and suffix, is
  `Common.TrimInfix`.
- DownloadManager.DownloadPlaylists: states that a failure carries the message of some failing
  enumeration, not that it is the first one in title order.
- DownloadManager.DownloadChannel: states that a failure carries the message of some failing
  enabled playlist, not that it is the first one in title order.
- DownloadManager.PlaylistTasks: its contract gives only the count. The contents are stated by
  `DownloadManager.PlanTasks`.
- Scheduler.Sweep: the tasks the visited channels queue are not stated per channel. The
  attempts are, and `DownloadManager.DownloadChannel` states the queueing.

## Findings

| source | as written | input that shows it | evidently intended | confidence | as-written member | corrected member |
|---|---|---|---|---|---|---|
| src/scheduler.js:15-25 | the period `intervalDays * 86400000` ms goes straight to `setInterval`, and Node runs any delay above 2^31 - 1 ms, or below 1 ms, every millisecond | `intervalDays = 25` (2 160 000 000 ms), or `intervalDays = -1`; src/server.js:299 passes both | a period of `intervalDays` days, capped at the longest delay the runtime accepts; a non-positive request takes the 7-day default | not executed | Scheduler.StartTimerAsWritten | Scheduler.StartTimer |

`Scheduler.LongIntervalFloods` proves that the as-written timer fires every millisecond for any
request of 25 days or more, and `Scheduler.NonPositiveIntervalFloods` proves the same for any
request of 0 days or fewer. `Scheduler.Start` models `start` as written, on
`Scheduler.StartTimerAsWritten`. `Scheduler.Period` gives the corrected period, which
`Scheduler.StartTimer` and `Scheduler.StartCapped` use. `Scheduler.StartTimerAgrees` proves that
the two timers are the same wherever the runtime honours the request.

=== FILE: common.dfy ===
/** Shared vocabulary of the model: optional values, results carrying an error
    message (a JavaScript `Error`), JavaScript truthiness of strings, and the
    string primitives the source leans on (`split`, `join`, `trim`). */
module Common {

  /** A nullable value: `null`/`undefined` is `None`. */
  datatype Option<+T> = None | Some(value: T) {
    function GetOr(default: T): T {
      match this
      case Some(v) => v
      case None => default
    }
  }

  /** The outcome of an operation that may throw; `Err` carries the message. */
  datatype Result<+T> = Ok(value: T) | Err(message: string)

  /** JavaScript truthiness of a nullable string: neither null nor "". */
  predicate Truthy(o: Option<string>) {
    o.Some? && o.value != ""
  }

  /** JavaScript truthiness of a nullable number: neither null nor 0. */
  predicate TruthyInt(o: Option<int>) {
    o.Some? && o.value != 0
  }

  /** `a || b` for nullable strings: one of the operands, truthy exactly
      when either is, and the first whenever that one is truthy. */
  function OrElse(a: Option<string>, b: Option<string>): (r: Option<string>)
    ensures r == a || r == b
    ensures Truthy(r) <==> Truthy(a) || Truthy(b)
    ensures Truthy(a) ==> r == a
  {
    if Truthy(a) then a else b
  }

  // ---------------------------------------------------------------------------
  // Searching and filtering sequences

  /** Index of the first element satisfying `p`, if any. */
  function IndexWhere<T>(s: seq<T>, p: T -> bool): (r: Option<nat>)
    ensures r.Some? ==> r.value < |s| && p(s[r.value])
    ensures r.Some? ==> forall j :: 0 <= j < r.value ==> !p(s[j])
    ensures r.None? <==> forall j :: 0 <= j < |s| ==> !p(s[j])
    decreases |s|
  {
    if |s| == 0 then None
    else if p(s[0]) then Some(0)
    else
      match IndexWhere(s[1..], p)
      case None => None
      case Some(i) => Some(i + 1)
  }

  /** `Array.prototype.filter`: the elements satisfying `p`, in order. */
  function Filter<T(!new)>(s: seq<T>, p: T -> bool): (r: seq<T>)
    ensures |r| <= |s|
    ensures forall x :: x in r <==> x in s && p(x)
    ensures forall k :: 0 <= k < |r| ==> p(r[k])
    decreases |s|
  {
    if |s| == 0 then []
    else if p(s[0]) then [s[0]] + Filter(s[1..], p)
    else Filter(s[1..], p)
  }

  /** Two sequences of the same length whose elements correspond pairwise. */
  predicate Zipped<A, B>(a: seq<A>, b: seq<B>, ok: (A, B) -> bool) {
    |a| == |b| && forall k :: 0 <= k < |a| ==> ok(a[k], b[k])
  }

  lemma ZippedAppend<A, B>(a: seq<A>, b: seq<B>, a': seq<A>, b': seq<B>, ok: (A, B) -> bool)
    requires Zipped(a, b, ok) && Zipped(a', b', ok)
    ensures Zipped(a + a', b + b', ok)
  {
    forall k | 0 <= k < |a| + |a'| ensures ok((a + a')[k], (b + b')[k]) {
      if k >= |a| {
        assert (a + a')[k] == a'[k - |a|] && (b + b')[k] == b'[k - |b|];
      }
    }
  }

  /** Filtering keeps every occurrence of a value that passes and none of one
      that does not. */
  lemma {:induction false} FilterCount<T(!new)>(s: seq<T>, p: T -> bool, x: T)
    ensures multiset(Filter(s, p))[x] == if p(x) then multiset(s)[x] else 0
    decreases |s|
  {
    if |s| > 0 {
      FilterCount(s[1..], p, x);
      assert s == [s[0]] + s[1..];
    }
  }

  /** Rearranging the input rearranges the output: filtering two orderings of
      the same rows gives the same rows. */
  lemma FilterPermutation<T(!new)>(a: seq<T>, b: seq<T>, p: T -> bool)
    requires multiset(a) == multiset(b)
    ensures multiset(Filter(a, p)) == multiset(Filter(b, p))
    ensures |Filter(a, p)| == |Filter(b, p)|
  {
    forall x ensures multiset(Filter(a, p))[x] == multiset(Filter(b, p))[x] {
      FilterCount(a, p, x);
      FilterCount(b, p, x);
    }
    assert multiset(Filter(a, p)) == multiset(Filter(b, p));
    assert |multiset(Filter(a, p))| == |Filter(a, p)|;
  }

  // ---------------------------------------------------------------------------
  // String.prototype.split with a one-character separator, and Array.prototype.join

  /** `s.split(sep)`: the maximal separator-free pieces; "" splits to [""]. */
  function Split(s: string, sep: char): (r: seq<string>)
    ensures |r| >= 1
    ensures forall k :: 0 <= k < |r| ==> sep !in r[k]
    decreases |s|
  {
    if |s| == 0 then [""]
    else
      var rest := Split(s[1..], sep);
      if s[0] == sep then [""] + rest
      else [[s[0]] + rest[0]] + rest[1..]
  }

  /** `parts.join(sep)`. */
  function Join(parts: seq<string>, sep: char): string
    decreases |parts|
  {
    if |parts| == 0 then ""
    else if |parts| == 1 then parts[0]
    else parts[0] + [sep] + Join(parts[1..], sep)
  }

  /** Joining the pieces of a split gives back the original string. */
  lemma {:induction false} JoinSplit(s: string, sep: char)
    ensures Join(Split(s, sep), sep) == s
    decreases |s|
  {
    if |s| > 0 {
      var rest := Split(s[1..], sep);
      JoinSplit(s[1..], sep);
      if s[0] == sep {
        assert Split(s, sep) == [""] + rest;
        assert ([""] + rest)[1..] == rest;
        assert s == [sep] + s[1..];
      } else {
        var r := Split(s, sep);
        assert r == [[s[0]] + rest[0]] + rest[1..];
        if |rest| == 1 {
          assert s == [s[0]] + rest[0];
        } else {
          assert r[1..] == rest[1..];
          assert Join(rest, sep) == rest[0] + [sep] + Join(rest[1..], sep);
          assert s == [s[0]] + s[1..];
        }
      }
    }
  }

  /** One step of `Split`, for a string given as its first character and
      the rest. */
  lemma SplitCons(c: char, t: string, sep: char)
    ensures Split([c] + t, sep)
         == if c == sep then [""] + Split(t, sep)
            else [[c] + Split(t, sep)[0]] + Split(t, sep)[1..]
  {
    assert ([c] + t)[0] == c && ([c] + t)[1..] == t;
  }

  /** A separator in the middle splits into the pieces of either side. */
  lemma {:induction false} SplitAround(a: string, b: string, sep: char)
    ensures Split(a + [sep] + b, sep) == Split(a, sep) + Split(b, sep)
    decreases |a|
  {
    if |a| == 0 {
      assert a + [sep] + b == [sep] + b;
      SplitCons(sep, b, sep);
    } else {
      var c, rest := a[0], a[1..];
      var t := rest + [sep] + b;
      assert a + [sep] + b == [c] + t && a == [c] + rest;
      SplitAround(rest, b, sep);
      SplitCons(c, t, sep);
      SplitCons(c, rest, sep);
      ConsPieces(c == sep, [c], Split(rest, sep), Split(b, sep));
    }
  }

  /** The sequence algebra behind one step of `SplitAround`: prefixing a
      character (or starting a new piece) commutes with appending the pieces
      of the far side. */
  lemma ConsPieces(isSep: bool, pre: string, ra: seq<string>, sb: seq<string>)
    requires |ra| >= 1
    ensures (if isSep then [""] + (ra + sb) else [pre + (ra + sb)[0]] + (ra + sb)[1..])
         == (if isSep then [""] + ra else [pre + ra[0]] + ra[1..]) + sb
  {
    if !isSep {
      assert (ra + sb)[1..] == ra[1..] + sb;
    }
  }

  /** A string without the separator is its own single piece. */
  lemma {:induction false} SplitNoSeparator(s: string, sep: char)
    requires sep !in s
    ensures Split(s, sep) == [s]
    decreases |s|
  {
    if |s| > 0 {
      assert sep !in s[1..];
      SplitNoSeparator(s[1..], sep);
      assert s == [s[0]] + s[1..];
    }
  }

  /** Splitting a join of separator-free pieces gives the pieces back. */
  lemma {:induction false} SplitJoin(parts: seq<string>, sep: char)
    requires |parts| >= 1
    requires forall k :: 0 <= k < |parts| ==> sep !in parts[k]
    ensures Split(Join(parts, sep), sep) == parts
    decreases |parts|
  {
    SplitNoSeparator(parts[0], sep);
    if |parts| > 1 {
      SplitJoin(parts[1..], sep);
      SplitAround(parts[0], Join(parts[1..], sep), sep);
      assert parts == [parts[0]] + parts[1..];
    }
  }

  // ---------------------------------------------------------------------------
  // String.prototype.trim

  /** ECMAScript WhiteSpace and LineTerminator code points, the set `trim` strips. */
  predicate IsSpace(c: char) {
    c == '\t' || c == '\n' || c == '\U{000B}' || c == '\U{000C}' || c == '\r' || c == ' '
    || c == '\U{00A0}' || c == '\U{1680}' || ('\U{2000}' <= c <= '\U{200A}')
    || c == '\U{2028}' || c == '\U{2029}' || c == '\U{202F}' || c == '\U{205F}'
    || c == '\U{3000}' || c == '\U{FEFF}'
  }

  /** No leading or trailing white space. */
  predicate Trimmed(s: string) {
    s == [] || (!IsSpace(s[0]) && !IsSpace(s[|s| - 1]))
  }

  function TrimStart(s: string): (r: string)
    ensures |r| <= |s| && r == s[|s| - |r|..]
    ensures forall k :: 0 <= k < |s| - |r| ==> IsSpace(s[k])
    ensures r == [] || !IsSpace(r[0])
    decreases |s|
  {
    if |s| > 0 && IsSpace(s[0]) then TrimStart(s[1..]) else s
  }

  function TrimEnd(s: string): (r: string)
    ensures |r| <= |s| && r == s[..|r|]
    ensures forall k :: |r| <= k < |s| ==> IsSpace(s[k])
    ensures r == [] || !IsSpace(r[|r| - 1])
    decreases |s|
  {
    if |s| > 0 && IsSpace(s[|s| - 1]) then TrimEnd(s[..|s| - 1]) else s
  }

  /** `s.trim()`: drops the white space at both ends. */
  function Trim(s: string): (r: string)
    ensures Trimmed(r)
  {
    TrimEnd(TrimStart(s))
  }

  /** What `trim` keeps is the infix between white space only prefix and
      suffix. */
  lemma TrimInfix(s: string)
    ensures exists i, j ::
              (0 <= i <= j <= |s| && Trim(s) == s[i..j]
               && (forall k :: 0 <= k < i ==> IsSpace(s[k]))
               && (forall k :: j <= k < |s| ==> IsSpace(s[k])))
  {
    var a := TrimStart(s);
    var r := TrimEnd(a);
    var i := |s| - |a|;
    assert r == s[i..i + |r|];
    assert forall k :: i + |r| <= k < |s| ==> IsSpace(s[k]) by {
      forall k | i + |r| <= k < |s| ensures IsSpace(s[k]) {
        assert s[k] == a[k - i];
      }
    }
  }

  /** A string that already has no surrounding white space is left alone. */
  lemma TrimOfTrimmed(s: string)
    requires Trimmed(s)
    ensures Trim(s) == s
  {
    assert TrimStart(s) == s;
    assert TrimEnd(s) == s;
  }

  /** Trimming twice is trimming once. */
  lemma TrimIdempotent(s: string)
    ensures Trim(Trim(s)) == Trim(s)
  {
    TrimOfTrimmed(Trim(s));
  }
}

=== FILE: download_manager.dfy ===
/** The download manager of src/download-manager.js on top of the worker
    loops of module WorkerPool: what each step writes to the database and the
    map of active downloads (the per-video status path
    pending -> downloading -> completed | failed), and the three operations
    that fill the queue.

    Times are milliseconds (`Date.now()`); the database's own timestamps are
    the same instant in whole seconds. */
module DownloadManager {
  import opened Common
  import opened Store
  import opened Sorting
  import opened WorkerPool
  import YtDlp

  /** An `activeDownloads` value. */
  datatype ActiveInfo = ActiveInfo(progress: int, startTime: int)

  /** The manager's fields; `activeDownloads` is a Map, kept here as its
      entries in insertion order. */
  datatype Manager = Manager(
    db: Db,
    pool: Pool,
    active: seq<(string, ActiveInfo)>,
    downloadsPath: string)

  /** What some steps did: the state they reached and the tasks workers took
      off the queue, in the order they took them. */
  datatype Moved = Moved(m: Manager, claimed: seq<Task>)

  /** The constructor: an empty queue, nothing active, not processing. */
  function NewManager(db: Db, downloadsPath: string, concurrency: int): (m: Manager)
    requires Valid(db)
    ensures Inv(m)
    ensures m.pool.queue == [] && m.active == [] && !m.pool.isProcessing
    ensures m.pool.concurrency == concurrency
  {
    Manager(db, Pool([], [], false, concurrency), [], downloadsPath)
  }

  /** `Math.floor(ms / 1000)`: with a positive divisor, Dafny's division rounds
      down as well. */
  function Seconds(ms: int): int {
    ms / 1000
  }

  // ---------------------------------------------------------------------------
  // The active-download map

  predicate DistinctKeys(a: seq<(string, ActiveInfo)>) {
    forall i, j :: 0 <= i < j < |a| ==> a[i].0 != a[j].0
  }

  predicate HasKey(a: seq<(string, ActiveInfo)>, id: string) {
    exists i :: 0 <= i < |a| && a[i].0 == id
  }

  /** `Map.set`: a present key keeps its place and takes the new value; a new
      key goes to the end. */
  function SetActive(a: seq<(string, ActiveInfo)>, id: string, info: ActiveInfo): (r: seq<(string, ActiveInfo)>)
    requires DistinctKeys(a)
    ensures DistinctKeys(r)
    ensures forall e :: e in r <==> e == (id, info) || (e.0 != id && e in a)
    ensures |r| == if HasKey(a, id) then |a| else |a| + 1
  {
    match IndexWhere(a, (e: (string, ActiveInfo)) => e.0 == id)
    case Some(i) =>
      var r := a[i := (id, info)];
      assert r[i] == (id, info);
      assert forall e :: e in r <==> e == (id, info) || (e.0 != id && e in a) by {
        forall e ensures e in r <==> e == (id, info) || (e.0 != id && e in a) {
          if e in r {
            var j :| 0 <= j < |r| && r[j] == e;
            if j != i {
              assert e == a[j];
            }
          }
          if e in a && e.0 != id {
            var j :| 0 <= j < |a| && a[j] == e;
            assert j != i;
            assert r[j] == e;
          }
        }
      }
      r
    case None =>
      a + [(id, info)]
  }

  /** `Map.delete`. */
  function DeleteActive(a: seq<(string, ActiveInfo)>, id: string): (r: seq<(string, ActiveInfo)>)
    requires DistinctKeys(a)
    ensures DistinctKeys(r)
    ensures forall e :: e in r <==> e in a && e.0 != id
    ensures |r| <= |a|
    decreases |a|
  {
    if |a| == 0 then []
    else
      var rest := DeleteActive(a[1..], id);
      assert forall e :: e in rest ==> e.0 != a[0].0 by {
        forall e | e in rest ensures e.0 != a[0].0 {
          var j :| 0 <= j < |a[1..]| && a[1..][j] == e;
          assert a[j + 1] == e;
        }
      }
      if a[0].0 == id then rest else [a[0]] + rest
  }

  // ---------------------------------------------------------------------------
  // Worker steps with their effects

  predicate BusyWith(ws: seq<Worker>, id: string) {
    exists w :: 0 <= w < |ws| && ws[w].Busy? && ws[w].task.videoId == id
  }

  /** What holds between steps: the schema holds, the map has one entry per
      key, every active id is being downloaded by some worker and was
      registered at progress 0 (`download` never calls the progress callback
      it is handed, so the 0 is never raised), and `isProcessing` is set
      exactly while some worker loop has not returned. */
  predicate Inv(m: Manager) {
    && Valid(m.db)
    && DistinctKeys(m.active)
    && (forall e :: e in m.active ==> e.1.progress == 0 && BusyWith(m.pool.workers, e.0))
    && PoolInv(m.pool)
  }

  /** Nothing fixed by the manager's construction changes. */
  predicate Frame(m: Manager, m': Manager) {
    && m'.db.channels == m.db.channels
    && m'.db.playlists == m.db.playlists
    && m'.pool.concurrency == m.pool.concurrency
    && m'.downloadsPath == m.downloadsPath
  }

  /** The worker loops only rewrite rows: every video row keeps its place
      and its id, and none is added. */
  predicate RowsKept(db: Db, r: Db) {
    && |r.videos| == |db.videos|
    && forall i :: 0 <= i < |db.videos| ==> r.videos[i].videoId == db.videos[i].videoId
  }

  /** A manager that is not processing has no download in flight. */
  lemma NotProcessingIsQuiet(m: Manager)
    requires Inv(m)
    requires !m.pool.isProcessing
    ensures forall e :: e !in m.active
    ensures forall w :: 0 <= w < |m.pool.workers| ==> !m.pool.workers[w].Busy?
  {
  }

  /** Ids some worker was downloading stay so when the busy workers keep
      their tasks. */
  lemma BusyKept(ws: seq<Worker>, ws': seq<Worker>, id: string)
    requires |ws'| == |ws|
    requires forall j :: 0 <= j < |ws| && ws[j].Busy? ==> ws'[j] == ws[j]
    requires BusyWith(ws, id)
    ensures BusyWith(ws', id)
  {
    var w :| 0 <= w < |ws| && ws[w].Busy? && ws[w].task.videoId == id;
    assert ws'[w] == ws[w];
  }

  /** Worker `w` at the top of its loop, with the part of `processDownload`
      before its first `await` (src/download-manager.js:31-34, 45-46): a
      claimed video becomes `downloading` (its file path and download time
      cleared) and is registered as active at progress 0; a worker that
      returns or does not move writes nothing. */
  function Check(m: Manager, w: nat, now: int): (r: Moved)
    requires Inv(m)
    ensures Inv(r.m) && Frame(m, r.m) && RowsKept(m.db, r.m.db)
    ensures Stepped(r.m.pool, r.claimed) == PoolCheck(m.pool, w)
    ensures r.claimed == [] ==> r.m.db == m.db && r.m.active == m.active
    ensures r.claimed != [] ==>
      var id := r.claimed[0].videoId;
      && r.m.active == SetActive(m.active, id, ActiveInfo(0, now))
      && r.m.db == UpdateVideoStatus(m.db, id, Downloading, None, None, Seconds(now))
  {
    var s := PoolCheck(m.pool, w);
    CheckInv(m.pool, w);
    if s.claimed == [] then
      forall e | e in m.active ensures BusyWith(s.p.workers, e.0) {
        BusyKept(m.pool.workers, s.p.workers, e.0);
      }
      Moved(m.(pool := s.p), [])
    else
      assert w < |m.pool.workers| && m.pool.workers[w].Idle? && |m.pool.queue| > 0;
      var t := s.claimed[0];
      var active := SetActive(m.active, t.videoId, ActiveInfo(0, now));
      forall e | e in active ensures BusyWith(s.p.workers, e.0) {
        if e.0 != t.videoId {
          BusyKept(m.pool.workers, s.p.workers, e.0);
        } else {
          assert s.p.workers[w] == Busy(t);
        }
      }
      var db := UpdateVideoStatus(m.db, t.videoId, Downloading, None, None, Seconds(now));
      Moved(Manager(db, s.p, active, m.downloadsPath), s.claimed)
  }

  /** The status write of a settled download. */
  function SettledDb(db: Db, id: string, outcome: Settled, now: int): (r: Db)
    requires Valid(db)
    ensures Valid(r)
    ensures r.channels == db.channels && r.playlists == db.playlists
    ensures |r.videos| == |db.videos|
    ensures forall i :: 0 <= i < |db.videos| ==>
      r.videos[i] == if db.videos[i].videoId != id then db.videos[i]
        else if outcome.Downloaded?
        then db.videos[i].(status := Completed, filePath := None,
                           downloadedAt := Some(Seconds(now)), updatedAt := Seconds(now))
        else db.videos[i].(status := Failed, filePath := None, downloadedAt := None,
                           updatedAt := Seconds(now))
  {
    match outcome
    case Downloaded => UpdateVideoStatus(db, id, Completed, None, Some(Seconds(now)), Seconds(now))
    case DownloadFailed(_) => UpdateVideoStatus(db, id, Failed, None, None, Seconds(now))
  }

  /** The rest of `processDownload` once the download settles
      (src/download-manager.js:66-68 and 72-74): the video becomes `completed`
      with the download time in seconds, or `failed` with no download time;
      either way its file path is cleared and its id leaves the active map,
      and the error is not rethrown, so the worker goes back to the top of its
      loop. The file size and the error message are passed to
      `updateVideoStatus` but it takes only four parameters, so neither is
      stored. */
  function Finish(m: Manager, w: nat, outcome: Settled, now: int): (r: Manager)
    requires Inv(m)
    ensures Inv(r) && Frame(m, r)
    ensures r.pool == PoolRelease(m.pool, w)
    ensures w < |m.pool.workers| && m.pool.workers[w].Busy? ==>
      var id := m.pool.workers[w].task.videoId;
      && (forall e :: e in r.active <==> e in m.active && e.0 != id)
      && r.db == SettledDb(m.db, id, outcome, now)
    ensures !(w < |m.pool.workers| && m.pool.workers[w].Busy?) ==> r == m
  {
    var p := PoolRelease(m.pool, w);
    ReleaseInv(m.pool, w);
    if w >= |m.pool.workers| || !m.pool.workers[w].Busy? then m
    else
      var id := m.pool.workers[w].task.videoId;
      var active := DeleteActive(m.active, id);
      forall e | e in active ensures e.1.progress == 0 && BusyWith(p.workers, e.0) {
        assert e in m.active && e.0 != id;
        var v :| 0 <= v < |m.pool.workers| && m.pool.workers[v].Busy? && m.pool.workers[v].task.videoId == e.0;
        assert v != w;
        assert p.workers[v] == m.pool.workers[v];
      }
      Manager(SettledDb(m.db, id, outcome, now), p, active, m.downloadsPath)
  }

  /** Workers `i` onwards take their first step, in order, each with its
      effects. */
  function Launch(m: Manager, i: nat, now: int): (r: Moved)
    requires Inv(m)
    ensures Inv(r.m) && Frame(m, r.m) && RowsKept(m.db, r.m.db)
    ensures Stepped(r.m.pool, r.claimed) == PoolLaunch(m.pool, i)
    decreases |m.pool.workers| - i
  {
    if i >= |m.pool.workers| then Moved(m, [])
    else
      var s := Check(m, i, now);
      var rest := Launch(s.m, i + 1, now);
      LaunchUnfold(m.pool, i);
      Moved(rest.m, s.claimed + rest.claimed)
  }

  /** `startDownloads` with its effects. */
  function StartDownloads(m: Manager, now: int): (r: Moved)
    requires Inv(m)
    ensures Inv(r.m) && Frame(m, r.m) && RowsKept(m.db, r.m.db)
    ensures Stepped(r.m.pool, r.claimed) == PoolStart(m.pool)
  {
    if m.pool.isProcessing then Moved(m, [])
    else
      NotProcessingIsQuiet(m);
      Launch(m.(pool := Fresh(m.pool)), 0, now)
  }

  /** Pushing tasks, then `if (!this.isProcessing) this.startDownloads()`. */
  function Enqueue(m: Manager, tasks: seq<Task>, now: int): (r: Moved)
    requires Inv(m)
    ensures Inv(r.m) && Frame(m, r.m) && RowsKept(m.db, r.m.db)
    ensures Stepped(r.m.pool, r.claimed) == PoolEnqueue(m.pool, tasks)
  {
    StartDownloads(m.(pool := m.pool.(queue := m.pool.queue + tasks)), now)
  }

  function Apply(m: Manager, e: Event): (r: Moved)
    requires Inv(m)
    ensures Inv(r.m) && Frame(m, r.m)
    ensures Stepped(r.m.pool, r.claimed) == PoolApply(m.pool, e)
  {
    match e
    case CheckQueue(w, now) => Check(m, w, now)
    case Settle(w, outcome, now) => Moved(Finish(m, w, outcome, now), [])
    case Push(tasks, now) => Enqueue(m, tasks, now)
  }

  /** A run of events with their effects; the pool follows `PoolRun`, so the
      queue stays first in, first out (`RunIsFifo`). */
  function Run(m: Manager, es: seq<Event>): (r: Moved)
    requires Inv(m)
    ensures Inv(r.m) && Frame(m, r.m)
    ensures Stepped(r.m.pool, r.claimed) == PoolRun(m.pool, es)
    decreases |es|
  {
    if |es| == 0 then Moved(m, [])
    else
      var s := Apply(m, es[0]);
      var rest := Run(s.m, es[1..]);
      Moved(rest.m, s.claimed + rest.claimed)
  }

  /** The queue of the whole manager is first in, first out, whatever the
      interleaving of steps, settlements and pushes. */
  lemma ManagerIsFifo(m: Manager, es: seq<Event>)
    requires Inv(m)
    ensures Run(m, es).claimed + Run(m, es).m.pool.queue == m.pool.queue + Pushed(es)
  {
    RunIsFifo(m.pool, es);
  }

  /** A task's life in one worker: claimed from the head of the queue it is
      `downloading` and active; once its download settles it is `completed`
      with a download time, or `failed`, and is no longer active, whatever
      happened to the rest of the queue meanwhile. */
  lemma TaskLifecycle(m: Manager, w: nat, outcome: Settled, t1: int, t2: int)
    requires Inv(m)
    requires w < |m.pool.workers| && m.pool.workers[w].Idle? && |m.pool.queue| > 0
    ensures var t := m.pool.queue[0];
      var s := Check(m, w, t1);
      var f := Finish(s.m, w, outcome, t2);
      && s.claimed == [t]
      && (t.videoId, ActiveInfo(0, t1)) in s.m.active
      && !HasKey(f.active, t.videoId)
      && f.pool.workers[w] == Idle
      && f.pool.queue == m.pool.queue[1..]
      && (forall i :: 0 <= i < |m.db.videos| && m.db.videos[i].videoId == t.videoId ==>
            && s.m.db.videos[i].status == Downloading
            && f.db.videos[i].status == (if outcome.Downloaded? then Completed else Failed)
            && f.db.videos[i].downloadedAt == (if outcome.Downloaded? then Some(Seconds(t2)) else None)
            && f.db.videos[i].filePath == None)
  {
    var t := m.pool.queue[0];
    var s := Check(m, w, t1);
    var f := Finish(s.m, w, outcome, t2);
    assert s.m.pool.workers[w] == Busy(t);
    forall i | 0 <= i < |f.active| ensures f.active[i].0 != t.videoId {
      assert f.active[i] in f.active;
    }
  }

  // ---------------------------------------------------------------------------
  // Filling the queue: `downloadPlaylist`

  /** A video as `enumeratePlaylistVideos` reports it. */
  datatype ListedVideo = ListedVideo(
    videoId: string,
    videoTitle: Option<string>,
    videoUrl: Option<string>,
    uploader: Option<string>,
    uploadDate: Option<string>,
    duration: Option<int>,
    playlistIndex: Option<int>)

  predicate HasVideo(db: Db, id: string) {
    exists i :: 0 <= i < |db.videos| && db.videos[i].videoId == id
  }

  /** Every row of `db` is still in `r`, in its place, with only its title and
      `updated_at` possibly changed: its id, playlist, status, file path and
      download time are what they were. */
  predicate Renamed(db: Db, r: Db) {
    && |db.videos| <= |r.videos|
    && forall i :: 0 <= i < |db.videos| ==>
         r.videos[i] == db.videos[i].(videoTitle := r.videos[i].videoTitle, updatedAt := r.videos[i].updatedAt)
  }

  /** Every row `r` has beyond those of `db` is `pending` in the playlist (a
      playlist id of 0 is stored as NULL). */
  predicate AddedPending(db: Db, r: Db, playlistId: int) {
    forall i :: |db.videos| <= i < |r.videos| ==>
      && r.videos[i].status == Pending
      && r.videos[i].playlistId == (if playlistId != 0 then Some(playlistId) else None)
  }

  /** The `addVideo` argument of `downloadPlaylist` for one listed video. */
  function ListedData(channelId: int, playlistId: int, v: ListedVideo): VideoData {
    VideoData(Some(channelId), Some(playlistId), v.videoId, v.videoTitle, v.videoUrl, v.uploader,
              v.uploadDate, v.duration, v.playlistIndex, Some(Pending))
  }

  lemma AddListedStep(db: Db, channelId: int, playlistId: int, v: ListedVideo, now: int)
    requires Valid(db)
    ensures var r := AddVideo(db, ListedData(channelId, playlistId, v), now);
      Renamed(db, r) && AddedPending(db, r, playlistId) && HasVideo(r, v.videoId)
  {
    var r := AddVideo(db, ListedData(channelId, playlistId, v), now);
    if i :| 0 <= i < |db.videos| && db.videos[i].videoId == v.videoId {
      assert r.videos[i].videoId == v.videoId;
    } else {
      assert r.videos[|db.videos|].videoId == v.videoId;
    }
  }

  lemma RenamedChain(a: Db, b: Db, c: Db, playlistId: int)
    requires Renamed(a, b) && Renamed(b, c)
    requires AddedPending(a, b, playlistId) && AddedPending(b, c, playlistId)
    ensures Renamed(a, c) && AddedPending(a, c, playlistId)
  {
  }

  /** Once `addVideo` has recorded a single video, worker steps that keep the
      rows keep it recorded. */
  lemma SingleRecorded(db: Db, channelId: Option<int>, url: string, info: VideoInfo, now: int, r: Db)
    requires Valid(db)
    requires RowsKept(AddVideo(db, SingleData(channelId, url, info), now), r)
    ensures HasVideo(r, info.id)
  {
    SingleRow(db, channelId, url, info, now);
    RowsKeptHasVideo(AddVideo(db, SingleData(channelId, url, info), now), r, info.id);
  }

  lemma RowsKeptHasVideo(db: Db, r: Db, id: string)
    requires RowsKept(db, r) && GetVideo(db, id).Some?
    ensures HasVideo(r, id)
  {
    var i :| 0 <= i < |db.videos| && db.videos[i] == GetVideo(db, id).value;
    assert r.videos[i].videoId == id;
  }

  lemma RenamedHasVideo(db: Db, r: Db, id: string)
    requires Renamed(db, r) && HasVideo(db, id)
    ensures HasVideo(r, id)
  {
    var i :| 0 <= i < |db.videos| && db.videos[i].videoId == id;
    assert r.videos[i].videoId == id;
  }

  /** The `addVideo` loop of `downloadPlaylist` (src/download-manager.js:93-107). */
  function AddListed(db: Db, channelId: int, playlistId: int, videos: seq<ListedVideo>, now: int): (r: Db)
    requires Valid(db)
    ensures Valid(r)
    ensures r.channels == db.channels && r.playlists == db.playlists
    decreases |videos|
  {
    if |videos| == 0 then db
    else AddListed(AddVideo(db, ListedData(channelId, playlistId, videos[0]), now),
                   channelId, playlistId, videos[1..], now)
  }

  /** After the loop every listed video has a row; rows that existed keep
      their status, file path and download time (so a completed or failed
      video is never set back to pending); new rows are pending in the
      playlist. */
  lemma {:induction false} AddListedKeeps(db: Db, channelId: int, playlistId: int, videos: seq<ListedVideo>, now: int)
    requires Valid(db)
    ensures var r := AddListed(db, channelId, playlistId, videos, now);
      && Renamed(db, r) && AddedPending(db, r, playlistId)
      && forall k :: 0 <= k < |videos| ==> HasVideo(r, videos[k].videoId)
    decreases |videos|
  {
    if |videos| > 0 {
      var db1 := AddVideo(db, ListedData(channelId, playlistId, videos[0]), now);
      AddListedStep(db, channelId, playlistId, videos[0], now);
      var r := AddListed(db1, channelId, playlistId, videos[1..], now);
      assert r == AddListed(db, channelId, playlistId, videos, now);
      AddListedKeeps(db1, channelId, playlistId, videos[1..], now);
      RenamedChain(db, db1, r, playlistId);
      RenamedHasVideo(db1, r, videos[0].videoId);
      forall k | 1 <= k < |videos| ensures HasVideo(r, videos[k].videoId) {
        assert videos[k] == videos[1..][k - 1];
      }
    }
  }

  /** `.filter(v => v.download_status === 'pending')`. */
  const IsPending: VideoRow -> bool := (v: VideoRow) => v.status == Pending

  /** The rows of a playlist still to download. */
  function PendingOf(playlistId: int): VideoRow -> bool {
    (v: VideoRow) => v.playlistId == Some(playlistId) && v.status == Pending
  }

  /** `getVideosByPlaylist(playlistId).filter(...)`
      (src/download-manager.js:110-111): each pending row of the playlist
      once, in playlist-index order. */
  function PendingVideos(db: Db, playlistId: int): (r: seq<VideoRow>)
    ensures multiset(r) == multiset(Filter(db.videos, PendingOf(playlistId)))
    ensures Sorted(r, IndexOrder)
  {
    var rows := GetVideosByPlaylist(db, playlistId);
    var r := Filter(rows, IsPending);
    forall x ensures multiset(r)[x] == multiset(Filter(db.videos, PendingOf(playlistId)))[x] {
      FilterCount(rows, IsPending, x);
      FilterCount(db.videos, InPlaylist(playlistId), x);
      FilterCount(db.videos, PendingOf(playlistId), x);
    }
    assert multiset(r) == multiset(Filter(db.videos, PendingOf(playlistId)));
    FilterSorted(rows, IsPending, IndexOrder);
    r
  }

  // ---- the options of a playlist download

  const ChannelFolder := "%(uploader)s [%(channel_id)s]"
  const PlaylistFolder := "%(playlist_title)s [%(playlist_id)s]"
  const IndexedFile := "%(playlist_index)s - " + TitledFile
  const TitledFile := "%(title)s [%(id)s].%(ext)s"

  /** The output template of a flat channel, and of every single video:
      `%(uploader)s [%(channel_id)s]/%(title)s [%(id)s].%(ext)s`. */
  const FlatTemplate := ChannelFolder + "/" + TitledFile

  /** The output template of a channel kept in playlist folders:
      `%(uploader)s [%(channel_id)s]/%(playlist_title)s [%(playlist_id)s]/`
      followed by `%(playlist_index)s - %(title)s [%(id)s].%(ext)s`. */
  const NestedTemplate := ChannelFolder + "/" + PlaylistFolder + "/" + IndexedFile

  const Format := "bv*[height<=1080][ext=mp4]+ba[ext=m4a]/b[height<=1080] / best"

  /** A flat channel's files sit directly in the channel folder, named by
      title; otherwise each playlist has its own folder inside the channel
      folder and files are numbered by playlist index. */
  lemma TemplateFolders()
    ensures FlatTemplate == Join([ChannelFolder, TitledFile], '/')
    ensures NestedTemplate == Join([ChannelFolder, PlaylistFolder, IndexedFile], '/')
  {
    var nested := [ChannelFolder, PlaylistFolder, IndexedFile];
    assert Join(nested[1..], '/') == PlaylistFolder + "/" + IndexedFile;
  }

  lemma FolderNamesHaveNoSlash()
    ensures '/' !in ChannelFolder && '/' !in PlaylistFolder
    ensures '/' !in IndexedFile && '/' !in TitledFile
  {
    NoSlash1();
    NoSlash2();
    NoSlash3();
    NoSlash4();
  }

  lemma NoSlash1() ensures '/' !in ChannelFolder {}
  lemma NoSlash2() ensures '/' !in PlaylistFolder {}
  lemma NoSlash3() ensures '/' !in IndexedFile {
    var prefix := "%(playlist_index)s - ";
    assert '/' !in prefix;
    NoSlash4();
    assert forall c :: c in IndexedFile ==> c in prefix || c in TitledFile;
  }
  lemma NoSlash4() ensures '/' !in TitledFile {}

  /** So splitting either template at '/' gives its folder levels. */
  lemma TemplateSplit(flat: bool)
    ensures Split(if flat then FlatTemplate else NestedTemplate, '/')
         == if flat then [ChannelFolder, TitledFile] else [ChannelFolder, PlaylistFolder, IndexedFile]
  {
    TemplateFolders();
    FolderNamesHaveNoSlash();
    var parts := if flat then [ChannelFolder, TitledFile] else [ChannelFolder, PlaylistFolder, IndexedFile];
    SplitJoin(parts, '/');
  }

  /** `path.join(downloadsPath, '.downloaded')` for a path that needs no
      normalising: one separator between the two parts. */
  function ArchivePath(downloadsPath: string): (r: string)
    ensures |r| >= |downloadsPath| + 11 && r[..|downloadsPath|] == downloadsPath
    ensures r[|r| - 11..] == ".downloaded"
  {
    if downloadsPath == "" then ".downloaded"
    else if downloadsPath[|downloadsPath| - 1] == '/' then downloadsPath + ".downloaded"
    else downloadsPath + "/.downloaded"
  }

  /** The `downloadOptions` object of `downloadPlaylist`
      (src/download-manager.js:114-128). */
  function PlaylistOptions(downloadsPath: string, channel: ChannelRow): YtDlp.DownloadOptions {
    YtDlp.DownloadOptions(
      verbose := false,
      dateAfter := None,
      downloadArchive := Some(ArchivePath(downloadsPath)),
      outputPath := Some(downloadsPath),
      outputTemplate := Some(if channel.flatMode then FlatTemplate else NestedTemplate),
      format := Some(Format),
      mergeOutputFormat := Some("mp4"),
      writeInfoJson := true,
      noRestrictFilenames := true,
      writeThumbnail := true,
      customArgs := channel.ytDlpOptions)
  }

  /** One task per pending row, all sharing one options object. */
  function PlaylistTasks(rows: seq<VideoRow>, playlistId: int, channelId: int, options: YtDlp.DownloadOptions): (r: seq<Task>)
    ensures |r| == |rows|
  {
    seq(|rows|, i requires 0 <= i < |rows| =>
      Task(rows[i].videoId, Some(playlistId), Some(channelId), rows[i].videoUrl, options))
  }

  // ---- the plan of a playlist download

  const NotFoundOrDisabled := "Playlist not found or not enabled"
  const ChannelNotFound := "Channel not found"

  /** The database after the `addVideo` loop and the tasks to push. */
  datatype Plan = Plan(db: Db, tasks: seq<Task>)

  predicate PlaylistEnabled(db: Db, playlistId: int) {
    GetPlaylist(db, playlistId).Some? && GetPlaylist(db, playlistId).value.enabled
  }

  /** Both checks at the top of `downloadPlaylist` pass. */
  predicate PlaylistReady(db: Db, playlistId: int) {
    PlaylistEnabled(db, playlistId) && GetChannel(db, GetPlaylist(db, playlistId).value.channelId).Some?
  }

  /** Everything `downloadPlaylist` decides (src/download-manager.js:79-139):
      the two lookups that throw, the enumeration's own failure (`listing`),
      and otherwise the rows written and the tasks queued. */
  function PlaylistPlan(db: Db, downloadsPath: string, playlistId: int,
                        listing: Result<seq<ListedVideo>>, now: int): (r: Result<Plan>)
    requires Valid(db)
    ensures !PlaylistEnabled(db, playlistId) ==> r == Err(NotFoundOrDisabled)
    ensures PlaylistEnabled(db, playlistId) && !PlaylistReady(db, playlistId) ==> r == Err(ChannelNotFound)
    ensures PlaylistReady(db, playlistId) && listing.Err? ==> r == Err(listing.message)
    ensures r.Ok? <==> PlaylistReady(db, playlistId) && listing.Ok?
    ensures r.Ok? ==> Valid(r.value.db)
    ensures r.Ok? ==> r.value.db.channels == db.channels && r.value.db.playlists == db.playlists
  {
    match GetPlaylist(db, playlistId)
    case None => Err(NotFoundOrDisabled)
    case Some(playlist) =>
      if !playlist.enabled then Err(NotFoundOrDisabled)
      else match GetChannel(db, playlist.channelId)
        case None => Err(ChannelNotFound)
        case Some(channel) =>
          match listing
          case Err(message) => Err(message)
          case Ok(videos) =>
            var db' := AddListed(db, playlist.channelId, playlistId, videos, Seconds(now));
            var pending := PendingVideos(db', playlistId);
            Ok(Plan(db', PlaylistTasks(pending, playlistId, channel.id, PlaylistOptions(downloadsPath, channel))))
  }

  /** A playlist download writes a row for every listed video; rows that
      existed keep their status, file path and download time; new rows are
      pending in the playlist. */
  lemma PlanRows(db: Db, downloadsPath: string, playlistId: int, listing: Result<seq<ListedVideo>>, now: int)
    requires Valid(db)
    requires PlaylistReady(db, playlistId) && listing.Ok?
    ensures var plan := PlaylistPlan(db, downloadsPath, playlistId, listing, now).value;
      && Renamed(db, plan.db) && AddedPending(db, plan.db, playlistId)
      && forall k :: 0 <= k < |listing.value| ==> HasVideo(plan.db, listing.value[k].videoId)
  {
    var playlist := GetPlaylist(db, playlistId).value;
    AddListedKeeps(db, playlist.channelId, playlistId, listing.value, Seconds(now));
  }

  /** The row of the task's video is pending in the playlist and has the
      task's url. */
  predicate PendingRow(db: Db, playlistId: int, t: Task) {
    var row := GetVideo(db, t.videoId);
    && row.Some?
    && row.value.playlistId == Some(playlistId)
    && row.value.status == Pending
    && row.value.videoUrl == t.url
  }

  /** Tasks and the pending rows of a playlist correspond one to one: as
      many tasks as rows, each task for a pending row with its url, and a
      task for each pending row. */
  predicate QueuesPending(db: Db, playlistId: int, tasks: seq<Task>) {
    && |tasks| == |Filter(db.videos, PendingOf(playlistId))|
    && (forall i :: 0 <= i < |tasks| ==> PendingRow(db, playlistId, tasks[i]))
    && (forall v :: v in db.videos && v.playlistId == Some(playlistId) && v.status == Pending ==>
          exists i :: 0 <= i < |tasks| && tasks[i].videoId == v.videoId)
  }

  lemma PendingTasks(db: Db, playlistId: int, channelId: int, options: YtDlp.DownloadOptions)
    requires Valid(db)
    ensures QueuesPending(db, playlistId,
      PlaylistTasks(PendingVideos(db, playlistId), playlistId, channelId, options))
  {
    var pending := PendingVideos(db, playlistId);
    var tasks := PlaylistTasks(pending, playlistId, channelId, options);
    PendingCount(db, playlistId);
    TasksHaveRows(db, playlistId, pending, tasks);
    RowsHaveTasks(db, playlistId, pending, tasks);
  }

  lemma PendingCount(db: Db, playlistId: int)
    ensures |PendingVideos(db, playlistId)| == |Filter(db.videos, PendingOf(playlistId))|
  {
    var pending := PendingVideos(db, playlistId);
    assert |multiset(pending)| == |multiset(Filter(db.videos, PendingOf(playlistId)))|;
  }

  lemma TasksHaveRows(db: Db, playlistId: int, pending: seq<VideoRow>, tasks: seq<Task>)
    requires Valid(db)
    requires multiset(pending) == multiset(Filter(db.videos, PendingOf(playlistId)))
    requires |tasks| == |pending|
    requires forall i :: 0 <= i < |tasks| ==>
      tasks[i].videoId == pending[i].videoId && tasks[i].url == pending[i].videoUrl
    ensures forall i :: 0 <= i < |tasks| ==> PendingRow(db, playlistId, tasks[i])
  {
    forall i | 0 <= i < |tasks| ensures PendingRow(db, playlistId, tasks[i]) {
      var v := pending[i];
      assert v in multiset(pending);
      assert v in Filter(db.videos, PendingOf(playlistId));
      assert PendingOf(playlistId)(v);
      GetVideoOf(db, v);
    }
  }

  lemma RowsHaveTasks(db: Db, playlistId: int, pending: seq<VideoRow>, tasks: seq<Task>)
    requires multiset(pending) == multiset(Filter(db.videos, PendingOf(playlistId)))
    requires |tasks| == |pending|
    requires forall i :: 0 <= i < |tasks| ==> tasks[i].videoId == pending[i].videoId
    ensures forall v :: v in db.videos && v.playlistId == Some(playlistId) && v.status == Pending ==>
          exists i :: 0 <= i < |tasks| && tasks[i].videoId == v.videoId
  {
    forall v | v in db.videos && v.playlistId == Some(playlistId) && v.status == Pending
      ensures exists i :: 0 <= i < |tasks| && tasks[i].videoId == v.videoId
    {
      assert PendingOf(playlistId)(v);
      assert v in Filter(db.videos, PendingOf(playlistId));
      assert v in multiset(pending);
      var i :| 0 <= i < |pending| && pending[i] == v;
      assert tasks[i].videoId == v.videoId;
    }
  }

  /** The tasks of a playlist download are exactly its pending rows after the
      `addVideo` loop, one task per row, each carrying the row's url, the
      playlist and channel, and the playlist options. */
  lemma PlanTasks(db: Db, downloadsPath: string, playlistId: int, listing: Result<seq<ListedVideo>>, now: int)
    requires Valid(db)
    requires PlaylistReady(db, playlistId) && listing.Ok?
    ensures var plan := PlaylistPlan(db, downloadsPath, playlistId, listing, now).value;
      var playlist := GetPlaylist(db, playlistId).value;
      var channel := GetChannel(db, playlist.channelId).value;
      && QueuesPending(plan.db, playlistId, plan.tasks)
      && forall i :: 0 <= i < |plan.tasks| ==>
           && plan.tasks[i].playlistId == Some(playlistId)
           && plan.tasks[i].channelId == Some(playlist.channelId)
           && plan.tasks[i].options == PlaylistOptions(downloadsPath, channel)
  {
    var plan := PlaylistPlan(db, downloadsPath, playlistId, listing, now).value;
    var playlist := GetPlaylist(db, playlistId).value;
    var channel := GetChannel(db, playlist.channelId).value;
    assert plan.tasks == PlaylistTasks(PendingVideos(plan.db, playlistId), playlistId, channel.id,
                                       PlaylistOptions(downloadsPath, channel));
    PendingTasks(plan.db, playlistId, channel.id, PlaylistOptions(downloadsPath, channel));
  }

  /** A video whose row is not pending (completed, failed or downloading) is
      not queued by a playlist download, whatever the enumeration lists: a
      failed video is never retried this way. */
  lemma SettledNotRequeued(db: Db, downloadsPath: string, playlistId: int,
                           listing: Result<seq<ListedVideo>>, now: int, j: nat)
    requires Valid(db)
    requires PlaylistReady(db, playlistId) && listing.Ok?
    requires j < |db.videos| && db.videos[j].status != Pending
    ensures var plan := PlaylistPlan(db, downloadsPath, playlistId, listing, now).value;
      forall i :: 0 <= i < |plan.tasks| ==> plan.tasks[i].videoId != db.videos[j].videoId
  {
    var plan := PlaylistPlan(db, downloadsPath, playlistId, listing, now).value;
    PlanRows(db, downloadsPath, playlistId, listing, now);
    PlanTasks(db, downloadsPath, playlistId, listing, now);
    var row := plan.db.videos[j];
    assert row.status == db.videos[j].status && row.videoId == db.videos[j].videoId;
    GetVideoOf(plan.db, row);
    forall i | 0 <= i < |plan.tasks| ensures plan.tasks[i].videoId != row.videoId {
      assert PendingRow(plan.db, playlistId, plan.tasks[i]);
    }
  }

  /** The options yt-dlp sees for a playlist task: the download archive in
      the downloads folder, the channel's folder layout, the 1080p mp4
      format, the info json, and the channel's custom arguments; the
      thumbnail switch never reaches it. */
  function PlaylistCall(downloadsPath: string, channel: ChannelRow): YtDlp.DownloadOptions {
    YtDlp.DownloadOptions(
      verbose := false,
      dateAfter := None,
      downloadArchive := Some(ArchivePath(downloadsPath)),
      outputPath := if downloadsPath != "" then Some(downloadsPath) else None,
      outputTemplate := Some(if channel.flatMode then FlatTemplate else NestedTemplate),
      format := Some(Format),
      mergeOutputFormat := Some("mp4"),
      writeInfoJson := true,
      noRestrictFilenames := true,
      writeThumbnail := false,
      customArgs := YtDlp.Normalize(channel.ytDlpOptions))
  }

  /** Reading back the argument vector of a playlist task gives the cookies
      file, `PlaylistCall` and the url. */
  lemma PlaylistTaskArgs(downloadsPath: string, channel: ChannelRow, url: string,
                         cookiesPath: string, cookiesPresent: bool)
    requires url !in YtDlp.KnownFlags
    requires !Truthy(channel.ytDlpOptions) || Split(channel.ytDlpOptions.value, ' ')[0] !in YtDlp.KnownFlags
    ensures YtDlp.DecodeDownloadArgs(
        YtDlp.DownloadArgs(url, PlaylistOptions(downloadsPath, channel), cookiesPath, cookiesPresent))
      == Some(YtDlp.DecodedCall(if cookiesPresent then Some(cookiesPath) else None,
                                PlaylistCall(downloadsPath, channel), url))
  {
    var o := PlaylistOptions(downloadsPath, channel);
    YtDlp.DownloadArgsRoundTrip(url, o, cookiesPath, cookiesPresent);
    PlaylistObservable(downloadsPath, channel);
  }

  lemma PlaylistObservable(downloadsPath: string, channel: ChannelRow)
    ensures var o := PlaylistOptions(downloadsPath, channel);
      YtDlp.Observable(o).(customArgs := YtDlp.Normalize(o.customArgs)) == PlaylistCall(downloadsPath, channel)
  {
    NonEmptyOptions();
  }

  lemma NonEmptyOptions()
    ensures FlatTemplate != "" && NestedTemplate != "" && Format != ""
  {
    assert FlatTemplate[0] == '%' && NestedTemplate[0] == '%';
    assert |Format| > 0;
  }

  // ---- `downloadPlaylist` and `downloadChannel`

  /** The manager after an operation, the tasks workers claimed meanwhile,
      and what the operation returned or threw. */
  datatype Reply<T> = Reply(m: Manager, claimed: seq<Task>, result: Result<T>)

  /** `downloadPlaylist` (src/download-manager.js:78-147): once both checks
      pass it fails exactly when the enumeration fails, with its message;
      otherwise it returns how many tasks it pushed. */
  function DownloadPlaylist(m: Manager, playlistId: int, listing: Result<seq<ListedVideo>>, now: int): (r: Reply<int>)
    requires Inv(m)
    ensures Inv(r.m) && Frame(m, r.m)
    ensures PlaylistReady(m.db, playlistId) ==> (r.result.Ok? <==> listing.Ok?)
    ensures PlaylistReady(m.db, playlistId) && listing.Err? ==> r.result == Err(listing.message)
    ensures r.result.Ok? ==> |r.claimed| + |r.m.pool.queue| == |m.pool.queue| + r.result.value
  {
    match PlaylistPlan(m.db, m.downloadsPath, playlistId, listing, now)
    case Err(message) => Reply(m, [], Err(message))
    case Ok(plan) =>
      var e := Enqueue(m.(db := plan.db), plan.tasks, now);
      assert |e.claimed + e.m.pool.queue| == |m.pool.queue + plan.tasks|;
      Reply(e.m, e.claimed, Ok(|plan.tasks|))
  }

  /** A failed `downloadPlaylist` leaves everything as it was; otherwise the
      planned tasks are pushed and the workers started unless running. */
  lemma DownloadPlaylistIsPlan(m: Manager, playlistId: int, listing: Result<seq<ListedVideo>>, now: int)
    requires Inv(m)
    ensures var r := DownloadPlaylist(m, playlistId, listing, now);
      var plan := PlaylistPlan(m.db, m.downloadsPath, playlistId, listing, now);
      && (plan.Err? ==> r == Reply(m, [], Err(plan.message)))
      && (plan.Ok? ==>
            && r.result == Ok(|plan.value.tasks|)
            && Stepped(r.m.pool, r.claimed) == PoolEnqueue(m.pool, plan.value.tasks))
  {
  }

  /** The channel lookup reads only the channel table. */
  lemma ChannelKept(db: Db, db': Db, channelId: int)
    requires db'.channels == db.channels
    ensures GetChannel(db', channelId) == GetChannel(db, channelId)
  {
    assert db' == db.(videos := db'.videos, playlists := db'.playlists,
                      nextChannelId := db'.nextChannelId, nextPlaylistId := db'.nextPlaylistId);
  }

  /** An enabled playlist of an existing channel passes both checks. */
  lemma ReadyOf(db: Db, p: PlaylistRow)
    requires Valid(db)
    requires p in db.playlists && p.enabled && GetChannel(db, p.channelId).Some?
    ensures PlaylistReady(db, p.id)
  {
    GetPlaylistOf(db, p);
  }

  /** The playlist loop of `downloadChannel`: `downloadPlaylist` for each
      enabled playlist of one channel in turn; the first error ends the loop
      and is passed on, with the work of the earlier playlists kept. */
  method DownloadPlaylists(m: Manager, channelId: int, playlists: seq<PlaylistRow>,
                           listings: int -> Result<seq<ListedVideo>>, now: int) returns (r: Reply<int>)
    requires Inv(m)
    requires GetChannel(m.db, channelId).Some?
    requires forall k :: 0 <= k < |playlists| ==>
      playlists[k] in m.db.playlists && playlists[k].enabled && playlists[k].channelId == channelId
    ensures Inv(r.m) && Frame(m, r.m)
    ensures r.result.Ok? <==> forall k :: 0 <= k < |playlists| ==> listings(playlists[k].id).Ok?
    ensures r.result.Err? ==>
      exists k :: 0 <= k < |playlists| && listings(playlists[k].id) == Err(r.result.message)
    ensures r.result.Ok? ==> |r.claimed| + |r.m.pool.queue| == |m.pool.queue| + r.result.value
  {
    var cur, claimed, total, i := m, [], 0, 0;
    while i < |playlists|
      invariant 0 <= i <= |playlists|
      invariant Inv(cur) && Frame(m, cur)
      invariant forall k :: 0 <= k < i ==> listings(playlists[k].id).Ok?
      invariant |claimed| + |cur.pool.queue| == |m.pool.queue| + total
    {
      var p := playlists[i];
      ChannelKept(m.db, cur.db, channelId);
      ReadyOf(cur.db, p);
      var step := DownloadPlaylist(cur, p.id, listings(p.id), now);
      if step.result.Err? {
        return Reply(step.m, claimed + step.claimed, Err(step.result.message));
      }
      forall k | 0 <= k <= i ensures listings(playlists[k].id).Ok? {
        if k == i { assert listings(p.id).Ok?; }
      }
      cur, claimed, total, i := step.m, claimed + step.claimed, total + step.result.value, i + 1;
    }
    return Reply(cur, claimed, Ok(total));
  }

  const NoEnabledPlaylists := "No enabled playlists found"

  datatype ChannelQueued = ChannelQueued(queued: int, playlists: int)

  const IsEnabled: PlaylistRow -> bool := (p: PlaylistRow) => p.enabled

  /** `getPlaylistsByChannel(channelId).filter(p => p.enabled)`: the enabled
      playlists of the channel, by title. */
  function EnabledPlaylists(db: Db, channelId: int): (r: seq<PlaylistRow>)
    ensures forall p :: p in r <==> p in db.playlists && p.channelId == channelId && p.enabled
    ensures Sorted(r, TitleOrder)
  {
    var ps := GetPlaylistsByChannel(db, channelId);
    FilterSorted(ps, IsEnabled, TitleOrder);
    Filter(ps, IsEnabled)
  }

  /** The playlist list of `downloadChannel` reads only the playlist table. */
  lemma EnabledKept(db: Db, db': Db, channelId: int)
    requires db'.playlists == db.playlists
    ensures EnabledPlaylists(db', channelId) == EnabledPlaylists(db, channelId)
  {
    assert db' == db.(videos := db'.videos, channels := db'.channels,
                      nextChannelId := db'.nextChannelId, nextPlaylistId := db'.nextPlaylistId);
  }

  /** `downloadChannel` (src/download-manager.js:149-170): an unknown channel
      or one without enabled playlists throws before anything happens;
      otherwise every enabled playlist is downloaded in title order, and the
      call fails exactly when one of their enumerations fails, with that
      failure's message. */
  method DownloadChannel(m: Manager, channelId: int, listings: int -> Result<seq<ListedVideo>>, now: int)
    returns (r: Reply<ChannelQueued>)
    requires Inv(m)
    ensures Inv(r.m) && Frame(m, r.m)
    ensures GetChannel(m.db, channelId).None? ==> r == Reply(m, [], Err(ChannelNotFound))
    ensures GetChannel(m.db, channelId).Some? && EnabledPlaylists(m.db, channelId) == [] ==>
      r == Reply(m, [], Err(NoEnabledPlaylists))
    ensures r.result.Ok? <==>
      && GetChannel(m.db, channelId).Some?
      && EnabledPlaylists(m.db, channelId) != []
      && forall p :: p in EnabledPlaylists(m.db, channelId) ==> listings(p.id).Ok?
    ensures r.result.Err? && GetChannel(m.db, channelId).Some? && EnabledPlaylists(m.db, channelId) != [] ==>
      exists p :: p in EnabledPlaylists(m.db, channelId) && listings(p.id) == Err(r.result.message)
    ensures r.result.Ok? ==>
      && r.result.value.playlists == |EnabledPlaylists(m.db, channelId)|
      && |r.claimed| + |r.m.pool.queue| == |m.pool.queue| + r.result.value.queued
  {
    if GetChannel(m.db, channelId).None? {
      return Reply(m, [], Err(ChannelNotFound));
    }
    var playlists := EnabledPlaylists(m.db, channelId);
    if |playlists| == 0 {
      return Reply(m, [], Err(NoEnabledPlaylists));
    }
    var all := DownloadPlaylists(m, channelId, playlists, listings, now);
    assert (forall p :: p in playlists ==> listings(p.id).Ok?)
       <==> (forall k :: 0 <= k < |playlists| ==> listings(playlists[k].id).Ok?);
    match all.result
    case Err(message) =>
      var k :| 0 <= k < |playlists| && listings(playlists[k].id) == Err(message);
      assert playlists[k] in playlists;
      return Reply(all.m, all.claimed, Err(message));
    case Ok(n) =>
      return Reply(all.m, all.claimed, Ok(ChannelQueued(n, |playlists|)));
  }

  // ---- `downloadSingleVideo`

  /** The fields of `ytdlp.getVideoInfo` that `downloadSingleVideo` reads. */
  datatype VideoInfo = VideoInfo(
    id: string,
    title: Option<string>,
    uploader: Option<string>,
    uploadDate: Option<string>,
    duration: Option<int>)

  /** The `addVideo` argument of `downloadSingleVideo`: no playlist, the url
      given, status pending. */
  function SingleData(channelId: Option<int>, url: string, info: VideoInfo): VideoData {
    VideoData(channelId, None, info.id, info.title, Some(url), info.uploader,
              info.uploadDate, info.duration, None, Some(Pending))
  }

  /** `channelId ? this.db.getChannel(channelId) : null`. */
  function SingleChannel(db: Db, channelId: Option<int>): (r: Option<ChannelRow>)
    ensures r.Some? ==> TruthyInt(channelId) && r.value in db.channels && r.value.id == channelId.value
    ensures TruthyInt(channelId) ==> r == GetChannel(db, channelId.value)
  {
    if TruthyInt(channelId) then GetChannel(db, channelId.value) else None
  }

  /** The template choice of src/download-manager.js:190-193: both branches
      are the same string, so a single video always lands in its channel
      folder without a playlist folder, whatever the channel's flat mode. */
  function SingleTemplate(channel: Option<ChannelRow>): (r: string)
    ensures r == FlatTemplate
  {
    if channel.Some? && !channel.value.flatMode then ChannelFolder + "/" + TitledFile
    else FlatTemplate
  }

  /** The `downloadOptions` object of `downloadSingleVideo`
      (src/download-manager.js:195-204): like a playlist download's, but with
      no download archive, and the channel's custom arguments only when a
      channel was found. */
  function SingleOptions(downloadsPath: string, channel: Option<ChannelRow>): (r: YtDlp.DownloadOptions)
    ensures r.downloadArchive.None?
    ensures r.customArgs == (if channel.Some? then channel.value.ytDlpOptions else None)
    ensures r.outputTemplate == Some(FlatTemplate)
  {
    YtDlp.DownloadOptions(
      verbose := false,
      dateAfter := None,
      downloadArchive := None,
      outputPath := Some(downloadsPath),
      outputTemplate := Some(SingleTemplate(channel)),
      format := Some(Format),
      mergeOutputFormat := Some("mp4"),
      writeInfoJson := true,
      noRestrictFilenames := true,
      writeThumbnail := true,
      customArgs := if channel.Some? then channel.value.ytDlpOptions else None)
  }

  /** The task `downloadSingleVideo` pushes. */
  function SingleTask(db: Db, downloadsPath: string, channelId: Option<int>, url: string, info: VideoInfo): Task {
    Task(info.id, None, channelId, Some(url), SingleOptions(downloadsPath, SingleChannel(db, channelId)))
  }

  /** `downloadSingleVideo` (src/download-manager.js:172-219): when the video
      lookup fails nothing happens and its error is passed on; otherwise the
      video is recorded and one task is pushed at the back of the queue,
      whatever the video's recorded status, and the id is returned. */
  function DownloadSingleVideo(m: Manager, url: string, channelId: Option<int>, info: Result<VideoInfo>, now: int)
    : (r: Reply<string>)
    requires Inv(m)
    ensures Inv(r.m) && Frame(m, r.m)
    ensures info.Err? ==> r == Reply(m, [], Err(info.message))
    ensures info.Ok? ==>
      && r.result == Ok(info.value.id)
      && HasVideo(r.m.db, info.value.id)
      && r.claimed + r.m.pool.queue
         == m.pool.queue + [SingleTask(m.db, m.downloadsPath, channelId, url, info.value)]
  {
    match info
    case Err(message) => Reply(m, [], Err(message))
    case Ok(v) =>
      var db := AddVideo(m.db, SingleData(channelId, url, v), Seconds(now));
      ChannelKept(m.db, db, if channelId.Some? then channelId.value else 0);
      var e := Enqueue(m.(db := db), [SingleTask(db, m.downloadsPath, channelId, url, v)], now);
      SingleRecorded(m.db, channelId, url, v, Seconds(now), e.m.db);
      Reply(e.m, e.claimed, Ok(v.id))
  }

  /** What `addVideo` makes of the row of a single video: a known video keeps
      its status, playlist, file path and download time (a completed video
      stays completed, yet `DownloadSingleVideo` queues it again); an unknown
      one is added as pending, outside any playlist. */
  lemma SingleRow(db: Db, channelId: Option<int>, url: string, info: VideoInfo, now: int)
    requires Valid(db)
    ensures var r := AddVideo(db, SingleData(channelId, url, info), now);
      && GetVideo(r, info.id).Some?
      && (GetVideo(db, info.id).Some? ==>
            var before := GetVideo(db, info.id).value;
            GetVideo(r, info.id) == Some(before.(videoTitle := info.title, updatedAt := now)))
      && (GetVideo(db, info.id).None? ==>
            && GetVideo(r, info.id).value.status == Pending
            && GetVideo(r, info.id).value.playlistId == None
            && GetVideo(r, info.id).value.videoUrl == Some(url))
  {
    var r := AddVideo(db, SingleData(channelId, url, info), now);
    if GetVideo(db, info.id).Some? {
      var v := GetVideo(db, info.id).value;
      var i :| 0 <= i < |db.videos| && db.videos[i] == v;
      GetVideoOf(r, r.videos[i]);
    } else {
      GetVideoOf(r, r.videos[|db.videos|]);
    }
  }

  // ---- `getQueueStatus`

  /** One entry of `downloads`. */
  datatype ActiveStatus = ActiveStatus(videoId: string, progress: int, elapsed: int)

  datatype QueueStatus = QueueStatus(queue: int, active: int, downloads: seq<ActiveStatus>)

  /** `getQueueStatus` (src/download-manager.js:221-231): the queue length,
      the number of active downloads, and per active download, in the map's
      order, its id, progress and the whole seconds since it started. */
  function GetQueueStatus(m: Manager, now: int): (r: QueueStatus)
    ensures r.queue == |m.pool.queue| && r.active == |m.active| == |r.downloads|
    ensures forall i :: 0 <= i < |r.downloads| ==>
      && r.downloads[i].videoId == m.active[i].0
      && r.downloads[i].progress == m.active[i].1.progress
      && r.downloads[i].elapsed * 1000 <= now - m.active[i].1.startTime < (r.downloads[i].elapsed + 1) * 1000
  {
    QueueStatus(|m.pool.queue|, |m.active|,
      seq(|m.active|, i requires 0 <= i < |m.active| =>
        ActiveStatus(m.active[i].0, m.active[i].1.progress, Seconds(now - m.active[i].1.startTime))))
  }

  /** Every reported download is at progress 0 (nothing ever reports
      progress), is being downloaded by some worker, and no id is reported
      twice. */
  lemma QueueStatusShape(m: Manager, now: int)
    requires Inv(m)
    ensures var r := GetQueueStatus(m, now);
      forall i :: 0 <= i < |r.downloads| ==>
        && r.downloads[i].progress == 0
        && BusyWith(m.pool.workers, r.downloads[i].videoId)
        && forall j :: i < j < |r.downloads| ==> r.downloads[i].videoId != r.downloads[j].videoId
  {
    var r := GetQueueStatus(m, now);
    forall i | 0 <= i < |r.downloads|
      ensures r.downloads[i].progress == 0 && BusyWith(m.pool.workers, r.downloads[i].videoId)
    {
      assert m.active[i] in m.active;
    }
  }

  /** The ids in the active map. */
  function Keys(a: seq<(string, ActiveInfo)>): set<string> {
    if |a| == 0 then {} else {a[0].0} + Keys(a[1..])
  }

  /** The ids the workers are downloading. */
  function BusyIds(ws: seq<Worker>): set<string> {
    if |ws| == 0 then {} else (if ws[0].Busy? then {ws[0].task.videoId} else {}) + BusyIds(ws[1..])
  }

  lemma {:induction false} KeysCard(a: seq<(string, ActiveInfo)>)
    requires DistinctKeys(a)
    ensures |Keys(a)| == |a|
    ensures forall e :: e in a ==> e.0 in Keys(a)
  {
    if |a| > 0 {
      KeysCard(a[1..]);
      forall e | e in a[1..] ensures e.0 != a[0].0 {
        var j :| 0 <= j < |a[1..]| && a[1..][j] == e;
        assert a[j + 1] == e;
      }
      if a[0].0 in Keys(a[1..]) {
        KeysIn(a[1..], a[0].0);
        assert false;
      }
      forall e | e in a ensures e.0 in Keys(a) {
        if e != a[0] { assert e in a[1..]; }
      }
    }
  }

  lemma {:induction false} KeysIn(a: seq<(string, ActiveInfo)>, id: string)
    requires id in Keys(a)
    ensures exists e :: e in a && e.0 == id
  {
    if id != a[0].0 {
      KeysIn(a[1..], id);
      var e :| e in a[1..] && e.0 == id;
      assert e in a;
    }
  }

  lemma {:induction false} BusyIdsCard(ws: seq<Worker>)
    ensures |BusyIds(ws)| <= |ws|
    ensures forall id :: BusyWith(ws, id) ==> id in BusyIds(ws)
  {
    if |ws| > 0 {
      BusyIdsCard(ws[1..]);
      forall id | BusyWith(ws, id) ensures id in BusyIds(ws) {
        var w :| 0 <= w < |ws| && ws[w].Busy? && ws[w].task.videoId == id;
        if w > 0 { assert ws[1..][w - 1] == ws[w]; }
      }
    }
  }

  /** There are never more active downloads than worker loops: each active
      id is held by its own worker. */
  lemma ActiveBounded(m: Manager)
    requires Inv(m)
    ensures |m.active| <= |m.pool.workers|
  {
    KeysCard(m.active);
    BusyIdsCard(m.pool.workers);
    var a, b := Keys(m.active), BusyIds(m.pool.workers);
    forall id | id in a ensures id in b {
      KeysIn(m.active, id);
    }
    assert b == a + (b - a);
  }
}

=== FILE: scheduler.dfy ===
/** The re-scrape scheduler of src/scheduler.js: which channels a sweep
    visits, how it isolates their failures, and the single recurring timer
    that `start`, `stop` and `getStatus` manage. */
module Scheduler {
  import opened Common
  import opened Store
  import opened WorkerPool
  import opened DownloadManager

  const DaySeconds := 24 * 60 * 60
  const DayMs := DaySeconds * 1000
  /** The interval `start` gets when the request names none. */
  const DefaultDays := 7

  // ---------------------------------------------------------------------------
  // The sweep

  /** A channel is due when it was never scraped (`last_scraped_at` null or
      0) or at least its re-scrape interval, in whole days, has passed since;
      `now` is in seconds. */
  predicate IsDue(now: int, c: ChannelRow) {
    !TruthyInt(c.lastScrapedAt) || now - c.lastScrapedAt.value >= c.rescrapeIntervalDays * DaySeconds
  }

  function DueAt(now: int): ChannelRow -> bool {
    (c: ChannelRow) => IsDue(now, c)
  }

  /** The channels a sweep at `now` visits, in `getAllChannels` order. */
  function DueChannels(db: Db, now: int): (r: seq<ChannelRow>)
    ensures forall c :: c in r <==> c in db.channels && IsDue(now, c)
  {
    AllChannelsMembers(db);
    var all := GetAllChannels(db);
    Filter(all, DueAt(now))
  }

  /** Due-ness only grows with time: a channel due at `now` is due at every
      later instant while its row is unchanged. */
  lemma DueStaysDue(c: ChannelRow, now: int, later: int)
    requires IsDue(now, c) && now <= later
    ensures IsDue(later, c)
  {
  }

  /** A sweep writes no channel row (`Frame`), so every channel due at one
      sweep is due again at any later sweep unless someone else rewrites its
      row in between. */
  lemma SweepKeepsDue(m: Manager, m': Manager, now: int, later: int)
    requires Frame(m, m') && now <= later
    ensures forall c :: c in DueChannels(m.db, now) ==> c in DueChannels(m'.db, later)
  {
    forall c | c in DueChannels(m.db, now)
      ensures c in DueChannels(m'.db, later)
    {
      DueStaysDue(c, now, later);
    }
  }

  /** The writers that end due-ness: `POST /api/channels` and
      `POST /api/channels/:id/scrape` (src/server.js:133-137 and 196-200)
      stamp `last_scraped_at` with the current second, and a channel stamped
      less than its interval ago is not due. */
  lemma ScrapeEndsDue(db: Db, i: int, t: int, now: int, u: int)
    requires Valid(db) && 0 <= i < |db.channels|
    requires t != 0 && t <= now < t + db.channels[i].rescrapeIntervalDays * DaySeconds
    ensures var db' := UpdateChannel(db, db.channels[i].id, NoChanges.(lastScrapedAt := Set(Some(t))), u);
      db'.channels[i] !in DueChannels(db', now)
  {
    var db' := UpdateChannel(db, db.channels[i].id, NoChanges.(lastScrapedAt := Set(Some(t))), u);
    assert db'.channels[i].lastScrapedAt == Some(t);
    assert !IsDue(now, db'.channels[i]);
  }

  /** What `downloadChannel` did for one visited channel. */
  datatype Attempt = Attempt(channelId: int, outcome: Result<ChannelQueued>)

  datatype Swept = Swept(m: Manager, claimed: seq<Task>, attempts: seq<Attempt>)

  /** The outcome of `downloadChannel` for a channel that exists: success
      exactly when it has enabled playlists and all of them enumerate. */
  predicate Visited(db: Db, listings: int -> Result<seq<ListedVideo>>, a: Attempt, c: ChannelRow) {
    && a.channelId == c.id
    && (a.outcome.Ok? <==>
          && EnabledPlaylists(db, c.id) != []
          && forall p :: p in EnabledPlaylists(db, c.id) ==> listings(p.id).Ok?)
  }

  function VisitedIn(db: Db, listings: int -> Result<seq<ListedVideo>>): (Attempt, ChannelRow) -> bool {
    (a: Attempt, c: ChannelRow) => Visited(db, listings, a, c)
  }

  /** One attempt per channel, in the same order. */
  predicate Reports(db: Db, listings: int -> Result<seq<ListedVideo>>, attempts: seq<Attempt>, channels: seq<ChannelRow>) {
    Zipped(attempts, channels, VisitedIn(db, listings))
  }

  /** One visit of the sweep: `downloadChannel` on a channel of the table
      the sweep started from. */
  method Visit(m: Manager, cur: Manager, c: ChannelRow, listings: int -> Result<seq<ListedVideo>>, nowMs: int)
    returns (r: Reply<ChannelQueued>)
    requires Inv(cur) && Frame(m, cur)
    requires c in m.db.channels
    ensures Inv(r.m) && Frame(m, r.m)
    ensures Visited(m.db, listings, Attempt(c.id, r.result), c)
  {
    ChannelKept(m.db, cur.db, c.id);
    EnabledKept(m.db, cur.db, c.id);
    r := DownloadChannel(cur, c.id, listings, nowMs);
  }

  /** The loop of `checkAndDownload` over the channels still to visit, `m`
      being the manager the sweep started from. */
  method Sweep(m: Manager, cur: Manager, channels: seq<ChannelRow>,
               listings: int -> Result<seq<ListedVideo>>, nowMs: int) returns (r: Swept)
    requires Inv(cur) && Frame(m, cur)
    requires forall c :: c in channels ==> c in m.db.channels
    ensures Inv(r.m) && Frame(m, r.m)
    ensures Reports(m.db, listings, r.attempts, Filter(channels, DueAt(Seconds(nowMs))))
    decreases |channels|
  {
    if |channels| == 0 {
      return Swept(cur, [], []);
    }
    var c := channels[0];
    var next, claimed, step := cur, [], [];
    if IsDue(Seconds(nowMs), c) {
      var res := Visit(m, cur, c, listings, nowMs);
      next, claimed, step := res.m, res.claimed, [Attempt(c.id, res.result)];
    }
    var rest := Sweep(m, next, channels[1..], listings, nowMs);
    ZippedAppend(step, Filter([c], DueAt(Seconds(nowMs))), rest.attempts,
                 Filter(channels[1..], DueAt(Seconds(nowMs))), VisitedIn(m.db, listings));
    return Swept(rest.m, claimed + rest.claimed, step + rest.attempts);
  }

  /** `checkAndDownload` (src/scheduler.js:35-56): every due channel, in
      `getAllChannels` order, goes through `downloadChannel`; a failure is
      caught and the sweep goes on with the next channel. A visit succeeds
      exactly when the channel has enabled playlists and every one of them
      enumerates. `nowMs` is `Date.now()`. */
  method CheckAndDownload(m: Manager, listings: int -> Result<seq<ListedVideo>>, nowMs: int) returns (r: Swept)
    requires Inv(m)
    ensures Inv(r.m) && Frame(m, r.m)
    ensures Reports(m.db, listings, r.attempts, DueChannels(m.db, Seconds(nowMs)))
  {
    AllChannelsMembers(m.db);
    r := Sweep(m, m, GetAllChannels(m.db), listings, nowMs);
  }

  /** `triggerChannel` (src/scheduler.js:58-61): `downloadChannel` without
      the due check, its failure passed on and its result dropped. */
  method TriggerChannel(m: Manager, channelId: int, listings: int -> Result<seq<ListedVideo>>, nowMs: int)
    returns (r: Reply<()>)
    requires Inv(m)
    ensures Inv(r.m) && Frame(m, r.m)
    ensures r.result.Ok? <==>
      && GetChannel(m.db, channelId).Some?
      && EnabledPlaylists(m.db, channelId) != []
      && forall p :: p in EnabledPlaylists(m.db, channelId) ==> listings(p.id).Ok?
    ensures GetChannel(m.db, channelId).None? ==> r.result == Err(ChannelNotFound)
  {
    var res := DownloadChannel(m, channelId, listings, nowMs);
    match res.result
    case Ok(_) => return Reply(res.m, res.claimed, Ok(()));
    case Err(message) => return Reply(res.m, res.claimed, Err(message));
  }

  // ---------------------------------------------------------------------------
  // The timer

  /** Node's `setInterval` runs a callback whose delay is above 2^31 - 1 ms
      or below 1 ms every millisecond. */
  const MaxDelay := 0x7fff_ffff

  function NodeDelay(ms: int): int {
    if ms > MaxDelay || ms < 1 then 1 else ms
  }

  /** A recurring timer known to the runtime. */
  datatype Timer = Timer(handle: nat, periodMs: int)

  /** The timers the runtime runs, `globalInterval`, and the next handle the
      runtime gives out. */
  datatype Sched = Sched(live: seq<Timer>, globalInterval: Option<nat>, nextHandle: nat)

  /** Exactly the timer `globalInterval` names is running, or none. */
  predicate TimerInv(s: Sched) {
    && (s.globalInterval.None? ==> s.live == [])
    && (s.globalInterval.Some? ==> |s.live| == 1 && s.live[0].handle == s.globalInterval.value)
    && forall t :: t in s.live ==> t.handle < s.nextHandle
  }

  /** `new Scheduler(...)`: no timer. */
  function NewSched(): (s: Sched)
    ensures TimerInv(s) && !Running(s)
  {
    Sched([], None, 0)
  }

  /** `clearInterval(handle)`: the runtime forgets that timer. */
  function ClearInterval(live: seq<Timer>, handle: nat): (r: seq<Timer>)
    ensures forall t :: t in r <==> t in live && t.handle != handle
  {
    Filter(live, (t: Timer) => t.handle != handle)
  }

  /** `setInterval(f, ms)`: a new timer under a fresh handle. */
  function SetInterval(s: Sched, periodMs: int): (r: Sched)
    ensures r.live == s.live + [Timer(s.nextHandle, periodMs)]
    ensures r.nextHandle == s.nextHandle + 1 && r.globalInterval == s.globalInterval
  {
    s.(live := s.live + [Timer(s.nextHandle, periodMs)], nextHandle := s.nextHandle + 1)
  }

  /** The timer part of `start` (src/scheduler.js:9-26) as the code is
      written: clear the old timer if any, then set one with period
      `intervalDays` days, as the runtime takes that period. */
  function StartTimerAsWritten(s: Sched, intervalDays: int): (r: Sched)
    requires TimerInv(s)
    ensures TimerInv(r) && Running(r)
    ensures r.live == [Timer(s.nextHandle, NodeDelay(intervalDays * DayMs))]
  {
    var cleared := if s.globalInterval.Some? then s.(live := ClearInterval(s.live, s.globalInterval.value)) else s;
    var r := SetInterval(cleared, NodeDelay(intervalDays * DayMs));
    r.(globalInterval := Some(s.nextHandle))
  }

  /** Asking for 25 days or more makes the sweep run every millisecond. */
  lemma LongIntervalFloods(s: Sched, intervalDays: int)
    requires TimerInv(s)
    requires intervalDays >= 25
    ensures StartTimerAsWritten(s, intervalDays).live[0].periodMs == 1
  {
  }

  /** A negative request, which `intervalDays || 7` lets through, also makes
      the sweep run every millisecond. */
  lemma NonPositiveIntervalFloods(s: Sched, intervalDays: int)
    requires TimerInv(s)
    requires intervalDays <= 0
    ensures StartTimerAsWritten(s, intervalDays).live[0].periodMs == 1
  {
  }

  /** The period the runtime can honour: `intervalDays` days, capped at the
      longest delay Node accepts; a non-positive request falls back to the
      default of 7 days, as `intervalDays || 7` already does for 0. */
  function Period(intervalDays: int): (r: int)
    ensures 1 <= r <= MaxDelay
    ensures NodeDelay(r) == r
    ensures intervalDays >= 1 ==> DayMs <= r <= intervalDays * DayMs
    ensures intervalDays >= 1 && intervalDays * DayMs <= MaxDelay ==> r == intervalDays * DayMs
    ensures intervalDays < 1 ==> r == DefaultDays * DayMs
  {
    if intervalDays < 1 then DefaultDays * DayMs
    else if intervalDays * DayMs > MaxDelay then MaxDelay
    else intervalDays * DayMs
  }

  /** `start` with the capped period: the old timer, if any, is cleared
      first, so exactly one timer runs afterwards, and it is new. */
  function StartTimer(s: Sched, intervalDays: int): (r: Sched)
    requires TimerInv(s)
    ensures TimerInv(r) && Running(r)
    ensures r.live == [Timer(s.nextHandle, Period(intervalDays))]
  {
    var cleared := if s.globalInterval.Some? then s.(live := ClearInterval(s.live, s.globalInterval.value)) else s;
    var r := SetInterval(cleared, Period(intervalDays));
    r.(globalInterval := Some(s.nextHandle))
  }

  /** Where the runtime honours the requested period, the capped timer is
      the timer the code sets. */
  lemma StartTimerAgrees(s: Sched, intervalDays: int)
    requires TimerInv(s)
    requires 1 <= intervalDays && intervalDays * DayMs <= MaxDelay
    ensures StartTimer(s, intervalDays) == StartTimerAsWritten(s, intervalDays)
  {
  }

  /** `stop` (src/scheduler.js:28-33): clears and forgets the timer. */
  function Stop(s: Sched): (r: Sched)
    requires TimerInv(s)
    ensures TimerInv(r) && !Running(r)
    ensures r.live == [] && r.nextHandle == s.nextHandle
  {
    if s.globalInterval.Some? then
      s.(live := ClearInterval(s.live, s.globalInterval.value), globalInterval := None)
    else s
  }

  /** A second `stop` does nothing. */
  lemma StopIdempotent(s: Sched)
    requires TimerInv(s)
    ensures Stop(Stop(s)) == Stop(s)
  {
  }

  /** `getStatus().running`. */
  predicate Running(s: Sched) {
    s.globalInterval != None
  }

  /** Running exactly when the runtime has a timer for the scheduler. */
  lemma RunningIffTimer(s: Sched)
    requires TimerInv(s)
    ensures Running(s) <==> |s.live| == 1
    ensures !Running(s) <==> |s.live| == 0
  {
  }

  datatype Status = Status(running: bool, queueStatus: QueueStatus)

  /** `getStatus` (src/scheduler.js:63-68). */
  function GetStatus(s: Sched, m: Manager, nowMs: int): (r: Status)
    ensures r.running <==> Running(s)
    ensures r.queueStatus.queue == |m.pool.queue| && r.queueStatus.active == |m.active|
  {
    Status(Running(s), GetQueueStatus(m, nowMs))
  }

  datatype Scheduler = Scheduler(sched: Sched, m: Manager)

  /** The number of days `start` receives from `POST /api/scheduler/start`
      (src/server.js:299): the body's `intervalDays`, or 7 when that is
      missing or 0. */
  function RequestedDays(intervalDays: Option<int>): (r: int)
    ensures r != 0
    ensures TruthyInt(intervalDays) ==> r == intervalDays.value
    ensures !TruthyInt(intervalDays) ==> r == DefaultDays
  {
    if TruthyInt(intervalDays) then intervalDays.value else DefaultDays
  }

  /** `start(intervalDays || 7)` as written: the timer is replaced by one
      whose period is what the runtime makes of `intervalDays` days, and one
      sweep runs at once. */
  method Start(s: Scheduler, intervalDays: Option<int>, listings: int -> Result<seq<ListedVideo>>, nowMs: int)
    returns (r: Scheduler, swept: Swept)
    requires TimerInv(s.sched) && Inv(s.m)
    ensures TimerInv(r.sched) && Inv(r.m) && Running(r.sched)
    ensures r.sched.live == [Timer(s.sched.nextHandle, NodeDelay(RequestedDays(intervalDays) * DayMs))]
    ensures r.m == swept.m && Reports(s.m.db, listings, swept.attempts, DueChannels(s.m.db, Seconds(nowMs)))
  {
    var sched := StartTimerAsWritten(s.sched, RequestedDays(intervalDays));
    swept := CheckAndDownload(s.m, listings, nowMs);
    r := Scheduler(sched, swept.m);
  }

  /** `start` with the capped period: the same sweep, and a timer the
      runtime honours. */
  method StartCapped(s: Scheduler, intervalDays: Option<int>, listings: int -> Result<seq<ListedVideo>>, nowMs: int)
    returns (r: Scheduler, swept: Swept)
    requires TimerInv(s.sched) && Inv(s.m)
    ensures TimerInv(r.sched) && Inv(r.m) && Running(r.sched)
    ensures r.sched.live == [Timer(s.sched.nextHandle, Period(RequestedDays(intervalDays)))]
    ensures r.m == swept.m && Reports(s.m.db, listings, swept.attempts, DueChannels(s.m.db, Seconds(nowMs)))
  {
    var sched := StartTimer(s.sched, RequestedDays(intervalDays));
    swept := CheckAndDownload(s.m, listings, nowMs);
    r := Scheduler(sched, swept.m);
  }

  /** A tick of the timer runs the same sweep and leaves the timer alone. */
  method Tick(s: Scheduler, listings: int -> Result<seq<ListedVideo>>, nowMs: int)
    returns (r: Scheduler, swept: Swept)
    requires TimerInv(s.sched) && Running(s.sched) && Inv(s.m)
    ensures r.sched == s.sched && Inv(r.m) && r.m == swept.m
    ensures Reports(s.m.db, listings, swept.attempts, DueChannels(s.m.db, Seconds(nowMs)))
  {
    swept := CheckAndDownload(s.m, listings, nowMs);
    r := Scheduler(s.sched, swept.m);
  }
}

=== FILE: sorting.dfy ===
/** `ORDER BY` as the model sees it: a stable insertion sort parameterised by a
    total preorder, plus the preorders SQLite uses for the columns involved
    (integers, and text under the BINARY collation, NULL before any value). */
module Sorting {
  import opened Common

  ghost predicate Total<T(!new)>(le: (T, T) -> bool) {
    forall a, b :: le(a, b) || le(b, a)
  }

  ghost predicate Transitive<T(!new)>(le: (T, T) -> bool) {
    forall a, b, c :: le(a, b) && le(b, c) ==> le(a, c)
  }

  /** What an ORDER BY key induces on rows: every two rows compare, and
      comparisons chain. Rows with equal keys compare both ways. */
  ghost predicate TotalPreorder<T(!new)>(le: (T, T) -> bool) {
    Total(le) && Transitive(le)
  }

  predicate Sorted<T>(s: seq<T>, le: (T, T) -> bool) {
    forall i, j :: 0 <= i < j < |s| ==> le(s[i], s[j])
  }

  /** Places `x` in front of the first element it does not come after. */
  function Insert<T(!new)>(x: T, s: seq<T>, le: (T, T) -> bool): (r: seq<T>)
    requires TotalPreorder(le)
    requires Sorted(s, le)
    ensures Sorted(r, le)
    ensures multiset(r) == multiset(s) + multiset{x}
    decreases |s|
  {
    if |s| == 0 then [x]
    else if le(x, s[0]) then
      assert forall j :: 0 < j < |s| ==> le(x, s[j]) by {
        forall j | 0 < j < |s| ensures le(x, s[j]) {
          assert le(s[0], s[j]);
        }
      }
      [x] + s
    else
      var rest := Insert(x, s[1..], le);
      InsertBehind(x, s, rest, le);
      [s[0]] + rest
  }

  /** `x` goes after the head: the head stays first, in front of the rest. */
  lemma InsertBehind<T(!new)>(x: T, s: seq<T>, rest: seq<T>, le: (T, T) -> bool)
    requires TotalPreorder(le)
    requires |s| > 0 && Sorted(s, le) && !le(x, s[0])
    requires Sorted(rest, le) && multiset(rest) == multiset(s[1..]) + multiset{x}
    ensures Sorted([s[0]] + rest, le)
    ensures multiset([s[0]] + rest) == multiset(s) + multiset{x}
  {
    assert le(s[0], x);
    forall k | 0 <= k < |rest| ensures le(s[0], rest[k]) {
      assert rest[k] in multiset(rest);
      if rest[k] != x {
        assert rest[k] in multiset(s[1..]);
        assert rest[k] in s[1..];
      }
    }
    var r := [s[0]] + rest;
    forall i, j | 0 <= i < j < |r| ensures le(r[i], r[j]) {
      assert r[j] == rest[j - 1];
      if i > 0 {
        assert r[i] == rest[i - 1];
      }
    }
    assert s == [s[0]] + s[1..];
  }

  /** The rows of `s`, rearranged into `le` order. */
  function SortBy<T(!new)>(s: seq<T>, le: (T, T) -> bool): (r: seq<T>)
    requires TotalPreorder(le)
    ensures Sorted(r, le)
    ensures multiset(r) == multiset(s)
    ensures |r| == |s|
    decreases |s|
  {
    if |s| == 0 then []
    else
      assert s == [s[0]] + s[1..];
      Insert(s[0], SortBy(s[1..], le), le)
  }

  // ---------------------------------------------------------------------------
  // Column orders

  /** Lexicographic order on code points, which is the BINARY collation's
      byte order on the UTF-8 encoding. */
  predicate LexLe(a: string, b: string)
    decreases |a|
  {
    |a| == 0 || (|b| > 0 && (a[0] < b[0] || (a[0] == b[0] && LexLe(a[1..], b[1..]))))
  }

  lemma {:induction false} LexTotal(a: string, b: string)
    ensures LexLe(a, b) || LexLe(b, a)
    decreases |a|
  {
    if |a| > 0 && |b| > 0 && a[0] == b[0] {
      LexTotal(a[1..], b[1..]);
    }
  }

  lemma {:induction false} LexTransitive(a: string, b: string, c: string)
    requires LexLe(a, b) && LexLe(b, c)
    ensures LexLe(a, c)
    decreases |a|
  {
    if |a| > 0 && a[0] == b[0] && b[0] == c[0] {
      LexTransitive(a[1..], b[1..], c[1..]);
    }
  }

  /** NULL sorts before every value in ascending order. */
  predicate NullableLexLe(a: Option<string>, b: Option<string>) {
    a.None? || (b.Some? && LexLe(a.value, b.value))
  }

  predicate NullableIntLe(a: Option<int>, b: Option<int>) {
    a.None? || (b.Some? && a.value <= b.value)
  }

  lemma NullableLexIsTotalPreorder()
    ensures TotalPreorder(NullableLexLe)
  {
    forall a: Option<string>, b: Option<string> ensures NullableLexLe(a, b) || NullableLexLe(b, a) {
      if a.Some? && b.Some? { LexTotal(a.value, b.value); }
    }
    forall a: Option<string>, b: Option<string>, c: Option<string>
      | NullableLexLe(a, b) && NullableLexLe(b, c)
      ensures NullableLexLe(a, c)
    {
      if a.Some? { LexTransitive(a.value, b.value, c.value); }
    }
  }

  /** Filtering keeps a sorted sequence sorted. */
  lemma {:induction false} FilterSorted<T(!new)>(s: seq<T>, p: T -> bool, le: (T, T) -> bool)
    requires Sorted(s, le)
    ensures Sorted(Filter(s, p), le)
    decreases |s|
  {
    if |s| > 0 {
      FilterSorted(s[1..], p, le);
      var rest := Filter(s[1..], p);
      if p(s[0]) {
        var r := [s[0]] + rest;
        forall i, j | 0 <= i < j < |r| ensures le(r[i], r[j]) {
          if i == 0 {
            assert r[j] in rest;
            var k :| 0 <= k < |s[1..]| && s[1..][k] == r[j];
            assert s[k + 1] == r[j];
          } else {
            assert r[i] == rest[i - 1] && r[j] == rest[j - 1];
          }
        }
      }
    }
  }
}

=== FILE: sponsorblock.dfy ===
/** SponsorBlock argument composition (test/sponsorblock.test.js): the mode
    and category settings of a channel become one `--sponsorblock-mark` or
    `--sponsorblock-remove` argument string, which is joined onto the
    channel's own custom yt-dlp arguments; and the check that a category
    list only names categories SponsorBlock knows. */
module SponsorBlock {
  import opened Common

  /** The SponsorBlock columns of a channel. */
  datatype Settings = Settings(enabled: bool, mode: Option<string>, categories: Option<string>)

  datatype Action = Mark | Remove

  /** `channel.sponsorblock_mode || 'mark'`. */
  function EffectiveMode(mode: Option<string>): string {
    if Truthy(mode) then mode.value else "mark"
  }

  /** Only the two modes yt-dlp knows select an action. */
  function ActionOf(mode: string): (r: Option<Action>)
    ensures r == Some(Mark) <==> mode == "mark"
    ensures r == Some(Remove) <==> mode == "remove"
  {
    if mode == "mark" then Some(Mark)
    else if mode == "remove" then Some(Remove)
    else None
  }

  function FlagOf(a: Action): string {
    match a
    case Mark => "--sponsorblock-mark"
    case Remove => "--sponsorblock-remove"
  }

  /** Whether the settings yield any SponsorBlock argument at all. */
  predicate Active(s: Settings) {
    s.enabled && Truthy(s.categories) && ActionOf(EffectiveMode(s.mode)).Some?
  }

  /** The SponsorBlock argument string: the flag of the mode, a space, and
      the category string verbatim; "" when disabled, without categories, or
      for a mode other than `mark` and `remove`. */
  function SponsorBlockArgs(s: Settings): (r: string)
    ensures r == "" <==> !Active(s)
  {
    if s.enabled && Truthy(s.categories) then
      match ActionOf(EffectiveMode(s.mode))
      case Some(a) => FlagOf(a) + " " + s.categories.value
      case None => ""
    else ""
  }

  // ---------------------------------------------------------------------------
  // Reading the argument string back

  predicate HasPrefix(s: string, p: string) {
    |p| <= |s| && s[..|p|] == p
  }

  /** Recovers the action and the category string from a SponsorBlock
      argument string. */
  function DecodeSponsorBlockArgs(r: string): Option<(Action, string)> {
    var mark := FlagOf(Mark) + " ";
    var remove := FlagOf(Remove) + " ";
    if HasPrefix(r, mark) then Some((Mark, r[|mark|..]))
    else if HasPrefix(r, remove) then Some((Remove, r[|remove|..]))
    else None
  }

  /** The argument string carries exactly the effective action and the
      category string, verbatim; nothing at all when the settings are not
      active. */
  lemma SponsorBlockArgsRoundTrip(s: Settings)
    ensures DecodeSponsorBlockArgs(SponsorBlockArgs(s))
         == if Active(s) then Some((ActionOf(EffectiveMode(s.mode)).value, s.categories.value)) else None
  {
    var r := SponsorBlockArgs(s);
    if Active(s) {
      var a := ActionOf(EffectiveMode(s.mode)).value;
      var p := FlagOf(a) + " ";
      assert r == p + s.categories.value;
      assert r[..|p|] == p;
      assert r[|p|..] == s.categories.value;
      if a == Remove {
        assert r[15] == 'r';
        assert !HasPrefix(r, FlagOf(Mark) + " ");
      }
    }
  }

  /** A missing or empty mode behaves as `mark`. */
  lemma MissingModeIsMark(s: Settings)
    requires !Truthy(s.mode)
    ensures SponsorBlockArgs(s) == SponsorBlockArgs(s.(mode := Some("mark")))
  {
  }

  /** With a category string free of spaces, the argument string splits into
      exactly two tokens, flag and categories. */
  lemma SponsorBlockTokens(s: Settings)
    requires Active(s)
    requires ' ' !in s.categories.value
    ensures Split(SponsorBlockArgs(s), ' ') == [FlagOf(ActionOf(EffectiveMode(s.mode)).value), s.categories.value]
  {
    var f := FlagOf(ActionOf(EffectiveMode(s.mode)).value);
    assert SponsorBlockArgs(s) == f + [' '] + s.categories.value;
    SplitAround(f, s.categories.value, ' ');
    SplitNoSeparator(f, ' ');
    SplitNoSeparator(s.categories.value, ' ');
  }

  // ---------------------------------------------------------------------------
  // Joining with the channel's custom arguments

  /** The truthy parts, in order: custom arguments first. */
  function Parts(custom: Option<string>, sb: string): seq<string> {
    (if Truthy(custom) then [custom.value] else []) + (if sb != "" then [sb] else [])
  }

  /** `[custom, sb].filter(Boolean).join(' ').trim() || null`. */
  function CombineCustomArgs(custom: Option<string>, sb: string): Option<string> {
    var t := Trim(Join(Parts(custom, sb), ' '));
    if t == "" then None else Some(t)
  }

  predicate AllSpace(s: string) {
    forall k :: 0 <= k < |s| ==> IsSpace(s[k])
  }

  /** `trim` gives "" exactly for white space only. */
  lemma TrimEmptyIff(s: string)
    ensures Trim(s) == "" <==> AllSpace(s)
  {
    var t := Trim(s);
    TrimInfix(s);
    var i, j :| 0 <= i <= j <= |s| && t == s[i..j]
      && (forall k :: 0 <= k < i ==> IsSpace(s[k]))
      && (forall k :: j <= k < |s| ==> IsSpace(s[k]));
    if t == "" {
      assert i == j;
    }
  }

  lemma AllSpaceJoin(a: string, b: string)
    ensures AllSpace(a + " " + b) <==> AllSpace(a) && AllSpace(b)
  {
    var s := a + " " + b;
    if AllSpace(s) {
      assert forall k :: 0 <= k < |a| ==> s[k] == a[k];
      assert forall k :: 0 <= k < |b| ==> s[|a| + 1 + k] == b[k];
    }
  }

  /** The combined value is null exactly when both parts are blank. */
  lemma CombineNullIff(custom: Option<string>, sb: string)
    ensures CombineCustomArgs(custom, sb).None?
        <==> (!Truthy(custom) || AllSpace(custom.value)) && AllSpace(sb)
  {
    var parts := Parts(custom, sb);
    TrimEmptyIff(Join(parts, ' '));
    if Truthy(custom) && sb != "" {
      assert Join(parts, ' ') == custom.value + " " + sb;
      AllSpaceJoin(custom.value, sb);
    }
  }

  /** With nothing set, the combined value is null. */
  lemma DisabledGivesNull(custom: Option<string>, s: Settings)
    requires !Truthy(custom)
    requires !Active(s)
    ensures CombineCustomArgs(custom, SponsorBlockArgs(s)) == None
  {
    CombineNullIff(custom, SponsorBlockArgs(s));
  }

  /** Without custom arguments, the combined value is the SponsorBlock
      argument string itself (trimmed). */
  lemma CombineSponsorBlockOnly(custom: Option<string>, s: Settings)
    requires !Truthy(custom)
    requires Active(s)
    requires Trimmed(s.categories.value)
    ensures CombineCustomArgs(custom, SponsorBlockArgs(s)) == Some(SponsorBlockArgs(s))
  {
    var sb := SponsorBlockArgs(s);
    assert Parts(custom, sb) == [sb];
    assert sb[0] == '-';
    assert sb[|sb| - 1] == s.categories.value[|s.categories.value| - 1];
    TrimOfTrimmed(sb);
  }

  /** Custom arguments come first, then one space, then the SponsorBlock
      arguments, when neither has surrounding white space. */
  lemma CombineBoth(custom: Option<string>, s: Settings)
    requires Truthy(custom) && Trimmed(custom.value)
    requires Active(s)
    requires Trimmed(s.categories.value)
    ensures CombineCustomArgs(custom, SponsorBlockArgs(s)) == Some(custom.value + " " + SponsorBlockArgs(s))
  {
    var sb := SponsorBlockArgs(s);
    var c := custom.value;
    var j := c + " " + sb;
    assert Join(Parts(custom, sb), ' ') == j;
    assert j[0] == c[0];
    assert j[|j| - 1] == s.categories.value[|s.categories.value| - 1];
    TrimOfTrimmed(j);
  }

  /** What `download` then makes of the combined value: the custom tokens
      followed by the SponsorBlock tokens. */
  lemma CombinedTokens(custom: Option<string>, s: Settings)
    requires Truthy(custom) && Trimmed(custom.value)
    requires Active(s)
    requires Trimmed(s.categories.value) && ' ' !in s.categories.value
    ensures Split(CombineCustomArgs(custom, SponsorBlockArgs(s)).value, ' ')
         == Split(custom.value, ' ') + [FlagOf(ActionOf(EffectiveMode(s.mode)).value), s.categories.value]
  {
    CombineBoth(custom, s);
    SplitAround(custom.value, SponsorBlockArgs(s), ' ');
    SponsorBlockTokens(s);
    assert custom.value + " " + SponsorBlockArgs(s) == custom.value + [' '] + SponsorBlockArgs(s);
  }

  // ---------------------------------------------------------------------------
  // Category validation

  const KnownCategories: seq<string> :=
    ["sponsor", "intro", "outro", "selfpromo", "interaction", "preview", "music_offtopic"]

  /** `s.split(',').every(c => KNOWN.includes(c.trim()))`. */
  predicate ValidCategories(s: string) {
    var items := Split(s, ',');
    forall k :: 0 <= k < |items| ==> Trim(items[k]) in KnownCategories
  }

  /** The `every` loop, stopping at the first unknown item. */
  method CheckCategories(s: string) returns (ok: bool)
    ensures ok <==> ValidCategories(s)
  {
    var items := Split(s, ',');
    var i := 0;
    while i < |items|
      invariant 0 <= i <= |items|
      invariant forall k :: 0 <= k < i ==> Trim(items[k]) in KnownCategories
    {
      if Trim(items[i]) !in KnownCategories {
        return false;
      }
      i := i + 1;
    }
    return true;
  }

  /** The empty string names the one item "", which is not a category. */
  lemma EmptyIsInvalid()
    ensures !ValidCategories("")
  {
    var items := Split("", ',');
    assert items == [""];
    TrimOfTrimmed("");
    assert Trim(items[0]) == "";
    assert "" !in KnownCategories;
  }

  lemma KnownCategoryShape(c: string)
    requires c in KnownCategories
    ensures ',' !in c && Trimmed(c) && c != ""
  {
  }

  lemma KnownTrimmed(c: string)
    requires c in KnownCategories
    ensures Trim(c) == c
  {
    KnownCategoryShape(c);
    TrimOfTrimmed(c);
  }

  /** Any non-empty comma-joined list of known categories is valid, which is
      how the settings form builds the string. */
  lemma JoinedKnownIsValid(cats: seq<string>)
    requires |cats| >= 1
    requires forall k :: 0 <= k < |cats| ==> cats[k] in KnownCategories
    ensures ValidCategories(Join(cats, ','))
  {
    forall k | 0 <= k < |cats| ensures ',' !in cats[k] {
      KnownCategoryShape(cats[k]);
    }
    SplitJoin(cats, ',');
    forall k | 0 <= k < |cats| ensures Trim(cats[k]) in KnownCategories {
      KnownTrimmed(cats[k]);
    }
  }

  /** Two valid category strings joined by a comma stay valid; white space
      around an item is tolerated. */
  lemma ValidConcat(a: string, b: string)
    requires ValidCategories(a) && ValidCategories(b)
    ensures ValidCategories(a + "," + b)
  {
    SplitAround(a, b, ',');
    assert a + "," + b == a + [','] + b;
  }

  /** The item between two commas is what sits there. */
  lemma SplitMiddle(a: string, x: string, b: string)
    requires ',' !in x
    ensures var items := Split(a + "," + x + "," + b, ',');
      |Split(a, ',')| < |items| && items[|Split(a, ',')|] == x
  {
    SplitAround(a, x + "," + b, ',');
    SplitAround(x, b, ',');
    SplitNoSeparator(x, ',');
    assert a + "," + x + "," + b == a + [','] + (x + [','] + b);
    assert x + "," + b == x + [','] + b;
  }

  /** A list with an unknown item is rejected wherever the item sits. */
  lemma UnknownItemInvalid(a: string, x: string, b: string)
    requires ',' !in x
    requires Trim(x) !in KnownCategories
    ensures !ValidCategories(a + "," + x + "," + b)
  {
    SplitMiddle(a, x, b);
  }
}

=== FILE: store.dfy ===
/** The SQLite record store (src/database.js) as three tables of rows kept in
    rowid order. The UNIQUE constraints of the schema are the `Valid`
    invariant; every write preserves it. Timestamps (`strftime('%s','now')`)
    are the `now` parameter, in seconds. */
module Store {
  import opened Common
  import opened Sorting

  /** `videos.download_status`. */
  datatype Status = Pending | Downloading | Completed | Failed

  datatype ChannelRow = ChannelRow(
    id: int,
    url: string,
    channelId: Option<string>,
    channelName: Option<string>,
    playlistMode: Option<string>,
    flatMode: bool,
    autoAddNewPlaylists: bool,
    ytDlpOptions: Option<string>,
    rescrapeIntervalDays: int,
    lastScrapedAt: Option<int>,
    createdAt: int,
    updatedAt: int)

  datatype PlaylistRow = PlaylistRow(
    id: int,
    channelId: int,
    playlistId: string,
    playlistTitle: Option<string>,
    playlistUrl: Option<string>,
    enabled: bool,
    lastScrapedAt: Option<int>,
    createdAt: int,
    updatedAt: int)

  datatype VideoRow = VideoRow(
    channelId: Option<int>,
    playlistId: Option<int>,
    videoId: string,
    videoTitle: Option<string>,
    videoUrl: Option<string>,
    uploader: Option<string>,
    uploadDate: Option<string>,
    duration: Option<int>,
    playlistIndex: Option<int>,
    status: Status,
    downloadedAt: Option<int>,
    filePath: Option<string>,
    createdAt: int,
    updatedAt: int)

  /** The database: each table in rowid order, and the AUTOINCREMENT counters
      of the two tables whose rowid the application uses. */
  datatype Db = Db(
    channels: seq<ChannelRow>,
    playlists: seq<PlaylistRow>,
    videos: seq<VideoRow>,
    nextChannelId: int,
    nextPlaylistId: int)

  const EmptyDb: Db := Db([], [], [], 1, 1)

  /** The schema's keys: `channels.id` and `channels.url`, `playlists.id` and
      `(channel_id, playlist_id)`, `videos.video_id`; AUTOINCREMENT ids are
      positive and below the next id to be handed out. */
  predicate Valid(db: Db) {
    && db.nextChannelId >= 1
    && db.nextPlaylistId >= 1
    && (forall i :: 0 <= i < |db.channels| ==> 1 <= db.channels[i].id < db.nextChannelId)
    && (forall i, j :: 0 <= i < j < |db.channels| ==>
          db.channels[i].id != db.channels[j].id && db.channels[i].url != db.channels[j].url)
    && (forall i :: 0 <= i < |db.playlists| ==> 1 <= db.playlists[i].id < db.nextPlaylistId)
    && (forall i, j :: 0 <= i < j < |db.playlists| ==>
          db.playlists[i].id != db.playlists[j].id
          && !SamePlaylistKey(db.playlists[i], db.playlists[j].channelId, db.playlists[j].playlistId))
    && (forall i, j :: 0 <= i < j < |db.videos| ==> db.videos[i].videoId != db.videos[j].videoId)
  }

  predicate SamePlaylistKey(p: PlaylistRow, channelId: int, playlistId: string) {
    p.channelId == channelId && p.playlistId == playlistId
  }

  lemma EmptyDbValid()
    ensures Valid(EmptyDb)
  {
  }

  // ---------------------------------------------------------------------------
  // Channels

  /** The options object of `addChannel`; absent keys are `None`. */
  datatype ChannelOptions = ChannelOptions(
    playlistMode: Option<string>,
    flatMode: bool,
    autoAddNewPlaylists: bool,
    ytDlpOptions: Option<string>,
    rescrapeIntervalDays: Option<int>)

  /** A successful INSERT: the new database and `lastInsertRowid`. */
  datatype Inserted = Inserted(db: Db, id: int)

  function GetChannel(db: Db, id: int): (r: Option<ChannelRow>)
    ensures r.Some? <==> exists i :: 0 <= i < |db.channels| && db.channels[i].id == id
    ensures r.Some? ==> r.value in db.channels && r.value.id == id
  {
    match IndexWhere(db.channels, (c: ChannelRow) => c.id == id)
    case None => None
    case Some(i) => Some(db.channels[i])
  }

  /** `addChannel`: INSERT with the documented defaults; a second channel with
      the same url violates the UNIQUE constraint and throws. */
  function AddChannel(db: Db, url: string, opts: ChannelOptions, now: int): (r: Result<Inserted>)
    requires Valid(db)
    ensures r.Err? <==> exists i :: 0 <= i < |db.channels| && db.channels[i].url == url
    ensures r.Ok? ==> Valid(r.value.db)
    ensures r.Ok? ==> r.value.id == db.nextChannelId
    ensures r.Ok? ==> r.value.db.playlists == db.playlists && r.value.db.videos == db.videos
    ensures r.Ok? ==> (|r.value.db.channels| == |db.channels| + 1
                       && r.value.db.channels[..|db.channels|] == db.channels)
  {
    if IndexWhere(db.channels, (c: ChannelRow) => c.url == url).Some? then
      Err("UNIQUE constraint failed: channels.url")
    else
      var row := ChannelRow(
        db.nextChannelId, url, None, None,
        Some(if Truthy(opts.playlistMode) then opts.playlistMode.value else "enumerate"),
        opts.flatMode, opts.autoAddNewPlaylists,
        if Truthy(opts.ytDlpOptions) then opts.ytDlpOptions else None,
        if TruthyInt(opts.rescrapeIntervalDays) then opts.rescrapeIntervalDays.value else 7,
        None, now, now);
      AppendChannelValid(db, row);
      Ok(Inserted(db.(channels := db.channels + [row], nextChannelId := db.nextChannelId + 1),
                  db.nextChannelId))
  }

  /** A new channel row with a fresh id and a fresh url keeps the schema. */
  lemma AppendChannelValid(db: Db, row: ChannelRow)
    requires Valid(db)
    requires row.id == db.nextChannelId
    requires forall j :: 0 <= j < |db.channels| ==> db.channels[j].url != row.url
    ensures Valid(db.(channels := db.channels + [row], nextChannelId := db.nextChannelId + 1))
  {
    var cs := db.channels + [row];
    assert forall j :: 0 <= j < |db.channels| ==> cs[j] == db.channels[j];
    assert cs[|db.channels|] == row;
  }

  /** Reading back a freshly added channel shows the column defaults: mode
      `enumerate` unless one is given, falsy custom options stored as NULL, a
      zero or missing interval stored as 7 days, nothing scraped yet. */
  lemma AddChannelDefaults(db: Db, url: string, opts: ChannelOptions, now: int)
    requires Valid(db)
    requires forall i :: 0 <= i < |db.channels| ==> db.channels[i].url != url
    ensures AddChannel(db, url, opts, now).Ok?
    ensures var ins := AddChannel(db, url, opts, now).value;
      var c := GetChannel(ins.db, ins.id);
      && c.Some?
      && c.value.url == url
      && c.value.playlistMode == Some(if Truthy(opts.playlistMode) then opts.playlistMode.value else "enumerate")
      && c.value.flatMode == opts.flatMode
      && c.value.autoAddNewPlaylists == opts.autoAddNewPlaylists
      && (c.value.ytDlpOptions.Some? <==> Truthy(opts.ytDlpOptions))
      && (Truthy(opts.ytDlpOptions) ==> c.value.ytDlpOptions == opts.ytDlpOptions)
      && c.value.rescrapeIntervalDays == (if TruthyInt(opts.rescrapeIntervalDays) then opts.rescrapeIntervalDays.value else 7)
      && c.value.rescrapeIntervalDays != 0
      && c.value.lastScrapedAt.None?
  {
    var ins := AddChannel(db, url, opts, now).value;
    var n := |db.channels|;
    assert ins.db.channels[n].id == ins.id;
    assert forall i :: 0 <= i < n ==> ins.db.channels[i].id != ins.id;
    var c := GetChannel(ins.db, ins.id);
    assert c.value == ins.db.channels[n];
  }

  /** One column of an UPDATE: `Keep` when the key is `undefined`. */
  datatype Patch<T> = Keep | Set(value: T) {
    function Apply(current: T): T {
      match this
      case Keep => current
      case Set(v) => v
    }
  }

  /** The `data` argument of `updateChannel`: the only seven updatable columns.
      The two flags arrive already coerced to booleans (stored as 0/1). */
  datatype ChannelPatch = ChannelPatch(
    channelId: Patch<Option<string>>,
    channelName: Patch<Option<string>>,
    lastScrapedAt: Patch<Option<int>>,
    playlistMode: Patch<Option<string>>,
    flatMode: Patch<bool>,
    autoAddNewPlaylists: Patch<bool>,
    ytDlpOptions: Patch<Option<string>>)

  const NoChanges: ChannelPatch := ChannelPatch(Keep, Keep, Keep, Keep, Keep, Keep, Keep)

  function PatchChannel(c: ChannelRow, p: ChannelPatch, now: int): ChannelRow {
    c.(channelId := p.channelId.Apply(c.channelId),
       channelName := p.channelName.Apply(c.channelName),
       lastScrapedAt := p.lastScrapedAt.Apply(c.lastScrapedAt),
       playlistMode := p.playlistMode.Apply(c.playlistMode),
       flatMode := p.flatMode.Apply(c.flatMode),
       autoAddNewPlaylists := p.autoAddNewPlaylists.Apply(c.autoAddNewPlaylists),
       ytDlpOptions := p.ytDlpOptions.Apply(c.ytDlpOptions),
       updatedAt := now)
  }

  /** `updateChannel`: `UPDATE channels SET <given columns>, updated_at WHERE id = ?`.
      Only the row with that id changes, and in it only the columns the patch
      sets, plus `updated_at`; an unknown id changes nothing but is no error. */
  function UpdateChannel(db: Db, id: int, p: ChannelPatch, now: int): (r: Db)
    requires Valid(db)
    ensures Valid(r)
    ensures r.playlists == db.playlists && r.videos == db.videos
    ensures r.nextChannelId == db.nextChannelId && r.nextPlaylistId == db.nextPlaylistId
    ensures |r.channels| == |db.channels|
    ensures forall i :: 0 <= i < |db.channels| && db.channels[i].id != id ==> r.channels[i] == db.channels[i]
    ensures forall i :: 0 <= i < |db.channels| && db.channels[i].id == id ==>
      var (c, c') := (db.channels[i], r.channels[i]);
      && c'.id == c.id && c'.url == c.url
      && c'.rescrapeIntervalDays == c.rescrapeIntervalDays && c'.createdAt == c.createdAt
      && c'.updatedAt == now
      && (if p.channelId.Set? then c'.channelId == p.channelId.value else c'.channelId == c.channelId)
      && (if p.channelName.Set? then c'.channelName == p.channelName.value else c'.channelName == c.channelName)
      && (if p.lastScrapedAt.Set? then c'.lastScrapedAt == p.lastScrapedAt.value else c'.lastScrapedAt == c.lastScrapedAt)
      && (if p.playlistMode.Set? then c'.playlistMode == p.playlistMode.value else c'.playlistMode == c.playlistMode)
      && (if p.flatMode.Set? then c'.flatMode == p.flatMode.value else c'.flatMode == c.flatMode)
      && (if p.autoAddNewPlaylists.Set? then c'.autoAddNewPlaylists == p.autoAddNewPlaylists.value
          else c'.autoAddNewPlaylists == c.autoAddNewPlaylists)
      && (if p.ytDlpOptions.Set? then c'.ytDlpOptions == p.ytDlpOptions.value else c'.ytDlpOptions == c.ytDlpOptions)
  {
    var cs := seq(|db.channels|, i requires 0 <= i < |db.channels| =>
      if db.channels[i].id == id then PatchChannel(db.channels[i], p, now) else db.channels[i]);
    db.(channels := cs)
  }

  /** Updating twice with the same data at the same time is updating once. */
  lemma UpdateChannelIdempotent(db: Db, id: int, p: ChannelPatch, now: int)
    requires Valid(db)
    ensures UpdateChannel(UpdateChannel(db, id, p, now), id, p, now) == UpdateChannel(db, id, p, now)
  {
    var once := UpdateChannel(db, id, p, now);
    var twice := UpdateChannel(once, id, p, now);
    assert twice.channels == once.channels;
  }

  /** An update with no keys still touches `updated_at`, and nothing else. */
  lemma UpdateChannelNoChanges(db: Db, id: int, now: int)
    requires Valid(db)
    ensures forall i :: 0 <= i < |db.channels| ==>
      UpdateChannel(db, id, NoChanges, now).channels[i]
        == (if db.channels[i].id == id then db.channels[i].(updatedAt := now) else db.channels[i])
  {
  }

  // ---------------------------------------------------------------------------
  // Playlists

  /** The `playlistData` argument of `addPlaylist`. */
  datatype PlaylistData = PlaylistData(
    playlistId: string,
    playlistTitle: Option<string>,
    playlistUrl: Option<string>,
    enabled: bool)

  function GetPlaylist(db: Db, id: int): (r: Option<PlaylistRow>)
    ensures r.Some? <==> exists i :: 0 <= i < |db.playlists| && db.playlists[i].id == id
    ensures r.Some? ==> r.value in db.playlists && r.value.id == id
  {
    match IndexWhere(db.playlists, (p: PlaylistRow) => p.id == id)
    case None => None
    case Some(i) => Some(db.playlists[i])
  }

  /** `addPlaylist`: INSERT ... ON CONFLICT(channel_id, playlist_id) DO UPDATE
      SET title, url. Either way the playlist is there afterwards; what
      happens to an existing row and to a new one is stated by
      `AddPlaylistExisting` and `AddPlaylistFresh`. */
  function AddPlaylist(db: Db, channelId: int, data: PlaylistData, now: int): (r: Db)
    requires Valid(db)
    ensures Valid(r)
    ensures r.channels == db.channels && r.videos == db.videos
    ensures r.nextChannelId == db.nextChannelId
    ensures exists k :: 0 <= k < |r.playlists| && SamePlaylistKey(r.playlists[k], channelId, data.playlistId)
  {
    match IndexWhere(db.playlists, (p: PlaylistRow) => SamePlaylistKey(p, channelId, data.playlistId))
    case Some(i) =>
      var ps := db.playlists[i := Retitled(db.playlists[i], data, now)];
      assert SamePlaylistKey(ps[i], channelId, data.playlistId);
      SameKeysValid(db, ps);
      db.(playlists := ps)
    case None =>
      var row := NewPlaylistRow(db, channelId, data, now);
      assert (db.playlists + [row])[|db.playlists|] == row;
      AppendPlaylistValid(db, row);
      db.(playlists := db.playlists + [row], nextPlaylistId := db.nextPlaylistId + 1)
  }

  /** The DO UPDATE branch: title, url and `updated_at` change. */
  function Retitled(p: PlaylistRow, data: PlaylistData, now: int): PlaylistRow {
    p.(playlistTitle := data.playlistTitle, playlistUrl := data.playlistUrl, updatedAt := now)
  }

  /** The INSERT branch: the next row id, `enabled` from the data, not scraped yet. */
  function NewPlaylistRow(db: Db, channelId: int, data: PlaylistData, now: int): PlaylistRow {
    PlaylistRow(db.nextPlaylistId, channelId, data.playlistId,
                data.playlistTitle, data.playlistUrl, data.enabled, None, now, now)
  }

  /** A re-enumerated playlist keeps its row, its row id and, above all, its
      `enabled` flag and scrape time; only title, url and `updated_at` are
      overwritten, and no other row changes. */
  lemma AddPlaylistExisting(db: Db, channelId: int, data: PlaylistData, now: int, i: nat)
    requires Valid(db)
    requires i < |db.playlists| && SamePlaylistKey(db.playlists[i], channelId, data.playlistId)
    ensures var r := AddPlaylist(db, channelId, data, now);
      && |r.playlists| == |db.playlists|
      && (forall j :: 0 <= j < |db.playlists| && j != i ==> r.playlists[j] == db.playlists[j])
      && r.playlists[i].id == db.playlists[i].id
      && r.playlists[i].channelId == channelId && r.playlists[i].playlistId == data.playlistId
      && r.playlists[i].enabled == db.playlists[i].enabled
      && r.playlists[i].lastScrapedAt == db.playlists[i].lastScrapedAt
      && r.playlists[i].createdAt == db.playlists[i].createdAt
      && r.playlists[i].playlistTitle == data.playlistTitle
      && r.playlists[i].playlistUrl == data.playlistUrl
      && r.playlists[i].updatedAt == now
      && r.nextPlaylistId == db.nextPlaylistId
  {
    var f := (p: PlaylistRow) => SamePlaylistKey(p, channelId, data.playlistId);
    var k := IndexWhere(db.playlists, f);
    assert f(db.playlists[i]);
    assert k.Some?;
    if k.value != i {
      assert false;
    }
  }

  /** A playlist the channel did not have is appended with the next row id
      and the `enabled` flag of the data. */
  lemma AddPlaylistFresh(db: Db, channelId: int, data: PlaylistData, now: int)
    requires Valid(db)
    requires forall j :: 0 <= j < |db.playlists| ==> !SamePlaylistKey(db.playlists[j], channelId, data.playlistId)
    ensures var r := AddPlaylist(db, channelId, data, now);
      && r.playlists == db.playlists + [PlaylistRow(db.nextPlaylistId, channelId, data.playlistId,
                                                   data.playlistTitle, data.playlistUrl, data.enabled,
                                                   None, now, now)]
      && r.nextPlaylistId == db.nextPlaylistId + 1
  {
    var f := (p: PlaylistRow) => SamePlaylistKey(p, channelId, data.playlistId);
    assert IndexWhere(db.playlists, f).None?;
  }

  /** Rewriting playlist rows without touching their keys keeps the schema. */
  lemma SameKeysValid(db: Db, ps: seq<PlaylistRow>)
    requires Valid(db)
    requires |ps| == |db.playlists|
    requires forall j :: 0 <= j < |ps| ==>
      ps[j].id == db.playlists[j].id && ps[j].channelId == db.playlists[j].channelId
      && ps[j].playlistId == db.playlists[j].playlistId
    ensures Valid(db.(playlists := ps))
  {
  }

  /** A new playlist row with a fresh id and a fresh key keeps the schema. */
  lemma AppendPlaylistValid(db: Db, row: PlaylistRow)
    requires Valid(db)
    requires row.id == db.nextPlaylistId
    requires forall j :: 0 <= j < |db.playlists| ==> !SamePlaylistKey(db.playlists[j], row.channelId, row.playlistId)
    ensures Valid(db.(playlists := db.playlists + [row], nextPlaylistId := db.nextPlaylistId + 1))
  {
    var ps := db.playlists + [row];
    assert forall j :: 0 <= j < |db.playlists| ==> ps[j] == db.playlists[j];
    assert ps[|db.playlists|] == row;
  }

  /** `updatePlaylistEnabled`: sets `enabled` (and `updated_at`) on that row only. */
  function UpdatePlaylistEnabled(db: Db, id: int, enabled: bool, now: int): (r: Db)
    requires Valid(db)
    ensures Valid(r)
    ensures r.channels == db.channels && r.videos == db.videos
    ensures r.nextChannelId == db.nextChannelId && r.nextPlaylistId == db.nextPlaylistId
    ensures |r.playlists| == |db.playlists|
    ensures forall i :: 0 <= i < |db.playlists| ==>
      r.playlists[i] == (if db.playlists[i].id == id
                         then db.playlists[i].(enabled := enabled, updatedAt := now)
                         else db.playlists[i])
  {
    var ps := seq(|db.playlists|, i requires 0 <= i < |db.playlists| =>
      if db.playlists[i].id == id then db.playlists[i].(enabled := enabled, updatedAt := now)
      else db.playlists[i]);
    SameKeysValid(db, ps);
    db.(playlists := ps)
  }

  /** Playlist row ids are unique, so a row is what its id looks up. */
  lemma GetPlaylistOf(db: Db, p: PlaylistRow)
    requires Valid(db)
    requires p in db.playlists
    ensures GetPlaylist(db, p.id) == Some(p)
  {
    var i :| 0 <= i < |db.playlists| && db.playlists[i] == p;
    var r := GetPlaylist(db, p.id);
    assert db.playlists[i].id == p.id;
    assert r.Some?;
    var j :| 0 <= j < |db.playlists| && db.playlists[j] == r.value;
    if i != j {
      assert false;
    }
  }

  /** `getPlaylistsByChannel`: the channel's playlists, `ORDER BY playlist_title`. */
  function GetPlaylistsByChannel(db: Db, channelId: int): (r: seq<PlaylistRow>)
    ensures forall p :: p in r <==> p in db.playlists && p.channelId == channelId
    ensures Sorted(r, TitleOrder)
    ensures multiset(r) == multiset(Filter(db.playlists, (p: PlaylistRow) => p.channelId == channelId))
  {
    TitleOrderIsTotalPreorder();
    var rows := Filter(db.playlists, (p: PlaylistRow) => p.channelId == channelId);
    var r := SortBy(rows, TitleOrder);
    assert forall p :: p in r <==> p in rows by {
      forall p ensures p in r <==> p in rows {
        assert p in r <==> p in multiset(r);
        assert p in rows <==> p in multiset(rows);
      }
    }
    r
  }

  predicate TitleOrder(a: PlaylistRow, b: PlaylistRow) {
    NullableLexLe(a.playlistTitle, b.playlistTitle)
  }

  lemma TitleOrderIsTotalPreorder()
    ensures TotalPreorder(TitleOrder)
  {
    NullableLexIsTotalPreorder();
    assert forall a: PlaylistRow, b: PlaylistRow :: TitleOrder(a, b) == NullableLexLe(a.playlistTitle, b.playlistTitle);
  }

  // ---------------------------------------------------------------------------
  // Videos

  /** The `videoData` argument of `addVideo`. */
  datatype VideoData = VideoData(
    channelId: Option<int>,
    playlistId: Option<int>,
    videoId: string,
    videoTitle: Option<string>,
    videoUrl: Option<string>,
    uploader: Option<string>,
    uploadDate: Option<string>,
    duration: Option<int>,
    playlistIndex: Option<int>,
    downloadStatus: Option<Status>)

  function GetVideo(db: Db, videoId: string): (r: Option<VideoRow>)
    ensures r.Some? <==> exists i :: 0 <= i < |db.videos| && db.videos[i].videoId == videoId
    ensures r.Some? ==> r.value in db.videos && r.value.videoId == videoId
  {
    match IndexWhere(db.videos, (v: VideoRow) => v.videoId == videoId)
    case None => None
    case Some(i) => Some(db.videos[i])
  }

  /** Video ids are unique, so a row is what its id looks up. */
  lemma GetVideoOf(db: Db, v: VideoRow)
    requires Valid(db)
    requires v in db.videos
    ensures GetVideo(db, v.videoId) == Some(v)
  {
    var i :| 0 <= i < |db.videos| && db.videos[i] == v;
    var r := GetVideo(db, v.videoId);
    assert db.videos[i].videoId == v.videoId;
    assert r.Some?;
    var j :| 0 <= j < |db.videos| && db.videos[j] == r.value;
    if i != j {
      assert false;
    }
  }

  /** The row `addVideo` inserts for a video id it has not seen: a zero
      playlist id or index is stored as NULL, a missing status as `pending`. */
  function NewVideoRow(data: VideoData, now: int): VideoRow {
    VideoRow(data.channelId,
             if TruthyInt(data.playlistId) then data.playlistId else None,
             data.videoId, data.videoTitle, data.videoUrl, data.uploader, data.uploadDate,
             data.duration,
             if TruthyInt(data.playlistIndex) then data.playlistIndex else None,
             data.downloadStatus.GetOr(Pending),
             None, None, now, now)
  }

  /** `addVideo`: INSERT ... ON CONFLICT(video_id) DO UPDATE SET video_title.
      For a known id only the title (and `updated_at`) change, so the status,
      file path and download time of a known video are never reset. */
  function AddVideo(db: Db, data: VideoData, now: int): (r: Db)
    requires Valid(db)
    ensures Valid(r)
    ensures r.channels == db.channels && r.playlists == db.playlists
    ensures r.nextChannelId == db.nextChannelId && r.nextPlaylistId == db.nextPlaylistId
    ensures forall i :: 0 <= i < |db.videos| && db.videos[i].videoId == data.videoId ==>
      r.videos == db.videos[i := db.videos[i].(videoTitle := data.videoTitle, updatedAt := now)]
    ensures (forall i :: 0 <= i < |db.videos| ==> db.videos[i].videoId != data.videoId) ==>
      r.videos == db.videos + [NewVideoRow(data, now)]
  {
    match IndexWhere(db.videos, (v: VideoRow) => v.videoId == data.videoId)
    case Some(i) =>
      db.(videos := db.videos[i := db.videos[i].(videoTitle := data.videoTitle, updatedAt := now)])
    case None =>
      db.(videos := db.videos + [NewVideoRow(data, now)])
  }

  /** Re-enumeration never regresses a video: after `addVideo` the row for that
      id has the same status, file path and download time as before, whatever
      status the data carries; a new id gets exactly one row, with the given
      status or `pending`. */
  lemma AddVideoKeepsStatus(db: Db, data: VideoData, now: int)
    requires Valid(db)
    ensures var before := GetVideo(db, data.videoId);
      var after := GetVideo(AddVideo(db, data, now), data.videoId);
      && after.Some?
      && after.value.videoTitle == data.videoTitle
      && (before.Some? ==> after.value == before.value.(videoTitle := data.videoTitle, updatedAt := now))
      && (before.None? ==> after.value.status == data.downloadStatus.GetOr(Pending))
  {
    var r := AddVideo(db, data, now);
    var before := GetVideo(db, data.videoId);
    var after := GetVideo(r, data.videoId);
    if before.Some? {
      var i :| 0 <= i < |db.videos| && db.videos[i].videoId == data.videoId;
      assert r.videos[i].videoId == data.videoId;
      assert before.value == db.videos[i];
      assert after.value == r.videos[i];
    } else {
      var n := |db.videos|;
      assert r.videos[n].videoId == data.videoId;
      assert after.value == r.videos[n];
    }
  }

  /** `updateVideoStatus(videoId, status, filePath = null, downloadedAt = null)`:
      sets those three columns and `updated_at` on the row with that id; no
      other row and no other column changes. */
  function UpdateVideoStatus(db: Db, videoId: string, status: Status, filePath: Option<string>,
                             downloadedAt: Option<int>, now: int): (r: Db)
    requires Valid(db)
    ensures Valid(r)
    ensures r.channels == db.channels && r.playlists == db.playlists
    ensures r.nextChannelId == db.nextChannelId && r.nextPlaylistId == db.nextPlaylistId
    ensures |r.videos| == |db.videos|
    ensures forall i :: 0 <= i < |db.videos| && db.videos[i].videoId != videoId ==> r.videos[i] == db.videos[i]
    ensures forall i :: 0 <= i < |db.videos| && db.videos[i].videoId == videoId ==>
      r.videos[i] == db.videos[i].(status := status, filePath := filePath,
                                   downloadedAt := downloadedAt, updatedAt := now)
  {
    var vs := seq(|db.videos|, i requires 0 <= i < |db.videos| =>
      if db.videos[i].videoId == videoId
      then db.videos[i].(status := status, filePath := filePath, downloadedAt := downloadedAt, updatedAt := now)
      else db.videos[i]);
    db.(videos := vs)
  }

  /** `ORDER BY playlist_index, created_at`, NULL indexes first. */
  predicate IndexOrder(a: VideoRow, b: VideoRow) {
    if a.playlistIndex == b.playlistIndex then a.createdAt <= b.createdAt
    else NullableIntLe(a.playlistIndex, b.playlistIndex)
  }

  lemma IndexOrderIsTotalPreorder()
    ensures TotalPreorder(IndexOrder)
  {
  }

  /** The `WHERE playlist_id = ?` test of `getVideosByPlaylist`. */
  function InPlaylist(playlistId: int): VideoRow -> bool {
    (v: VideoRow) => v.playlistId == Some(playlistId)
  }

  /** `getVideosByPlaylist`: exactly the rows whose `playlist_id` is the given
      one, each once, in playlist-index order. */
  function GetVideosByPlaylist(db: Db, playlistId: int): (r: seq<VideoRow>)
    ensures forall v :: v in r <==> v in db.videos && v.playlistId == Some(playlistId)
    ensures Sorted(r, IndexOrder)
    ensures multiset(r) == multiset(Filter(db.videos, InPlaylist(playlistId)))
  {
    IndexOrderIsTotalPreorder();
    var rows := Filter(db.videos, InPlaylist(playlistId));
    var r := SortBy(rows, IndexOrder);
    assert forall v :: v in r <==> v in rows by {
      forall v ensures v in r <==> v in rows {
        assert v in r <==> v in multiset(r);
        assert v in rows <==> v in multiset(rows);
      }
    }
    r
  }

  /** `ORDER BY created_at DESC`. */
  predicate NewestFirst(a: ChannelRow, b: ChannelRow) {
    a.createdAt >= b.createdAt
  }

  /** `getAllChannels`: every channel once, newest first. */
  function GetAllChannels(db: Db): (r: seq<ChannelRow>)
    ensures Sorted(r, NewestFirst)
    ensures multiset(r) == multiset(db.channels)
  {
    SortBy(db.channels, NewestFirst)
  }

  /** `getAllChannels` lists exactly the channels of the table. */
  lemma AllChannelsMembers(db: Db)
    ensures forall c :: c in GetAllChannels(db) <==> c in db.channels
  {
    var all := GetAllChannels(db);
    forall c ensures c in all <==> c in db.channels {
      assert c in all <==> multiset(all)[c] > 0;
    }
  }
}

=== FILE: worker_pool.dfy ===
/** The worker loops of src/download-manager.js (`startDownloads`, `worker`)
    on their own: a FIFO queue of tasks and `concurrency` loops that shift
    tasks off its head until it is empty.

    Each loop is an explicit slot advanced one step at a time. A step is a
    stretch of code with no `await` inside it, so nothing interleaves with it:
    testing the queue and claiming its head (or returning), and getting back
    to the top of the loop once a download settles. What a step writes to the
    database and the active-download map is added on top of these steps in
    module DownloadManager. */
module WorkerPool {
  import opened Common
  import YtDlp

  /** A queue entry: the video, where it came from, and the options handed to
      `ytdlp.download`. The url is the row's `video_url`, which may be NULL. */
  datatype Task = Task(videoId: string, playlistId: Option<int>, channelId: Option<int>,
                       url: Option<string>, options: YtDlp.DownloadOptions)

  /** A worker loop: about to test the queue, awaiting a download, or
      returned. */
  datatype Worker = Idle | Busy(task: Task) | Exited

  /** `queue`, the loops started by the last `startDownloads`, `isProcessing`
      and `concurrency`. */
  datatype Pool = Pool(queue: seq<Task>, workers: seq<Worker>, isProcessing: bool, concurrency: int)

  /** What some steps did: the pool they reached and the tasks workers took off
      the queue, in the order they took them. */
  datatype Stepped = Stepped(p: Pool, claimed: seq<Task>)

  predicate AllExited(ws: seq<Worker>) {
    forall i :: 0 <= i < |ws| ==> ws[i].Exited?
  }

  /** `isProcessing` is set exactly while some loop has not returned. */
  predicate PoolInv(p: Pool) {
    p.isProcessing <==> !AllExited(p.workers)
  }

  /** A worker at the top of its `while` loop (src/download-manager.js:31-34).
      With tasks queued it shifts the head; with the queue empty it returns,
      and when it is the last one `Promise.all` settles and `isProcessing`
      drops. A worker that is not at the top of its loop does not move. */
  function PoolCheck(p: Pool, w: nat): (r: Stepped)
    ensures r.claimed + r.p.queue == p.queue
    ensures r.p.concurrency == p.concurrency
    ensures |r.p.workers| == |p.workers|
    ensures w < |p.workers| ==> r.p.workers == p.workers[w := r.p.workers[w]]
    ensures w < |p.workers| && p.workers[w].Idle? && |p.queue| > 0 ==>
      r.claimed == [p.queue[0]] && r.p.workers[w] == Busy(p.queue[0])
    ensures w < |p.workers| && p.workers[w].Idle? && |p.queue| == 0 ==>
      r.claimed == [] && r.p.workers[w] == Exited
    ensures !(w < |p.workers| && p.workers[w].Idle?) ==> r == Stepped(p, [])
  {
    if w >= |p.workers| || !p.workers[w].Idle? then Stepped(p, [])
    else if |p.queue| > 0 then
      Stepped(p.(queue := p.queue[1..], workers := p.workers[w := Busy(p.queue[0])]), [p.queue[0]])
    else
      var ws := p.workers[w := Exited];
      Stepped(p.(workers := ws, isProcessing := !AllExited(ws)), [])
  }

  /** A settled download, whichever way it went, returns its worker to the
      top of the loop: `processDownload` catches every error. */
  function PoolRelease(p: Pool, w: nat): (r: Pool)
    ensures r.queue == p.queue && r.isProcessing == p.isProcessing && r.concurrency == p.concurrency
    ensures |r.workers| == |p.workers|
    ensures w < |p.workers| && p.workers[w].Busy? ==> r.workers == p.workers[w := Idle]
    ensures !(w < |p.workers| && p.workers[w].Busy?) ==> r == p
  {
    if w >= |p.workers| || !p.workers[w].Busy? then p
    else p.(workers := p.workers[w := Idle])
  }

  // ---- every step keeps `PoolInv`

  lemma CheckInv(p: Pool, w: nat)
    requires PoolInv(p)
    ensures PoolInv(PoolCheck(p, w).p)
  {
    var r := PoolCheck(p, w).p;
    if w < |p.workers| && p.workers[w].Idle? && |p.queue| > 0 {
      assert !p.workers[w].Exited? && !r.workers[w].Exited?;
    }
  }

  lemma ReleaseInv(p: Pool, w: nat)
    requires PoolInv(p)
    ensures PoolInv(PoolRelease(p, w))
  {
    var r := PoolRelease(p, w);
    if w < |p.workers| && p.workers[w].Busy? {
      assert !p.workers[w].Exited? && !r.workers[w].Exited?;
    }
  }

  lemma {:induction false} LaunchInv(p: Pool, i: nat)
    requires PoolInv(p)
    ensures PoolInv(PoolLaunch(p, i).p)
    decreases |p.workers| - i
  {
    if i < |p.workers| {
      CheckInv(p, i);
      LaunchInv(PoolCheck(p, i).p, i + 1);
    }
  }

  lemma StartInv(p: Pool)
    requires PoolInv(p)
    ensures PoolInv(PoolStart(p).p)
  {
    if !p.isProcessing {
      LaunchInv(Fresh(p), 0);
    }
  }

  lemma EnqueueInv(p: Pool, tasks: seq<Task>)
    requires PoolInv(p)
    ensures PoolInv(PoolEnqueue(p, tasks).p)
  {
    StartInv(p.(queue := p.queue + tasks));
  }

  lemma ApplyInv(p: Pool, e: Event)
    requires PoolInv(p)
    ensures PoolInv(PoolApply(p, e).p)
  {
    match e
    case CheckQueue(w, _) => CheckInv(p, w);
    case Settle(w, _, _) => ReleaseInv(p, w);
    case Push(tasks, _) => EnqueueInv(p, tasks);
  }

  /** Workers `i` onwards take their first step, in order: what the `for` loop
      of `startDownloads` does, since each `worker()` call runs up to its first
      `await` before the next call is made. */
  function PoolLaunch(p: Pool, i: nat): (r: Stepped)
    ensures r.claimed + r.p.queue == p.queue
    ensures r.p.concurrency == p.concurrency
    ensures |r.p.workers| == |p.workers|
    decreases |p.workers| - i
  {
    if i >= |p.workers| then Stepped(p, [])
    else
      var s := PoolCheck(p, i);
      var rest := PoolLaunch(s.p, i + 1);
      Assoc(s.claimed, rest.claimed, rest.p.queue);
      Stepped(rest.p, s.claimed + rest.claimed)
  }

  function Max0(n: int): nat {
    if n > 0 then n else 0
  }

  /** Right after the `for` loop of `startDownloads` has made its workers and
      before any has run: exactly `concurrency` of them (none when that is not
      positive, in which case `Promise.all([])` settles at once and the flag
      drops again). */
  function Fresh(p: Pool): (r: Pool)
    ensures |r.workers| == Max0(p.concurrency)
    ensures forall j :: 0 <= j < |r.workers| ==> r.workers[j].Idle?
    ensures r.queue == p.queue && r.concurrency == p.concurrency
    ensures PoolInv(r)
  {
    var n := Max0(p.concurrency);
    var r := p.(workers := seq(n, _ => Idle), isProcessing := n > 0);
    assert n > 0 ==> r.workers[0].Idle?;
    r
  }

  /** `startDownloads` (src/download-manager.js:15-28): nothing while
      processing; otherwise fresh workers, which take their first steps. */
  function PoolStart(p: Pool): (r: Stepped)
    ensures r.claimed + r.p.queue == p.queue
    ensures r.p.concurrency == p.concurrency
    ensures p.isProcessing ==> r == Stepped(p, [])
    ensures !p.isProcessing ==> |r.p.workers| == Max0(p.concurrency)
  {
    if p.isProcessing then Stepped(p, []) else PoolLaunch(Fresh(p), 0)
  }

  /** How many of the workers from `i` on get a task: as many as there are
      workers and tasks. */
  function Handed(p: Pool, i: nat): nat
    requires i <= |p.workers|
  {
    if |p.workers| - i < |p.queue| then |p.workers| - i else |p.queue|
  }

  lemma LaunchUnfold(p: Pool, i: nat)
    requires i < |p.workers|
    ensures var s := PoolCheck(p, i);
      var rest := PoolLaunch(s.p, i + 1);
      PoolLaunch(p, i) == Stepped(rest.p, s.claimed + rest.claimed)
  {
  }

  /** The steps `r` took the first `h` tasks of `q`, in order, and left the
      rest queued. */
  predicate TookHead(q: seq<Task>, r: Stepped, h: nat) {
    h <= |q| && r.claimed == q[..h] && r.p.queue == q[h..]
  }

  /** Workers from `i` on, all at the top of their loops, take their first
      steps: between them they take the first `Handed` tasks, in order. */
  lemma {:induction false} LaunchTakesHead(p: Pool, i: nat)
    requires i <= |p.workers|
    requires forall j :: i <= j < |p.workers| ==> p.workers[j].Idle?
    ensures TookHead(p.queue, PoolLaunch(p, i), Handed(p, i))
    decreases |p.workers| - i
  {
    if i < |p.workers| {
      var s := PoolCheck(p, i);
      CheckKeepsIdle(p, i, s);
      LaunchTakesHead(s.p, i + 1);
      TakesHeadStep(p, i, s, PoolLaunch(s.p, i + 1));
    }
  }

  /** A worker's step leaves the workers after it where they were. */
  lemma CheckKeepsIdle(p: Pool, i: nat, s: Stepped)
    requires i < |p.workers|
    requires forall j :: i <= j < |p.workers| ==> p.workers[j].Idle?
    requires s == PoolCheck(p, i)
    ensures i + 1 <= |s.p.workers|
    ensures forall j :: i + 1 <= j < |s.p.workers| ==> s.p.workers[j].Idle?
  {
  }

  lemma TakesHeadStep(p: Pool, i: nat, s: Stepped, rest: Stepped)
    requires i < |p.workers| && p.workers[i].Idle?
    requires s == PoolCheck(p, i)
    requires rest == PoolLaunch(s.p, i + 1)
    requires TookHead(s.p.queue, rest, Handed(s.p, i + 1))
    ensures TookHead(p.queue, PoolLaunch(p, i), Handed(p, i))
  {
    LaunchUnfold(p, i);
    var c := Handed(p, i);
    if |p.queue| > 0 {
      assert s.claimed == [p.queue[0]];
      assert s.p.queue == p.queue[1..];
      assert Handed(s.p, i + 1) == c - 1;
      assert p.queue[1..][..c - 1] == p.queue[1..c];
      assert [p.queue[0]] + p.queue[1..c] == p.queue[..c];
      assert p.queue[1..][c - 1..] == p.queue[c..];
    } else {
      assert s.claimed == [] && s.p.queue == [];
    }
  }

  /** `n` workers after each took its first step, in order, against the queue
      `ts`: the first ones hold its tasks in order, the rest returned. */
  function Assigned(ts: seq<Task>, n: nat): seq<Worker> {
    seq(n, k requires 0 <= k => if k < |ts| then Busy(ts[k]) else Exited)
  }

  lemma AssignedCons(ts: seq<Task>, n: nat)
    requires n > 0
    ensures Assigned(ts, n)
         == [if |ts| > 0 then Busy(ts[0]) else Exited] + Assigned(if |ts| > 0 then ts[1..] else [], n - 1)
  {
    var a := Assigned(ts, n);
    var b := [if |ts| > 0 then Busy(ts[0]) else Exited] + Assigned(if |ts| > 0 then ts[1..] else [], n - 1);
    forall k | 0 <= k < n ensures a[k] == b[k] {
      if k > 0 {
        assert b[k] == Assigned(if |ts| > 0 then ts[1..] else [], n - 1)[k - 1];
      }
    }
  }

  /** ... and worker `i + k` is the one that takes task `k`; the workers left
      over return, and the workers before `i` are not touched. */
  lemma {:induction false} LaunchAssigns(p: Pool, i: nat)
    requires i <= |p.workers|
    requires forall j :: i <= j < |p.workers| ==> p.workers[j].Idle?
    ensures var ws := PoolLaunch(p, i).p.workers;
      ws[..i] == p.workers[..i] && ws[i..] == Assigned(p.queue, |p.workers| - i)
    decreases |p.workers| - i
  {
    if i < |p.workers| {
      var s := PoolCheck(p, i);
      LaunchAssigns(s.p, i + 1);
      LaunchUnfold(p, i);
      AssignsStep(p, i, s, PoolLaunch(s.p, i + 1).p.workers);
    } else {
      assert PoolLaunch(p, i).p.workers[i..] == [];
    }
  }

  lemma AssignsStep(p: Pool, i: nat, s: Stepped, ws: seq<Worker>)
    requires i < |p.workers| && p.workers[i].Idle?
    requires s == PoolCheck(p, i)
    requires |ws| == |p.workers|
    requires ws[..i + 1] == s.p.workers[..i + 1]
    requires ws[i + 1..] == Assigned(s.p.queue, |p.workers| - (i + 1))
    ensures ws[..i] == p.workers[..i] && ws[i..] == Assigned(p.queue, |p.workers| - i)
  {
    var n := |p.workers|;
    AssignedCons(p.queue, n - i);
    assert ws[i] == ws[..i + 1][i] == s.p.workers[i];
    assert ws[..i] == ws[..i + 1][..i] == s.p.workers[..i + 1][..i];
    assert s.p.workers[..i] == p.workers[..i];
    assert ws[i..] == [ws[i]] + ws[i + 1..];
    if |p.queue| > 0 {
      assert s.p.workers[i] == Busy(p.queue[0]);
      assert s.p.queue == p.queue[1..];
    } else {
      assert s.p.workers[i] == Exited;
      assert s.p.queue == [];
    }
  }

  /** From an idle pool, `startDownloads` launches exactly `concurrency`
      workers: the first min(concurrency, queue length) take the first tasks
      in queue order, worker `k` task `k`; the others return at once; and the
      pool is processing exactly when some task was handed out. */
  lemma StartShape(p: Pool)
    requires !p.isProcessing
    ensures var r := PoolStart(p);
      var n := Max0(p.concurrency);
      var k := if n < |p.queue| then n else |p.queue|;
      && r.claimed == p.queue[..k]
      && r.p.queue == p.queue[k..]
      && r.p.workers == Assigned(p.queue, n)
      && (r.p.isProcessing <==> k > 0)
  {
    StartTakesHead(p);
    StartAssigns(p);
    StartFlag(p);
  }

  lemma StartTakesHead(p: Pool)
    requires !p.isProcessing
    ensures var r := PoolStart(p);
      var n := Max0(p.concurrency);
      var k := if n < |p.queue| then n else |p.queue|;
      r.claimed == p.queue[..k] && r.p.queue == p.queue[k..]
  {
    var f := Fresh(p);
    assert PoolStart(p) == PoolLaunch(f, 0);
    LaunchTakesHead(f, 0);
    assert Handed(f, 0) == if Max0(p.concurrency) < |p.queue| then Max0(p.concurrency) else |p.queue|;
  }

  lemma StartAssigns(p: Pool)
    requires !p.isProcessing
    ensures PoolStart(p).p.workers == Assigned(p.queue, Max0(p.concurrency))
  {
    var f := Fresh(p);
    var r := PoolLaunch(f, 0);
    assert PoolStart(p) == r;
    LaunchAssigns(f, 0);
    assert r.p.workers == r.p.workers[0..];
  }

  lemma StartFlag(p: Pool)
    requires !p.isProcessing
    ensures PoolStart(p).p.isProcessing <==> Max0(p.concurrency) > 0 && |p.queue| > 0
  {
    var f := Fresh(p);
    assert PoolStart(p) == PoolLaunch(f, 0);
    StartAssigns(p);
    LaunchInv(f, 0);
    AssignedExited(p.queue, Max0(p.concurrency));
  }

  lemma AssignedExited(ts: seq<Task>, n: nat)
    ensures AllExited(Assigned(ts, n)) <==> n == 0 || |ts| == 0
  {
    if n > 0 && |ts| > 0 {
      assert Assigned(ts, n)[0] == Busy(ts[0]);
    }
  }

  /** Pushing tasks and starting the workers unless they are running: the
      tail of `downloadPlaylist` and `downloadSingleVideo`. */
  function PoolEnqueue(p: Pool, tasks: seq<Task>): (r: Stepped)
    ensures r.claimed + r.p.queue == p.queue + tasks
    ensures r.p.concurrency == p.concurrency
  {
    PoolStart(p.(queue := p.queue + tasks))
  }

  // ---------------------------------------------------------------------------
  // Runs

  /** How a download settled: `ytdlp.download` resolved, or something in the
      `try` block of `processDownload` threw. */
  datatype Settled = Downloaded | DownloadFailed(message: string)

  /** One thing that can happen next: a worker tests the queue, a download
      settles, or some operation pushes tasks. `now` is `Date.now()`. */
  datatype Event =
    | CheckQueue(w: nat, now: int)
    | Settle(w: nat, outcome: Settled, now: int)
    | Push(tasks: seq<Task>, now: int)

  function PushedBy(e: Event): seq<Task> {
    if e.Push? then e.tasks else []
  }

  function PoolApply(p: Pool, e: Event): (r: Stepped)
    ensures r.claimed + r.p.queue == p.queue + PushedBy(e)
    ensures r.p.concurrency == p.concurrency
  {
    match e
    case CheckQueue(w, _) => PoolCheck(p, w)
    case Settle(w, _, _) => Stepped(PoolRelease(p, w), [])
    case Push(tasks, _) => PoolEnqueue(p, tasks)
  }

  function PoolRun(p: Pool, es: seq<Event>): Stepped
    decreases |es|
  {
    if |es| == 0 then Stepped(p, [])
    else
      var s := PoolApply(p, es[0]);
      var rest := PoolRun(s.p, es[1..]);
      Stepped(rest.p, s.claimed + rest.claimed)
  }

  function Pushed(es: seq<Event>): seq<Task>
    decreases |es|
  {
    if |es| == 0 then [] else PushedBy(es[0]) + Pushed(es[1..])
  }

  /** The queue is first in, first out, whatever the interleaving: the tasks
      workers claimed, followed by those still queued, are the tasks queued at
      the start followed by every task pushed since, in order. So each task is
      claimed at most once, by one worker, and never ahead of a task pushed
      before it. */
  lemma {:induction false} RunIsFifo(p: Pool, es: seq<Event>)
    ensures PoolRun(p, es).claimed + PoolRun(p, es).p.queue == p.queue + Pushed(es)
    decreases |es|
  {
    if |es| > 0 {
      var s := PoolApply(p, es[0]);
      RunIsFifo(s.p, es[1..]);
      RunStep(p, es, s, PoolRun(s.p, es[1..]));
    }
  }

  lemma {:induction false} RunInv(p: Pool, es: seq<Event>)
    requires PoolInv(p)
    ensures PoolInv(PoolRun(p, es).p)
    decreases |es|
  {
    if |es| > 0 {
      ApplyInv(p, es[0]);
      RunInv(PoolApply(p, es[0]).p, es[1..]);
    }
  }

  lemma RunStep(p: Pool, es: seq<Event>, s: Stepped, rest: Stepped)
    requires |es| > 0
    requires s == PoolApply(p, es[0])
    requires rest == PoolRun(s.p, es[1..])
    requires rest.claimed + rest.p.queue == s.p.queue + Pushed(es[1..])
    ensures PoolRun(p, es).claimed + PoolRun(p, es).p.queue == p.queue + Pushed(es)
  {
    assert PoolRun(p, es) == Stepped(rest.p, s.claimed + rest.claimed);
    assert s.claimed + s.p.queue == p.queue + PushedBy(es[0]);
    SeqAssoc(s.claimed, rest.claimed, rest.p.queue, s.p.queue, Pushed(es[1..]), p.queue, PushedBy(es[0]));
  }

  lemma Assoc<T>(a: seq<T>, b: seq<T>, c: seq<T>)
    ensures a + b + c == a + (b + c)
  {
  }

  lemma SeqAssoc<T>(a: seq<T>, b: seq<T>, c: seq<T>, d: seq<T>, e: seq<T>, f: seq<T>, g: seq<T>)
    requires b + c == d + e
    requires a + d == f + g
    ensures a + b + c == f + (g + e)
  {
    calc {
      a + b + c;
      a + (b + c);
      a + (d + e);
      (a + d) + e;
      (f + g) + e;
    }
  }
}

=== FILE: youtube_api.dfy ===
/** The bookkeeping of the YouTube Data API client
    (src/youtube-api-service.js): daily quota accounting, the API key check,
    the classification of a channel url into a channel id, a handle or a
    legacy user name, and the numbering of playlist items across pages. The
    HTTP requests, the files the key and quota live in, and the clock are
    outside the model: responses, stored data and times are parameters. */
module YouTubeApi {
  import opened Common

  // ---------------------------------------------------------------------------
  // Quota

  const DailyLimit: int := 10000

  const QuotaExceededMessage: string :=
    "YouTube API daily quota exceeded. Will reset at midnight Pacific Time."

  /** The quota file's content; `resetTime` is the next Pacific midnight,
      as a point in time. */
  datatype QuotaData = QuotaData(used: int, limit: int, resetTime: int)

  /** Fresh quota for a new day. */
  function InitQuotaData(nextReset: int): (q: QuotaData)
    ensures q.used == 0 && q.limit == DailyLimit && q.resetTime == nextReset
  {
    QuotaData(0, DailyLimit, nextReset)
  }

  /** `loadQuotaData`: stored data is kept until its reset time has passed;
      missing or unreadable data, or data past its reset time, is replaced
      by fresh data. */
  function LoadQuotaData(stored: Option<QuotaData>, now: int, nextReset: int): (q: QuotaData)
    ensures stored.Some? && now <= stored.value.resetTime ==> q == stored.value
    ensures stored.None? || now > stored.value.resetTime ==> q == InitQuotaData(nextReset)
  {
    if stored.Some? && !(now > stored.value.resetTime) then stored.value else InitQuotaData(nextReset)
  }

  /** Reloading what was just loaded changes nothing, since the next reset
      lies in the future. */
  lemma LoadQuotaDataIdempotent(stored: Option<QuotaData>, now: int, nextReset: int)
    requires now <= nextReset
    ensures LoadQuotaData(Some(LoadQuotaData(stored, now, nextReset)), now, nextReset)
         == LoadQuotaData(stored, now, nextReset)
  {
  }

  /** Units charged per call of an operation; operations outside the table
      cost nothing. */
  function CostOf(operation: string): (c: nat)
    ensures c == 1 <==> operation in {"channels.list", "playlists.list", "playlistItems.list"}
    ensures c == 0 <==> operation !in {"channels.list", "playlists.list", "playlistItems.list"}
  {
    if operation == "channels.list" || operation == "playlists.list" || operation == "playlistItems.list"
    then 1 else 0
  }

  /** The quota after a call, and the error it throws, if any. */
  datatype Tracked = Tracked(quota: QuotaData, error: Option<string>)

  /** `trackQuotaCost`: the cost is added and kept whether or not the call
      then throws; it throws once the used units reach the limit. */
  function TrackQuotaCost(q: QuotaData, operation: string, count: int): (r: Tracked)
    ensures r.quota.used == q.used + CostOf(operation) * count
    ensures r.quota.limit == q.limit && r.quota.resetTime == q.resetTime
    ensures r.error.Some? <==> r.quota.used >= r.quota.limit
    ensures r.error.Some? ==> r.error.value == QuotaExceededMessage
  {
    var q' := q.(used := q.used + CostOf(operation) * count);
    Tracked(q', if q'.used >= q'.limit then Some(QuotaExceededMessage) else None)
  }

  /** Once exhausted, every further charge throws too. */
  lemma QuotaExhaustionSticks(q: QuotaData, operation: string, count: nat)
    requires q.used >= q.limit
    ensures TrackQuotaCost(q, operation, count).error.Some?
  {
  }

  /** Successive charges add up. */
  lemma TrackQuotaCostAdds(q: QuotaData, op1: string, n1: int, op2: string, n2: int)
    ensures TrackQuotaCost(TrackQuotaCost(q, op1, n1).quota, op2, n2).quota.used
         == q.used + CostOf(op1) * n1 + CostOf(op2) * n2
  {
  }

  datatype QuotaStatus = QuotaStatus(used: int, limit: int, remaining: int, resetTime: int)

  /** `getQuotaStatus`: reloads the data (resetting it once its day is
      over) and reports it together with the units left. */
  function GetQuotaStatus(q: QuotaData, now: int, nextReset: int): (r: (QuotaStatus, QuotaData))
    ensures r.1 == LoadQuotaData(Some(q), now, nextReset)
    ensures r.0.used + r.0.remaining == r.0.limit
    ensures r.0.used == r.1.used && r.0.limit == r.1.limit && r.0.resetTime == r.1.resetTime
  {
    var d := LoadQuotaData(Some(q), now, nextReset);
    (QuotaStatus(d.used, d.limit, d.limit - d.used, d.resetTime), d)
  }

  /** After midnight the whole daily limit is available again. */
  lemma QuotaStatusAfterReset(q: QuotaData, now: int, nextReset: int)
    requires now > q.resetTime
    ensures GetQuotaStatus(q, now, nextReset).0.remaining == DailyLimit
  {
  }

  // ---------------------------------------------------------------------------
  // API key

  /** `loadApiKey` and `saveApiKey` both store the key trimmed. */
  function StoredKey(key: string): (k: string)
    ensures Trimmed(k)
  {
    Trim(key)
  }

  /** `hasValidApiKey`: a key is present and longer than 30 characters. */
  predicate HasValidApiKey(apiKey: Option<string>) {
    Truthy(apiKey) && |apiKey.value| > 30
  }

  /** Saving a key and loading it back gives the same key, so validity is
      decided on the trimmed key. */
  lemma SavedKeyReloads(key: string)
    ensures StoredKey(StoredKey(key)) == StoredKey(key)
    ensures HasValidApiKey(Some(StoredKey(key))) <==> |Trim(key)| > 30
  {
    TrimIdempotent(key);
  }

  // ---------------------------------------------------------------------------
  // Channel url classification

  /** `[\w-]`: ASCII letters, digits, underscore and hyphen. */
  predicate IsWordChar(c: char) {
    ('a' <= c <= 'z') || ('A' <= c <= 'Z') || ('0' <= c <= '9') || c == '_' || c == '-'
  }

  predicate AllWord(s: string) {
    forall k :: 0 <= k < |s| ==> IsWordChar(s[k])
  }

  /** Length of the greedy `[\w-]+` run starting at `i`. */
  function RunLength(s: string, i: nat): (n: nat)
    requires i <= |s|
    ensures i + n <= |s|
    ensures forall k :: i <= k < i + n ==> IsWordChar(s[k])
    ensures i + n == |s| || !IsWordChar(s[i + n])
    decreases |s| - i
  {
    if i < |s| && IsWordChar(s[i]) then 1 + RunLength(s, i + 1) else 0
  }

  predicate HasAt(s: string, i: nat, lit: string) {
    i + |lit| <= |s| && s[i..i + |lit|] == lit
  }

  /** The three patterns, in the order they are tried:
      `/\/channel\/(UC[\w-]+)/`, `/@([\w-]+)/`, `/\/(c|user)\/([\w-]+)/`. */
  datatype Pattern = ChannelPath | HandlePath | NamedPath

  /** The captured group of `pat` when the pattern matches starting at `i`. */
  function MatchAt(pat: Pattern, s: string, i: nat): Option<string> {
    match pat
    case ChannelPath =>
      if HasAt(s, i, "/channel/UC") && i + 11 < |s| && IsWordChar(s[i + 11])
      then Some(s[i + 9..i + 11 + RunLength(s, i + 11)]) else None
    case HandlePath =>
      if i + 1 < |s| && s[i] == '@' && IsWordChar(s[i + 1])
      then Some(s[i + 1..i + 1 + RunLength(s, i + 1)]) else None
    case NamedPath =>
      if HasAt(s, i, "/c/") && i + 3 < |s| && IsWordChar(s[i + 3])
      then Some(s[i + 3..i + 3 + RunLength(s, i + 3)])
      else if HasAt(s, i, "/user/") && i + 6 < |s| && IsWordChar(s[i + 6])
      then Some(s[i + 6..i + 6 + RunLength(s, i + 6)])
      else None
  }

  /** `String.prototype.match` for a pattern: the leftmost match at or
      after `i`, with its captured group. */
  function Find(pat: Pattern, s: string, i: nat): (r: Option<(nat, string)>)
    requires i <= |s|
    ensures r.Some? ==> i <= r.value.0 < |s| && MatchAt(pat, s, r.value.0) == Some(r.value.1)
    ensures r.Some? ==> forall k :: i <= k < r.value.0 ==> MatchAt(pat, s, k).None?
    ensures r.None? <==> forall k :: i <= k < |s| ==> MatchAt(pat, s, k).None?
    decreases |s| - i
  {
    if i == |s| then None
    else match MatchAt(pat, s, i)
      case Some(g) => Some((i, g))
      case None => Find(pat, s, i + 1)
  }

  predicate Matches(pat: Pattern, s: string) {
    exists k :: 0 <= k < |s| && MatchAt(pat, s, k).Some?
  }

  /** `g` is what `s.match(pat)[1]` gives: the capture of the leftmost
      position where the pattern matches. */
  predicate LeftmostCapture(pat: Pattern, s: string, g: string) {
    exists k :: 0 <= k < |s| && MatchAt(pat, s, k) == Some(g)
                && forall j :: 0 <= j < k ==> MatchAt(pat, s, j).None?
  }

  /** What `Find` reports from the start of a string is the leftmost capture. */
  lemma FindIsLeftmost(pat: Pattern, s: string)
    requires Find(pat, s, 0).Some?
    ensures LeftmostCapture(pat, s, Find(pat, s, 0).value.1)
  {
    var k := Find(pat, s, 0).value.0;
    assert MatchAt(pat, s, k) == Some(Find(pat, s, 0).value.1);
  }

  /** `match` finds something exactly when the pattern matches somewhere. */
  lemma FindSomeIff(pat: Pattern, s: string)
    ensures Find(pat, s, 0).Some? <==> Matches(pat, s)
  {
    if Find(pat, s, 0).Some? {
      assert MatchAt(pat, s, Find(pat, s, 0).value.0).Some?;
    }
  }

  datatype ChannelRef = ChannelIdRef(id: string) | HandleRef(handle: string) | UsernameRef(name: string) | Unrecognised

  /** The identifier a channel url carries, as `getChannelIdFromUrl` reads
      it from the trimmed url: the first pattern that matches anywhere wins,
      and within it the leftmost match. */
  function ClassifyChannelUrl(url: string): (r: ChannelRef)
    ensures r.ChannelIdRef? <==> Matches(ChannelPath, Trim(url))
    ensures r.HandleRef? <==> !Matches(ChannelPath, Trim(url)) && Matches(HandlePath, Trim(url))
    ensures r.UsernameRef? <==>
      !Matches(ChannelPath, Trim(url)) && !Matches(HandlePath, Trim(url)) && Matches(NamedPath, Trim(url))
    ensures r.ChannelIdRef? ==> LeftmostCapture(ChannelPath, Trim(url), r.id)
    ensures r.HandleRef? ==> LeftmostCapture(HandlePath, Trim(url), r.handle)
    ensures r.UsernameRef? ==> LeftmostCapture(NamedPath, Trim(url), r.name)
  {
    var s := Trim(url);
    var channel, handle, named := Find(ChannelPath, s, 0), Find(HandlePath, s, 0), Find(NamedPath, s, 0);
    FindSomeIff(ChannelPath, s); FindSomeIff(HandlePath, s); FindSomeIff(NamedPath, s);
    if channel.Some? then FindIsLeftmost(ChannelPath, s); ChannelIdRef(channel.value.1)
    else if handle.Some? then FindIsLeftmost(HandlePath, s); HandleRef(handle.value.1)
    else if named.Some? then FindIsLeftmost(NamedPath, s); UsernameRef(named.value.1)
    else Unrecognised
  }

  /** A greedy run is made of word characters. */
  lemma RunWord(s: string, i: nat)
    requires i <= |s|
    ensures AllWord(s[i..i + RunLength(s, i)])
  {
    var t := s[i..i + RunLength(s, i)];
    forall k | 0 <= k < |t| ensures IsWordChar(t[k]) {
      assert t[k] == s[i + k];
    }
  }

  /** The channel capture is "UC" followed by the run after it. */
  lemma ChannelCapture(s: string, i: nat)
    requires MatchAt(ChannelPath, s, i).Some?
    ensures var g := MatchAt(ChannelPath, s, i).value;
      AllWord(g) && |g| >= 3 && g[..2] == "UC"
  {
    var n := RunLength(s, i + 11);
    var g := s[i + 9..i + 11 + n];
    var lit := s[i..i + 11];
    assert lit == "/channel/UC";
    assert g[0] == lit[9] && g[1] == lit[10];
    assert g[..2] == [g[0], g[1]];
    RunWord(s, i + 11);
    var run := s[i + 11..i + 11 + n];
    forall k | 0 <= k < |g| ensures IsWordChar(g[k]) {
      if k >= 2 {
        assert g[k] == run[k - 2];
      }
    }
  }

  /** Whatever is captured is a maximal, non-empty `[\w-]` run; a channel id
      also starts with "UC". */
  lemma CapturedShape(pat: Pattern, s: string, i: nat)
    requires MatchAt(pat, s, i).Some?
    ensures AllWord(MatchAt(pat, s, i).value) && |MatchAt(pat, s, i).value| >= 1
    ensures pat == ChannelPath ==> |MatchAt(pat, s, i).value| >= 3 && MatchAt(pat, s, i).value[..2] == "UC"
  {
    match pat
    case ChannelPath => ChannelCapture(s, i);
    case HandlePath => RunWord(s, i + 1);
    case NamedPath =>
      if HasAt(s, i, "/c/") && i + 3 < |s| && IsWordChar(s[i + 3]) {
        RunWord(s, i + 3);
      } else {
        RunWord(s, i + 6);
      }
  }

  /** Every identifier the classification returns is captured from the
      url, so it consists of `[\w-]` characters only. */
  lemma ClassifiedShape(url: string)
    ensures var r := ClassifyChannelUrl(url);
      && (r.ChannelIdRef? ==> AllWord(r.id) && |r.id| >= 3 && r.id[..2] == "UC")
      && (r.HandleRef? ==> AllWord(r.handle) && |r.handle| >= 1)
      && (r.UsernameRef? ==> AllWord(r.name) && |r.name| >= 1)
  {
    var s := Trim(url);
    match Find(ChannelPath, s, 0)
    case Some((k, _)) => CapturedShape(ChannelPath, s, k);
    case None =>
      match Find(HandlePath, s, 0)
      case Some((k, _)) => CapturedShape(HandlePath, s, k);
      case None =>
        match Find(NamedPath, s, 0)
        case Some((k, _)) => CapturedShape(NamedPath, s, k);
        case None =>
  }

  const YouTubeHome: string := "https://www.youtube.com/"

  /** The only slashes of the home url are those of "//" and the final one. */
  lemma HomeSlashes()
    ensures |YouTubeHome| == 24
    ensures forall j :: 0 <= j < 24 && YouTubeHome[j] == '/' ==> j == 6 || j == 7 || j == 23
    ensures YouTubeHome[7] == '/' && YouTubeHome[8] == 'w'
    ensures '@' !in YouTubeHome
  {
    var a := "https:";
    var b := "www.youtube.com";
    assert YouTubeHome == a + "//" + b + "/";
    assert '/' !in a && '/' !in b;
  }

  /** What a match at `j` says about the characters at `j`. */
  lemma MatchStart(pat: Pattern, s: string, j: nat)
    ensures MatchAt(pat, s, j).Some? && pat != HandlePath ==>
      j + 2 < |s| && s[j] == '/' && (s[j + 1] == 'c' || s[j + 1] == 'u')
    ensures MatchAt(pat, s, j).Some? && pat == ChannelPath ==>
      j + 11 < |s| && s[j + 1] == 'c' && s[j + 8] == '/'
    ensures MatchAt(pat, s, j).Some? && pat == HandlePath ==> j < |s| && s[j] == '@'
  {
    if HasAt(s, j, "/channel/UC") {
      assert s[j..j + 11][0] == '/' && s[j..j + 11][1] == 'c' && s[j..j + 11][8] == '/';
    }
    if HasAt(s, j, "/c/") {
      assert s[j..j + 3][0] == '/' && s[j..j + 3][1] == 'c';
    }
    if HasAt(s, j, "/user/") {
      assert s[j..j + 6][0] == '/' && s[j..j + 6][1] == 'u';
    }
  }

  /** In `YouTubeHome + rest`, a match of the channel pattern or of the named
      pattern can only start at the home url's final slash or inside `rest`. */
  lemma NoMatchInHome(rest: string, pat: Pattern, j: nat)
    requires pat != HandlePath
    requires j < 23
    ensures MatchAt(pat, YouTubeHome + rest, j).None?
  {
    var s := YouTubeHome + rest;
    HomeSlashes();
    MatchStart(pat, s, j);
    assert s[j] == YouTubeHome[j] && s[j + 1] == YouTubeHome[j + 1];
  }

  /** A match with none before it is what `match` finds. */
  lemma FindIs(pat: Pattern, s: string, j: nat)
    requires j < |s| && MatchAt(pat, s, j).Some?
    requires forall k :: 0 <= k < j ==> MatchAt(pat, s, k).None?
    ensures Find(pat, s, 0) == Some((j, MatchAt(pat, s, j).value))
  {
    var r := Find(pat, s, 0);
    assert r.Some?;
    assert !(r.value.0 < j);
    assert !(r.value.0 > j);
  }

  lemma TrimmedUrl(rest: string)
    requires |rest| >= 1 && IsWordChar(rest[|rest| - 1])
    ensures Trim(YouTubeHome + rest) == YouTubeHome + rest
  {
    TrimOfTrimmed(YouTubeHome + rest);
  }

  /** A `[\w-]` run at the end of the string extends to the end. */
  lemma RunToEnd(s: string, i: nat)
    requires i <= |s|
    requires forall k :: i <= k < |s| ==> IsWordChar(s[k])
    ensures RunLength(s, i) == |s| - i
  {
  }

  lemma ChannelMatch(id: string)
    requires |id| >= 3 && id[..2] == "UC" && AllWord(id)
    ensures MatchAt(ChannelPath, YouTubeHome + "channel/" + id, 23) == Some(id)
  {
    var s := YouTubeHome + "channel/" + id;
    assert forall k :: 32 <= k < |s| ==> s[k] == id[k - 32];
    assert s[23..32] == "/channel/";
    assert s[32..34] == id[..2];
    assert s[23..34] == s[23..32] + s[32..34];
    RunToEnd(s, 34);
    assert s[32..|s|] == id;
  }

  /** `https://www.youtube.com/channel/UC…` yields its channel id. */
  lemma ChannelUrlGivesId(id: string)
    requires |id| >= 3 && id[..2] == "UC" && AllWord(id)
    ensures ClassifyChannelUrl(YouTubeHome + "channel/" + id) == ChannelIdRef(id)
  {
    var rest := "channel/" + id;
    var s := YouTubeHome + rest;
    assert s == YouTubeHome + "channel/" + id;
    TrimmedUrl(rest);
    ChannelMatch(id);
    forall j | 0 <= j < 23 ensures MatchAt(ChannelPath, s, j).None? {
      NoMatchInHome(rest, ChannelPath, j);
    }
    FindIs(ChannelPath, s, 23);
  }

  lemma NoChannelMatchInHandleUrl(h: string, j: nat)
    requires AllWord(h)
    ensures MatchAt(ChannelPath, YouTubeHome + "@" + h, j).None?
  {
    var rest := "@" + h;
    var s := YouTubeHome + rest;
    assert s == YouTubeHome + "@" + h;
    if j < 23 {
      NoMatchInHome(rest, ChannelPath, j);
    } else {
      MatchStart(ChannelPath, s, j);
      assert s[24] == '@';
      assert forall k :: 25 <= k < |s| ==> s[k] == h[k - 25];
    }
  }

  lemma HandleMatch(h: string)
    requires |h| >= 1 && AllWord(h)
    ensures MatchAt(HandlePath, YouTubeHome + "@" + h, 24) == Some(h)
    ensures forall j :: 0 <= j < 24 ==> MatchAt(HandlePath, YouTubeHome + "@" + h, j).None?
  {
    var s := YouTubeHome + "@" + h;
    HomeSlashes();
    forall j | 0 <= j < 24 ensures MatchAt(HandlePath, s, j).None? {
      MatchStart(HandlePath, s, j);
      assert s[j] == YouTubeHome[j];
    }
    assert forall k :: 25 <= k < |s| ==> s[k] == h[k - 25];
    RunToEnd(s, 25);
    assert s[25..|s|] == h;
  }

  /** `https://www.youtube.com/@handle` yields the handle. */
  lemma HandleUrlGivesHandle(h: string)
    requires |h| >= 1 && AllWord(h)
    ensures ClassifyChannelUrl(YouTubeHome + "@" + h) == HandleRef(h)
  {
    var rest := "@" + h;
    var s := YouTubeHome + rest;
    assert s == YouTubeHome + "@" + h;
    TrimmedUrl(rest);
    forall j | 0 <= j < |s| ensures MatchAt(ChannelPath, s, j).None? {
      NoChannelMatchInHandleUrl(h, j);
    }
    HandleMatch(h);
    FindIs(HandlePath, s, 24);
  }

  lemma NoChannelMatchInUserUrl(u: string, j: nat)
    requires AllWord(u)
    ensures MatchAt(ChannelPath, YouTubeHome + "user/" + u, j).None?
  {
    var rest := "user/" + u;
    var s := YouTubeHome + rest;
    assert s == YouTubeHome + "user/" + u;
    if j < 23 {
      NoMatchInHome(rest, ChannelPath, j);
    } else {
      MatchStart(ChannelPath, s, j);
      assert s[23..29] == "/user/";
      assert forall k :: 29 <= k < |s| ==> s[k] == u[k - 29];
    }
  }

  lemma NoHandleMatchInUserUrl(u: string, j: nat)
    requires AllWord(u)
    ensures MatchAt(HandlePath, YouTubeHome + "user/" + u, j).None?
  {
    var s := YouTubeHome + "user/" + u;
    HomeSlashes();
    MatchStart(HandlePath, s, j);
    if j < 24 {
      assert s[j] == YouTubeHome[j];
    } else {
      assert s[24..29] == "user/";
      assert forall k :: 29 <= k < |s| ==> s[k] == u[k - 29];
    }
  }

  lemma NamedMatch(u: string)
    requires |u| >= 1 && AllWord(u)
    ensures MatchAt(NamedPath, YouTubeHome + "user/" + u, 23) == Some(u)
  {
    var s := YouTubeHome + "user/" + u;
    assert s[23..29] == "/user/";
    assert s[24] == 'u';
    assert !HasAt(s, 23, "/c/");
    assert forall k :: 29 <= k < |s| ==> s[k] == u[k - 29];
    RunToEnd(s, 29);
    assert s[29..|s|] == u;
  }

  /** `https://www.youtube.com/user/name` yields the legacy user name. */
  lemma UserUrlGivesName(u: string)
    requires |u| >= 1 && AllWord(u)
    ensures ClassifyChannelUrl(YouTubeHome + "user/" + u) == UsernameRef(u)
  {
    var s := YouTubeHome + "user/" + u;
    assert s == YouTubeHome + ("user/" + u);
    TrimmedUrl("user/" + u);
    UserUrlFinds(u);
    ClassifiedNamed(s, u);
  }

  /** In a `/user/` url only the legacy-name pattern matches, and it matches
      right after the host. */
  lemma UserUrlFinds(u: string)
    requires |u| >= 1 && AllWord(u)
    ensures var s := YouTubeHome + "user/" + u;
      && Find(ChannelPath, s, 0).None?
      && Find(HandlePath, s, 0).None?
      && Find(NamedPath, s, 0) == Some((23, u))
  {
    var rest := "user/" + u;
    var s := YouTubeHome + rest;
    assert s == YouTubeHome + "user/" + u;
    forall j | 0 <= j < |s| ensures MatchAt(ChannelPath, s, j).None? {
      NoChannelMatchInUserUrl(u, j);
    }
    forall j | 0 <= j < |s| ensures MatchAt(HandlePath, s, j).None? {
      NoHandleMatchInUserUrl(u, j);
    }
    forall j | 0 <= j < 23 ensures MatchAt(NamedPath, s, j).None? {
      NoMatchInHome(rest, NamedPath, j);
    }
    NamedMatch(u);
    FindIs(NamedPath, s, 23);
  }

  lemma ClassifiedNamed(s: string, u: string)
    requires Trim(s) == s
    requires Find(ChannelPath, s, 0).None? && Find(HandlePath, s, 0).None?
    requires Find(NamedPath, s, 0).Some? && Find(NamedPath, s, 0).value.1 == u
    ensures ClassifyChannelUrl(s) == UsernameRef(u)
  {
  }

  // ---------------------------------------------------------------------------
  // getChannelIdFromUrl

  /** The `channels?forUsername=` response: an error message, or the ids of
      the channels found. */
  datatype ChannelsResponse = ChannelsResponse(error: Option<string>, ids: seq<string>)

  /** `resolveUsernameToChannelId`: the call is charged before its response
      is looked at. */
  function ResolveUsername(q: QuotaData, response: ChannelsResponse): (r: (Result<string>, QuotaData))
    ensures r.1 == TrackQuotaCost(q, "channels.list", 1).quota
    ensures r.1.used == q.used + 1
    ensures r.0.Ok? <==> r.1.used < r.1.limit && response.error.None? && |response.ids| > 0
    ensures r.0.Ok? ==> r.0.value == response.ids[0]
  {
    var t := TrackQuotaCost(q, "channels.list", 1);
    if t.error.Some? then (Err(t.error.value), t.quota)
    else if response.error.Some? then (Err(response.error.value), t.quota)
    else if |response.ids| > 0 then (Ok(response.ids[0]), t.quota)
    else (Err("Channel not found"), t.quota)
  }

  /** `getChannelIdFromUrl`: a channel id is returned as is; a handle is
      refused; a legacy name is looked up through the API; anything else is
      an error. `lookup` stands for the API's answer for a user name. */
  function GetChannelIdFromUrl(url: string, q: QuotaData, lookup: string -> ChannelsResponse): (r: (Result<string>, QuotaData))
    ensures ClassifyChannelUrl(url).ChannelIdRef? ==> r == (Ok(ClassifyChannelUrl(url).id), q)
    ensures ClassifyChannelUrl(url).HandleRef? ==>
      r == (Err("Handle resolution not yet implemented, will use yt-dlp fallback"), q)
    ensures ClassifyChannelUrl(url).Unrecognised? ==> r == (Err("Could not extract channel ID from URL"), q)
    ensures ClassifyChannelUrl(url).UsernameRef? ==>
      r == ResolveUsername(q, lookup(ClassifyChannelUrl(url).name)) && r.1.used == q.used + 1
    ensures r.1 != q ==> ClassifyChannelUrl(url).UsernameRef? && r.1.used == q.used + 1
  {
    match ClassifyChannelUrl(url)
    case ChannelIdRef(id) => (Ok(id), q)
    case HandleRef(_) => (Err("Handle resolution not yet implemented, will use yt-dlp fallback"), q)
    case UsernameRef(name) => ResolveUsername(q, lookup(name))
    case Unrecognised => (Err("Could not extract channel ID from URL"), q)
  }

  // ---------------------------------------------------------------------------
  // enumeratePlaylistVideos

  /** The fields of one `playlistItems` item that the service reads. */
  datatype Item = Item(videoId: string, title: string, channelTitle: string)

  /** One `playlistItems?part=snippet,contentDetails` response page. */
  datatype Page = Page(error: Option<string>, items: seq<Item>, nextPageToken: Option<string>)

  datatype VideoRecord = VideoRecord(videoId: string, videoTitle: string, videoUrl: string,
                                     playlistIndex: int, uploader: string)

  function WatchUrl(videoId: string): string {
    "https://www.youtube.com/watch?v=" + videoId
  }

  /** The pages the API serves for one playlist: each page but the last
      announces a next page; the last one does not, or is an error. */
  predicate Conversation(pages: seq<Page>) {
    && |pages| >= 1
    && (forall k :: 0 <= k < |pages| - 1 ==> pages[k].error.None? && Truthy(pages[k].nextPageToken))
    && (pages[|pages| - 1].error.None? ==> !Truthy(pages[|pages| - 1].nextPageToken))
  }

  /** All items of the pages, in order. */
  function AllItems(pages: seq<Page>): seq<Item>
    decreases |pages|
  {
    if |pages| == 0 then [] else AllItems(pages[..|pages| - 1]) + pages[|pages| - 1].items
  }

  /** One page's items as records, numbered on from the `offset` videos
      already collected. */
  function PageRecords(items: seq<Item>, offset: int): (r: seq<VideoRecord>)
    ensures |r| == |items|
    ensures forall k :: 0 <= k < |items| ==>
      r[k] == VideoRecord(items[k].videoId, items[k].title, WatchUrl(items[k].videoId), offset + k + 1, items[k].channelTitle)
  {
    seq(|items|, k requires 0 <= k < |items| =>
      VideoRecord(items[k].videoId, items[k].title, WatchUrl(items[k].videoId), offset + k + 1, items[k].channelTitle))
  }

  /** The records are the items, in order, numbered from 1, each with its
      watch url. */
  predicate Numbered(videos: seq<VideoRecord>, items: seq<Item>) {
    && |videos| == |items|
    && forall i :: 0 <= i < |videos| ==>
      && videos[i].playlistIndex == i + 1
      && videos[i].videoId == items[i].videoId
      && videos[i].videoUrl == WatchUrl(items[i].videoId)
      && videos[i].videoTitle == items[i].title
      && videos[i].uploader == items[i].channelTitle
  }

  /** A further page continues the numbering. */
  lemma NumberedAppend(videos: seq<VideoRecord>, items: seq<Item>, more: seq<Item>)
    requires Numbered(videos, items)
    ensures Numbered(videos + PageRecords(more, |videos|), items + more)
  {
    var page := PageRecords(more, |videos|);
    var v, t := videos + page, items + more;
    forall i | |videos| <= i < |v|
      ensures v[i].playlistIndex == i + 1 && v[i].videoId == t[i].videoId
      ensures v[i].videoUrl == WatchUrl(t[i].videoId) && v[i].videoTitle == t[i].title
      ensures v[i].uploader == t[i].channelTitle
    {
      assert v[i] == page[i - |videos|] && t[i] == more[i - |videos|];
    }
    assert forall i :: 0 <= i < |videos| ==> v[i] == videos[i] && t[i] == items[i];
  }

  /** Whether fetching stops with an error at page `k`: the charge for the
      page exhausts the quota, or the page is an error. */
  predicate FailsAt(q: QuotaData, pages: seq<Page>, k: nat)
    requires k < |pages|
  {
    q.used + k + 1 >= q.limit || pages[k].error.Some?
  }

  /** `enumeratePlaylistVideos` over the pages the API serves: each page is
      charged one unit before its error is looked at; the records are
      numbered 1, 2, … across all pages, and each carries its watch url. */
  method EnumeratePlaylistVideos(pages: seq<Page>, q: QuotaData) returns (r: Result<seq<VideoRecord>>, q': QuotaData)
    requires Conversation(pages)
    ensures q'.limit == q.limit && q'.resetTime == q.resetTime
    ensures r.Ok? <==> forall k :: 0 <= k < |pages| ==> !FailsAt(q, pages, k)
    ensures r.Ok? ==> q'.used == q.used + |pages|
    ensures r.Ok? ==> |r.value| == |AllItems(pages)|
    ensures r.Ok? ==> forall k :: 0 <= k < |r.value| ==>
      && r.value[k].playlistIndex == k + 1
      && r.value[k].videoId == AllItems(pages)[k].videoId
      && r.value[k].videoUrl == WatchUrl(AllItems(pages)[k].videoId)
      && r.value[k].videoTitle == AllItems(pages)[k].title
      && r.value[k].uploader == AllItems(pages)[k].channelTitle
    ensures r.Err? ==> exists k :: (0 <= k < |pages| && FailsAt(q, pages, k)
      && (forall j :: 0 <= j < k ==> !FailsAt(q, pages, j))
      && q'.used == q.used + k + 1
      && r.message == (if q.used + k + 1 >= q.limit then QuotaExceededMessage else pages[k].error.value))
  {
    var videos: seq<VideoRecord> := [];
    q' := q;
    var k := 0;
    while true
      invariant 0 <= k < |pages|
      invariant q'.limit == q.limit && q'.resetTime == q.resetTime && q'.used == q.used + k
      invariant forall j :: 0 <= j < k ==> !FailsAt(q, pages, j)
      invariant Numbered(videos, AllItems(pages[..k]))
      decreases |pages| - k
    {
      var t := TrackQuotaCost(q', "playlistItems.list", 1);
      q' := t.quota;
      if t.error.Some? {
        assert FailsAt(q, pages, k);
        return Err(t.error.value), q';
      }
      if pages[k].error.Some? {
        assert FailsAt(q, pages, k);
        return Err(pages[k].error.value), q';
      }
      assert pages[..k + 1][..k] == pages[..k];
      assert AllItems(pages[..k + 1]) == AllItems(pages[..k]) + pages[k].items;
      NumberedAppend(videos, AllItems(pages[..k]), pages[k].items);
      videos := videos + PageRecords(pages[k].items, |videos|);
      if !Truthy(pages[k].nextPageToken) {
        assert k == |pages| - 1;
        assert pages[..k + 1] == pages;
        return Ok(videos), q';
      }
      k := k + 1;
    }
  }
}

=== FILE: ytdlp.dfy ===
/** The pure parts of the yt-dlp adapter (src/ytdlp-service.js): the argument
    vector `download` hands to the yt-dlp process, and the grouping of the
    `--flat-playlist --dump-json` output of `enumeratePlaylists` into
    playlists. Spawning the process, streaming its output and `JSON.parse`
    are outside the model: the exit code and output text are parameters,
    and the parse of one line is a function parameter. */
module YtDlp {
  import opened Common

  // ---------------------------------------------------------------------------
  // download: options record -> argument vector

  /** The `options` object of `download`. `writeThumbnail` is set by the
      download manager but has no branch in `download`. */
  datatype DownloadOptions = DownloadOptions(
    verbose: bool,
    dateAfter: Option<string>,
    downloadArchive: Option<string>,
    outputPath: Option<string>,
    outputTemplate: Option<string>,
    format: Option<string>,
    mergeOutputFormat: Option<string>,
    writeInfoJson: bool,
    noRestrictFilenames: bool,
    writeThumbnail: bool,
    customArgs: Option<string>)

  // ---- the option flags as a list of slots

  /** One `if (options.x) args.push(...)` of `download`: a flag followed by
      its value, pushed when the value is present, or a bare switch. */
  datatype Slot = ValueSlot(flag: string, value: Option<string>) | SwitchSlot(flag: string, on: bool)

  datatype Kind = ValueKind | SwitchKind

  /** The shape of a slot, without its content. */
  datatype Spec = Spec(flag: string, kind: Kind)

  function SpecOf(s: Slot): Spec {
    match s
    case ValueSlot(f, _) => Spec(f, ValueKind)
    case SwitchSlot(f, _) => Spec(f, SwitchKind)
  }

  function SpecsOf(slots: seq<Slot>): (r: seq<Spec>)
    ensures |r| == |slots|
    ensures forall i :: 0 <= i < |slots| ==> r[i] == SpecOf(slots[i])
    decreases |slots|
  {
    if |slots| == 0 then [] else [SpecOf(slots[0])] + SpecsOf(slots[1..])
  }

  function Tokens(s: Slot): seq<string> {
    match s
    case ValueSlot(f, v) => if v.Some? then [f, v.value] else []
    case SwitchSlot(f, on) => if on then [f] else []
  }

  /** The tokens of the slots in order, followed by `tail`. */
  function Emit(slots: seq<Slot>, tail: seq<string>): seq<string>
    decreases |slots|
  {
    if |slots| == 0 then tail else Tokens(slots[0]) + Emit(slots[1..], tail)
  }

  /** `if (options.x)` on a nullable string: falsy values are not pushed. */
  function Normalize(v: Option<string>): Option<string> {
    if Truthy(v) then v else None
  }

  /** The slots of `download`, in the order the source pushes them; the
      cookies file is passed whenever it exists on disk. */
  function OptionSlots(o: DownloadOptions, cookiesPath: string, cookiesPresent: bool): seq<Slot> {
    [ValueSlot("--cookies", if cookiesPresent then Some(cookiesPath) else None),
     SwitchSlot("-v", o.verbose),
     ValueSlot("--dateafter", Normalize(o.dateAfter)),
     ValueSlot("--download-archive", Normalize(o.downloadArchive)),
     ValueSlot("-P", Normalize(o.outputPath)),
     ValueSlot("-o", Normalize(o.outputTemplate)),
     ValueSlot("-f", Normalize(o.format)),
     ValueSlot("--merge-output-format", Normalize(o.mergeOutputFormat)),
     SwitchSlot("--write-info-json", o.writeInfoJson),
     SwitchSlot("--no-restrict-filenames", o.noRestrictFilenames)]
  }

  /** The shape every argument vector of `download` shares. */
  const OptionSpecs: seq<Spec> := [
    Spec("--cookies", ValueKind), Spec("-v", SwitchKind), Spec("--dateafter", ValueKind),
    Spec("--download-archive", ValueKind), Spec("-P", ValueKind), Spec("-o", ValueKind),
    Spec("-f", ValueKind), Spec("--merge-output-format", ValueKind),
    Spec("--write-info-json", SwitchKind), Spec("--no-restrict-filenames", SwitchKind)]

  /** Every flag `download` can emit itself, in emission order. */
  const KnownFlags: seq<string> := [
    "--cookies", "-v", "--dateafter", "--download-archive", "-P", "-o", "-f",
    "--merge-output-format", "--write-info-json", "--no-restrict-filenames"]

  /** `options.customArgs.split(' ')`: no quoting, no deduplication, and two
      spaces in a row give an empty token. */
  function CustomTokens(o: DownloadOptions): seq<string> {
    if Truthy(o.customArgs) then Split(o.customArgs.value, ' ') else []
  }

  /** The argument vector of `download(url, options)`: option flags, custom
      tokens, and the url always last. */
  function DownloadArgs(url: string, o: DownloadOptions, cookiesPath: string, cookiesPresent: bool): seq<string> {
    Emit(OptionSlots(o, cookiesPath, cookiesPresent), CustomTokens(o) + [url])
  }

  // ---- reading an argument vector back

  datatype Taken = Taken(slot: Slot, rest: seq<string>)

  /** Reads one slot of the given shape off the front of `t`. */
  function TakeSlot(sp: Spec, t: seq<string>): (r: Taken)
    ensures SpecOf(r.slot) == sp
  {
    match sp.kind
    case ValueKind =>
      if |t| >= 2 && t[0] == sp.flag then Taken(ValueSlot(sp.flag, Some(t[1])), t[2..])
      else Taken(ValueSlot(sp.flag, None), t)
    case SwitchKind =>
      if |t| >= 1 && t[0] == sp.flag then Taken(SwitchSlot(sp.flag, true), t[1..])
      else Taken(SwitchSlot(sp.flag, false), t)
  }

  datatype Parsed = Parsed(slots: seq<Slot>, rest: seq<string>)

  /** Reads slots of the given shapes in order; what is left over is `rest`. */
  function Parse(specs: seq<Spec>, t: seq<string>): (r: Parsed)
    ensures |r.slots| == |specs|
    decreases |specs|
  {
    if |specs| == 0 then Parsed([], t)
    else
      var h := TakeSlot(specs[0], t);
      var p := Parse(specs[1..], h.rest);
      Parsed([h.slot] + p.slots, p.rest)
  }

  function FlagsOf(slots: seq<Slot>): set<string> {
    set i | 0 <= i < |slots| :: slots[i].flag
  }

  predicate DistinctFlags(slots: seq<Slot>) {
    forall i, j :: 0 <= i < j < |slots| ==> slots[i].flag != slots[j].flag
  }

  /** Whatever the slots emit begins with one of their flags or with the tail. */
  lemma {:induction false} EmitHead(slots: seq<Slot>, tail: seq<string>)
    requires |Emit(slots, tail)| > 0
    ensures Emit(slots, tail)[0] in FlagsOf(slots) || (|tail| > 0 && Emit(slots, tail)[0] == tail[0])
    decreases |slots|
  {
    if |slots| > 0 {
      if |Tokens(slots[0])| > 0 {
        assert Emit(slots, tail)[0] == slots[0].flag;
      } else {
        EmitHead(slots[1..], tail);
        assert FlagsOf(slots[1..]) <= FlagsOf(slots) by {
          forall f | f in FlagsOf(slots[1..]) ensures f in FlagsOf(slots) {
            var i :| 0 <= i < |slots[1..]| && slots[1..][i].flag == f;
            assert slots[i + 1].flag == f;
          }
        }
      }
    }
  }

  lemma FlagsOfTail(slots: seq<Slot>)
    requires |slots| > 0
    ensures FlagsOf(slots) == {slots[0].flag} + FlagsOf(slots[1..])
  {
    var more := slots[1..];
    forall f | f in FlagsOf(more) ensures f in FlagsOf(slots) {
      var i :| 0 <= i < |more| && more[i].flag == f;
      assert slots[i + 1].flag == f;
    }
    forall f | f in FlagsOf(slots) ensures f == slots[0].flag || f in FlagsOf(more) {
      var i :| 0 <= i < |slots| && slots[i].flag == f;
      if i > 0 { assert more[i - 1].flag == f; }
    }
  }

  /** A slot's tokens are read back as that slot when the next token is not
      its own flag. */
  lemma TakeSlotOf(s: Slot, rest: seq<string>)
    requires |rest| == 0 || rest[0] != s.flag
    ensures TakeSlot(SpecOf(s), Tokens(s) + rest) == Taken(s, rest)
  {
    var t := Tokens(s) + rest;
    match s
    case ValueSlot(f, v) =>
      if v.Some? { assert t[2..] == rest; }
    case SwitchSlot(f, on) =>
      if on { assert t[1..] == rest; }
  }

  /** Parsing what the slots emit gives the slots back and leaves the tail
      alone, provided the flags are distinct and the tail does not begin with
      one of them. */
  lemma {:induction false} ParseEmit(slots: seq<Slot>, tail: seq<string>)
    requires DistinctFlags(slots)
    requires |tail| == 0 || tail[0] !in FlagsOf(slots)
    ensures Parse(SpecsOf(slots), Emit(slots, tail)) == Parsed(slots, tail)
    decreases |slots|
  {
    if |slots| > 0 {
      var s := slots[0];
      var more := slots[1..];
      var rest := Emit(more, tail);
      FlagsOfTail(slots);
      assert s.flag !in FlagsOf(more);
      if |rest| > 0 {
        EmitHead(more, tail);
      }
      TakeSlotOf(s, rest);
      assert DistinctFlags(more) by {
        forall i, j | 0 <= i < j < |more| ensures more[i].flag != more[j].flag {
          assert slots[i + 1].flag != slots[j + 1].flag;
        }
      }
      ParseEmit(more, tail);
      var specs := SpecsOf(slots);
      assert specs[0] == SpecOf(s);
      assert specs[1..] == SpecsOf(more);
      assert slots == [s] + more;
    }
  }

  function ValueOf(s: Slot): Option<string> {
    if s.ValueSlot? then s.value else None
  }

  function OnOf(s: Slot): bool {
    s.SwitchSlot? && s.on
  }

  /** What can be read back from an argument vector: the cookies path, the
      options (with their falsy values as `None`), and whatever follows. */
  datatype ParsedArgs = ParsedArgs(cookies: Option<string>, options: DownloadOptions, rest: seq<string>)

  /** Reads the option flags of `download` back, slot by slot in emission order. */
  function ParseOptionArgs(t: seq<string>): ParsedArgs {
    var p := Parse(OptionSpecs, t);
    var s := p.slots;
    ParsedArgs(ValueOf(s[0]),
               DownloadOptions(OnOf(s[1]), ValueOf(s[2]), ValueOf(s[3]), ValueOf(s[4]), ValueOf(s[5]),
                               ValueOf(s[6]), ValueOf(s[7]), OnOf(s[8]), OnOf(s[9]), false, None),
               p.rest)
  }

  /** What the argument vector can say about an options record: falsy values
      are absent, `writeThumbnail` is lost, and custom arguments are kept
      apart. */
  function Observable(o: DownloadOptions): DownloadOptions {
    DownloadOptions(o.verbose, Normalize(o.dateAfter), Normalize(o.downloadArchive),
                    Normalize(o.outputPath), Normalize(o.outputTemplate), Normalize(o.format),
                    Normalize(o.mergeOutputFormat), o.writeInfoJson, o.noRestrictFilenames,
                    false, None)
  }

  /** The slots of `download` have the shape `OptionSpecs`. */
  lemma OptionSlotsSpecs(o: DownloadOptions, cookiesPath: string, cookiesPresent: bool)
    ensures SpecsOf(OptionSlots(o, cookiesPath, cookiesPresent)) == OptionSpecs
  {
  }

  /** The flags `download` emits itself are pairwise different. */
  lemma KnownFlagsDistinct()
    ensures forall i, j :: 0 <= i < j < |KnownFlags| ==> KnownFlags[i] != KnownFlags[j]
  {
  }

  lemma OptionSlotsFlags(o: DownloadOptions, cookiesPath: string, cookiesPresent: bool)
    ensures DistinctFlags(OptionSlots(o, cookiesPath, cookiesPresent))
    ensures FlagsOf(OptionSlots(o, cookiesPath, cookiesPresent)) == set i | 0 <= i < |KnownFlags| :: KnownFlags[i]
  {
    var slots := OptionSlots(o, cookiesPath, cookiesPresent);
    assert forall i :: 0 <= i < |slots| ==> slots[i].flag == KnownFlags[i];
    KnownFlagsDistinct();
  }

  /** The option flags of `download` are read back exactly: each flag is
      present iff its option is truthy, carries that option's value, and the
      flags come in the fixed order, so distinct observable options give
      distinct argument vectors. Whatever follows is left untouched, provided
      it does not itself begin with one of the known flags. */
  lemma OptionArgsRoundTrip(o: DownloadOptions, cookiesPath: string, cookiesPresent: bool, tail: seq<string>)
    requires |tail| == 0 || tail[0] !in KnownFlags
    ensures ParseOptionArgs(Emit(OptionSlots(o, cookiesPath, cookiesPresent), tail))
         == ParsedArgs(if cookiesPresent then Some(cookiesPath) else None, Observable(o), tail)
  {
    OptionParse(o, cookiesPath, cookiesPresent, tail);
    ReadOptionSlots(o, cookiesPath, cookiesPresent, Emit(OptionSlots(o, cookiesPath, cookiesPresent), tail), tail);
  }

  /** The option flags parse back as the slots they came from. */
  lemma OptionParse(o: DownloadOptions, cookiesPath: string, cookiesPresent: bool, tail: seq<string>)
    requires |tail| == 0 || tail[0] !in KnownFlags
    ensures var slots := OptionSlots(o, cookiesPath, cookiesPresent);
      Parse(OptionSpecs, Emit(slots, tail)) == Parsed(slots, tail)
  {
    var slots := OptionSlots(o, cookiesPath, cookiesPresent);
    OptionTailClear(o, cookiesPath, cookiesPresent, tail);
    ParseEmit(slots, tail);
    OptionSlotsSpecs(o, cookiesPath, cookiesPresent);
  }

  lemma OptionTailClear(o: DownloadOptions, cookiesPath: string, cookiesPresent: bool, tail: seq<string>)
    requires |tail| == 0 || tail[0] !in KnownFlags
    ensures var slots := OptionSlots(o, cookiesPath, cookiesPresent);
      DistinctFlags(slots) && (|tail| == 0 || tail[0] !in FlagsOf(slots))
  {
    OptionSlotsFlags(o, cookiesPath, cookiesPresent);
  }

  lemma ReadOptionSlots(o: DownloadOptions, cookiesPath: string, cookiesPresent: bool,
                        t: seq<string>, tail: seq<string>)
    requires Parse(OptionSpecs, t) == Parsed(OptionSlots(o, cookiesPath, cookiesPresent), tail)
    ensures ParseOptionArgs(t)
         == ParsedArgs(if cookiesPresent then Some(cookiesPath) else None, Observable(o), tail)
  {
  }

  /** A whole `download` call as read back from its argument vector: option
      flags, then the custom tokens re-joined with single spaces, then the url. */
  datatype DecodedCall = DecodedCall(cookies: Option<string>, options: DownloadOptions, url: string)

  function DecodeDownloadArgs(args: seq<string>): Option<DecodedCall> {
    var p := ParseOptionArgs(args);
    if |p.rest| == 0 then None
    else
      var custom := p.rest[..|p.rest| - 1];
      Some(DecodedCall(p.cookies,
                       p.options.(customArgs := if |custom| == 0 then None else Some(Join(custom, ' '))),
                       p.rest[|p.rest| - 1]))
  }

  /** The whole invocation round-trips: the url is the last argument, the
      custom arguments reappear verbatim and in order after the option flags
      (so a custom flag repeating a built-in one is passed twice), and every
      option the flags carry is recovered. The one ambiguity is a custom
      string whose first token is itself a known flag. */
  lemma DownloadArgsRoundTrip(url: string, o: DownloadOptions, cookiesPath: string, cookiesPresent: bool)
    requires url !in KnownFlags
    requires !Truthy(o.customArgs) || Split(o.customArgs.value, ' ')[0] !in KnownFlags
    ensures DecodeDownloadArgs(DownloadArgs(url, o, cookiesPath, cookiesPresent))
         == Some(DecodedCall(if cookiesPresent then Some(cookiesPath) else None,
                             Observable(o).(customArgs := Normalize(o.customArgs)),
                             url))
  {
    var custom := CustomTokens(o);
    var tail := custom + [url];
    assert tail[0] == if |custom| > 0 then custom[0] else url;
    OptionArgsRoundTrip(o, cookiesPath, cookiesPresent, tail);
    assert tail[..|tail| - 1] == custom;
    if Truthy(o.customArgs) {
      JoinSplit(o.customArgs.value, ' ');
    }
  }

  /** `writeThumbnail` never reaches the command line. */
  lemma WriteThumbnailIgnored(url: string, o: DownloadOptions, cookiesPath: string, cookiesPresent: bool, b: bool)
    ensures DownloadArgs(url, o.(writeThumbnail := b), cookiesPath, cookiesPresent)
         == DownloadArgs(url, o, cookiesPath, cookiesPresent)
  {
  }

  /** Two spaces in a row in the custom string give an empty argument. */
  lemma DoubledSpaceGivesEmptyToken()
    ensures Split("--a  --b", ' ') == ["--a", "", "--b"]
  {
    SplitAround("--a", " --b", ' ');
    SplitAround("", "--b", ' ');
    SplitNoSeparator("--a", ' ');
    SplitNoSeparator("--b", ' ');
    assert "--a  --b" == "--a" + [' '] + " --b";
    assert " --b" == "" + [' '] + "--b";
  }

  // ---------------------------------------------------------------------------
  // enumeratePlaylists: flat-playlist output -> channel and playlists

  /** `stdout.trim().split('\n').filter(line => line)`. */
  function OutputLines(stdout: string): (r: seq<string>)
    ensures forall k :: 0 <= k < |r| ==> r[k] != "" && '\n' !in r[k]
  {
    var pieces := Split(Trim(stdout), '\n');
    var r := Filter(pieces, (l: string) => l != "");
    assert forall k :: 0 <= k < |r| ==> r[k] in pieces;
    r
  }

  lemma {:induction false} FilterAll<T(!new)>(s: seq<T>, p: T -> bool)
    requires forall k :: 0 <= k < |s| ==> p(s[k])
    ensures Filter(s, p) == s
    decreases |s|
  {
    if |s| > 0 {
      FilterAll(s[1..], p);
    }
  }

  /** yt-dlp prints one JSON object per line, each line ending in a newline;
      splitting that output gives the lines back, and no empty line reaches
      the JSON parser. */
  lemma OutputLinesRoundTrip(lines: seq<string>)
    requires forall k :: 0 <= k < |lines| ==> lines[k] != "" && '\n' !in lines[k]
    requires |lines| > 0 ==> !IsSpace(lines[0][0]) && !IsSpace(lines[|lines| - 1][|lines[|lines| - 1]| - 1])
    ensures OutputLines(if |lines| == 0 then "" else Join(lines, '\n') + "\n") == lines
  {
    if |lines| == 0 {
      assert Trim("") == "";
      assert Split("", '\n') == [""];
      assert Filter([""], (l: string) => l != "") == [];
    } else {
      var j := Join(lines, '\n');
      JoinFirstLast(lines, '\n');
      var s := j + "\n";
      assert s[0] == j[0];
      var t := Trim(s);
      TrimInfix(s);
      var a, b :| 0 <= a <= b <= |s| && t == s[a..b]
        && (forall k :: 0 <= k < a ==> IsSpace(s[k]))
        && (forall k :: b <= k < |s| ==> IsSpace(s[k]));
      assert a == 0;
      assert s[|j| - 1] == j[|j| - 1];
      assert s[|j|] == '\n';
      assert b == |j|;
      assert t == j;
      SplitJoin(lines, '\n');
      FilterAll(lines, (l: string) => l != "");
    }
  }

  /** The first and last character of a join of non-empty pieces. */
  lemma {:induction false} JoinFirstLast(parts: seq<string>, sep: char)
    requires |parts| > 0
    requires forall k :: 0 <= k < |parts| ==> parts[k] != ""
    ensures var j := Join(parts, sep);
      |j| > 0 && j[0] == parts[0][0] && j[|j| - 1] == parts[|parts| - 1][|parts[|parts| - 1]| - 1]
    decreases |parts|
  {
    if |parts| > 1 {
      JoinFirstLast(parts[1..], sep);
    }
  }

  /** The fields of one `--dump-json` line that the grouping reads. */
  datatype Entry = Entry(
    channelId: Option<string>,
    channel: Option<string>,
    uploader: Option<string>,
    playlistId: Option<string>,
    playlistTitle: Option<string>)

  datatype PlaylistSummary = PlaylistSummary(
    playlistId: string,
    playlistTitle: string,
    playlistUrl: string,
    videoCount: nat)

  datatype ChannelListing = ChannelListing(
    channelId: Option<string>,
    channelName: Option<string>,
    playlists: seq<PlaylistSummary>)

  function PlaylistUrl(playlistId: string): string {
    "https://www.youtube.com/playlist?list=" + playlistId
  }

  /** `entry.channel || entry.uploader`. */
  function ChannelNameOf(e: Entry): Option<string> {
    OrElse(e.channel, e.uploader)
  }

  /** An entry counts towards a playlist only with both a truthy id and title. */
  predicate Counted(e: Entry) {
    Truthy(e.playlistId) && Truthy(e.playlistTitle)
  }

  predicate CountedWith(e: Entry, id: string) {
    Counted(e) && e.playlistId.value == id
  }

  /** Number of counted entries carrying this playlist id. */
  function CountId(es: seq<Entry>, id: string): nat
    decreases |es|
  {
    if |es| == 0 then 0
    else CountId(es[..|es| - 1], id) + (if CountedWith(es[|es| - 1], id) then 1 else 0)
  }

  predicate Appears(es: seq<Entry>, id: string) {
    exists j :: 0 <= j < |es| && CountedWith(es[j], id)
  }

  /** Position of the first counted entry carrying this playlist id. */
  function FirstIndex(es: seq<Entry>, id: string): (r: nat)
    requires Appears(es, id)
    ensures r < |es| && CountedWith(es[r], id)
    ensures forall j :: 0 <= j < r ==> !CountedWith(es[j], id)
    decreases |es|
  {
    var init := es[..|es| - 1];
    if Appears(init, id) then
      var r := FirstIndex(init, id);
      assert es[r] == init[r];
      assert forall j :: 0 <= j < r ==> es[j] == init[j];
      r
    else
      assert forall j :: 0 <= j < |es| - 1 ==> es[j] == init[j];
      |es| - 1
  }

  predicate HasChannelId(e: Entry) {
    Truthy(e.channelId)
  }

  /** Channel id and name come from the first entry with a truthy channel
      id, the name being `channel`, else `uploader`; without such an entry
      both stay null. */
  ghost predicate ChannelFromFirst(es: seq<Entry>, channelId: Option<string>, channelName: Option<string>) {
    && ((forall j :: 0 <= j < |es| ==> !HasChannelId(es[j])) ==> channelId.None? && channelName.None?)
    && (forall j :: 0 <= j < |es| && HasChannelId(es[j]) && (forall i :: 0 <= i < j ==> !HasChannelId(es[i])) ==>
          channelId == es[j].channelId && channelName == ChannelNameOf(es[j]))
  }

  /** A summary describes the entries read so far: its id appears among the
      counted entries, its count is theirs, its title is the first one's,
      and its url is the playlist url. */
  ghost predicate Describes(es: seq<Entry>, q: PlaylistSummary) {
    && Appears(es, q.playlistId)
    && q.videoCount == CountId(es, q.playlistId)
    && q.playlistTitle == es[FirstIndex(es, q.playlistId)].playlistTitle.value
    && q.playlistUrl == PlaylistUrl(q.playlistId)
  }

  predicate DistinctIds(ps: seq<PlaylistSummary>) {
    forall k, l :: 0 <= k < l < |ps| ==> ps[k].playlistId != ps[l].playlistId
  }

  predicate Listed(ps: seq<PlaylistSummary>, id: string) {
    exists k :: 0 <= k < |ps| && ps[k].playlistId == id
  }

  /** Every counted entry has its playlist listed. */
  predicate Complete(es: seq<Entry>, ps: seq<PlaylistSummary>) {
    forall j :: 0 <= j < |es| && Counted(es[j]) ==> Listed(ps, es[j].playlistId.value)
  }

  ghost predicate FirstAppearanceOrder(es: seq<Entry>, ps: seq<PlaylistSummary>)
    requires forall k :: 0 <= k < |ps| ==> Appears(es, ps[k].playlistId)
  {
    forall k, l :: 0 <= k < l < |ps| ==> FirstIndex(es, ps[k].playlistId) < FirstIndex(es, ps[l].playlistId)
  }

  /** One playlist per distinct counted id, in order of first appearance,
      titled after its first entry, with the playlist url and the number of
      counted entries carrying the id. */
  ghost predicate PlaylistsGrouped(es: seq<Entry>, ps: seq<PlaylistSummary>) {
    && DistinctIds(ps)
    && (forall k :: 0 <= k < |ps| ==> Describes(es, ps[k]))
    && Complete(es, ps)
    && FirstAppearanceOrder(es, ps)
  }

  /** The listing `enumeratePlaylists` builds from the entries. */
  ghost predicate IsGrouping(es: seq<Entry>, r: ChannelListing) {
    ChannelFromFirst(es, r.channelId, r.channelName) && PlaylistsGrouped(es, r.playlists)
  }

  // ---- one iteration of the `forEach`

  /** The channel part of one iteration: the first truthy channel id wins. */
  function AbsorbChannel(channelId: Option<string>, channelName: Option<string>, e: Entry): (Option<string>, Option<string>) {
    if HasChannelId(e) && !Truthy(channelId) then (e.channelId, ChannelNameOf(e)) else (channelId, channelName)
  }

  /** The position of the playlist `id` in the map built so far. */
  function SummaryIndex(ps: seq<PlaylistSummary>, id: string): (r: Option<nat>)
    ensures r.Some? ==> r.value < |ps| && ps[r.value].playlistId == id
    ensures r.None? <==> !Listed(ps, id)
  {
    if |ps| == 0 then None
    else if ps[|ps| - 1].playlistId == id then Some(|ps| - 1)
    else
      var r := SummaryIndex(ps[..|ps| - 1], id);
      assert Listed(ps, id) ==> Listed(ps[..|ps| - 1], id) by {
        if Listed(ps, id) {
          var k :| 0 <= k < |ps| && ps[k].playlistId == id;
          assert ps[..|ps| - 1][k] == ps[k];
        }
      }
      r
  }

  /** The playlist part of one iteration: a counted entry bumps its
      playlist's count, creating the playlist at the end on first sight. */
  function AbsorbPlaylist(ps: seq<PlaylistSummary>, e: Entry): seq<PlaylistSummary> {
    if !Counted(e) then ps
    else
      var id := e.playlistId.value;
      match SummaryIndex(ps, id)
      case None => ps + [NewSummary(e)]
      case Some(k) => ps[k := ps[k].(videoCount := ps[k].videoCount + 1)]
  }

  /** How the counting functions change when one more entry is read. */
  lemma AppendStep(p: seq<Entry>, e: Entry, id: string)
    ensures CountId(p + [e], id) == CountId(p, id) + (if CountedWith(e, id) then 1 else 0)
    ensures Appears(p + [e], id) <==> Appears(p, id) || CountedWith(e, id)
    ensures Appears(p, id) ==> FirstIndex(p + [e], id) == FirstIndex(p, id)
    ensures !Appears(p, id) && CountedWith(e, id) ==> FirstIndex(p + [e], id) == |p|
  {
    var b := p + [e];
    assert b[..|b| - 1] == p;
    assert b[|b| - 1] == e;
    if Appears(b, id) && !CountedWith(e, id) {
      var j :| 0 <= j < |b| && CountedWith(b[j], id);
      assert b[j] == p[j];
    }
    if Appears(p, id) {
      var j :| 0 <= j < |p| && CountedWith(p[j], id);
      assert b[j] == p[j];
    }
  }

  lemma {:induction false} CountIdZero(es: seq<Entry>, id: string)
    requires !Appears(es, id)
    ensures CountId(es, id) == 0
    decreases |es|
  {
    if |es| > 0 {
      var init := es[..|es| - 1];
      assert !Appears(init, id);
      CountIdZero(init, id);
    }
  }

  ghost predicate ChannelState(es: seq<Entry>, channelId: Option<string>, channelName: Option<string>) {
    && ChannelFromFirst(es, channelId, channelName)
    && (channelId.None? || Truthy(channelId))
    && (Truthy(channelId) <==> exists j :: 0 <= j < |es| && HasChannelId(es[j]))
  }

  lemma AbsorbChannelStep(p: seq<Entry>, e: Entry, channelId: Option<string>, channelName: Option<string>)
    requires ChannelState(p, channelId, channelName)
    ensures var (c, n) := AbsorbChannel(channelId, channelName, e);
      ChannelState(p + [e], c, n)
  {
    var b := p + [e];
    var (c, n) := AbsorbChannel(channelId, channelName, e);
    assert forall j :: 0 <= j < |p| ==> b[j] == p[j];
    assert b[|p|] == e;
    if Truthy(channelId) {
      var w :| 0 <= w < |p| && HasChannelId(p[w]);
      assert HasChannelId(b[w]);
    }
  }

  /** A summary of another playlist is unaffected by the entry. */
  lemma DescribesKeep(p: seq<Entry>, e: Entry, q: PlaylistSummary)
    requires Describes(p, q)
    requires !CountedWith(e, q.playlistId)
    ensures Describes(p + [e], q)
    ensures FirstIndex(p + [e], q.playlistId) == FirstIndex(p, q.playlistId)
  {
    AppendStep(p, e, q.playlistId);
    assert (p + [e])[FirstIndex(p, q.playlistId)] == p[FirstIndex(p, q.playlistId)];
  }

  /** The summary of the entry's own playlist counts one more. */
  lemma DescribesBump(p: seq<Entry>, e: Entry, q: PlaylistSummary)
    requires Describes(p, q)
    requires CountedWith(e, q.playlistId)
    ensures Describes(p + [e], q.(videoCount := q.videoCount + 1))
    ensures FirstIndex(p + [e], q.playlistId) == FirstIndex(p, q.playlistId)
  {
    AppendStep(p, e, q.playlistId);
    assert (p + [e])[FirstIndex(p, q.playlistId)] == p[FirstIndex(p, q.playlistId)];
  }

  function NewSummary(e: Entry): PlaylistSummary
    requires Counted(e)
  {
    PlaylistSummary(e.playlistId.value, e.playlistTitle.value, PlaylistUrl(e.playlistId.value), 1)
  }

  /** A playlist seen for the first time is described by the entry alone. */
  lemma DescribesNew(p: seq<Entry>, e: Entry)
    requires Counted(e)
    requires !Appears(p, e.playlistId.value)
    ensures Describes(p + [e], NewSummary(e))
    ensures FirstIndex(p + [e], e.playlistId.value) == |p|
  {
    CountIdZero(p, e.playlistId.value);
    AppendStep(p, e, e.playlistId.value);
    assert (p + [e])[|p|] == e;
  }

  lemma CompleteUnseen(p: seq<Entry>, ps: seq<PlaylistSummary>, id: string)
    requires Complete(p, ps)
    requires !Listed(ps, id)
    ensures !Appears(p, id)
  {
  }

  lemma CompleteStep(p: seq<Entry>, e: Entry, ps: seq<PlaylistSummary>, ps': seq<PlaylistSummary>)
    requires Complete(p, ps)
    requires forall id :: Listed(ps, id) ==> Listed(ps', id)
    requires Counted(e) ==> Listed(ps', e.playlistId.value)
    ensures Complete(p + [e], ps')
  {
    var b := p + [e];
    forall j | 0 <= j < |b| && Counted(b[j]) ensures Listed(ps', b[j].playlistId.value) {
      if j < |p| {
        assert b[j] == p[j];
      }
    }
  }

  lemma AbsorbPlaylistSkip(p: seq<Entry>, e: Entry, ps: seq<PlaylistSummary>)
    requires PlaylistsGrouped(p, ps)
    requires !Counted(e)
    ensures PlaylistsGrouped(p + [e], ps)
  {
    forall k | 0 <= k < |ps|
      ensures Describes(p + [e], ps[k])
      ensures FirstIndex(p + [e], ps[k].playlistId) == FirstIndex(p, ps[k].playlistId)
    {
      DescribesKeep(p, e, ps[k]);
    }
    CompleteStep(p, e, ps, ps);
  }

  lemma AbsorbPlaylistNew(p: seq<Entry>, e: Entry, ps: seq<PlaylistSummary>)
    requires PlaylistsGrouped(p, ps)
    requires Counted(e)
    requires !Listed(ps, e.playlistId.value)
    ensures PlaylistsGrouped(p + [e], ps + [NewSummary(e)])
  {
    var b := p + [e];
    var ps' := ps + [NewSummary(e)];
    CompleteUnseen(p, ps, e.playlistId.value);
    DescribesNew(p, e);
    forall k | 0 <= k < |ps|
      ensures Describes(b, ps'[k])
      ensures FirstIndex(b, ps'[k].playlistId) == FirstIndex(p, ps[k].playlistId) < |p|
    {
      assert ps'[k] == ps[k];
      DescribesKeep(p, e, ps[k]);
    }
    assert ps'[|ps|] == NewSummary(e);
    AppendListed(ps, NewSummary(e));
    CompleteStep(p, e, ps, ps');
    AppendDistinct(ps, NewSummary(e));
    assert forall k :: 0 <= k < |ps'| ==> Describes(b, ps'[k]);
    assert FirstAppearanceOrder(b, ps') by {
      forall k, l | 0 <= k < l < |ps'|
        ensures FirstIndex(b, ps'[k].playlistId) < FirstIndex(b, ps'[l].playlistId)
      {
        if l < |ps| {
          assert ps'[k] == ps[k] && ps'[l] == ps[l];
        }
      }
    }
  }

  /** Appending a summary keeps every listed id listed and lists its own. */
  lemma AppendListed(ps: seq<PlaylistSummary>, q: PlaylistSummary)
    ensures forall id :: Listed(ps, id) ==> Listed(ps + [q], id)
    ensures Listed(ps + [q], q.playlistId)
  {
    var ps' := ps + [q];
    forall id | Listed(ps, id) ensures Listed(ps', id) {
      var k :| 0 <= k < |ps| && ps[k].playlistId == id;
      assert ps'[k] == ps[k];
    }
    assert ps'[|ps|] == q;
  }

  /** Appending a summary of an unlisted id keeps the ids distinct. */
  lemma AppendDistinct(ps: seq<PlaylistSummary>, q: PlaylistSummary)
    requires DistinctIds(ps) && !Listed(ps, q.playlistId)
    ensures DistinctIds(ps + [q])
  {
    var ps' := ps + [q];
    forall k, l | 0 <= k < l < |ps'| ensures ps'[k].playlistId != ps'[l].playlistId {
      assert ps'[k] == ps[k];
      if l < |ps| {
        assert ps'[l] == ps[l];
      } else {
        assert ps'[l] == q;
      }
    }
  }

  lemma AbsorbPlaylistBump(p: seq<Entry>, e: Entry, ps: seq<PlaylistSummary>, k: nat)
    requires PlaylistsGrouped(p, ps)
    requires Counted(e)
    requires k < |ps| && ps[k].playlistId == e.playlistId.value
    ensures PlaylistsGrouped(p + [e], ps[k := ps[k].(videoCount := ps[k].videoCount + 1)])
  {
    var b := p + [e];
    var ps' := ps[k := ps[k].(videoCount := ps[k].videoCount + 1)];
    forall m | 0 <= m < |ps|
      ensures Describes(b, ps'[m])
      ensures FirstIndex(b, ps'[m].playlistId) == FirstIndex(p, ps[m].playlistId)
    {
      if m == k {
        DescribesBump(p, e, ps[k]);
      } else {
        DescribesKeep(p, e, ps[m]);
      }
    }
    BumpListed(ps, k);
    assert ps'[k].playlistId == e.playlistId.value;
    CompleteStep(p, e, ps, ps');
    BumpDistinct(ps, k);
  }

  /** Bumping a count keeps the same ids, in the same places. */
  lemma BumpListed(ps: seq<PlaylistSummary>, k: nat)
    requires k < |ps|
    ensures forall id :: Listed(ps, id) ==> Listed(ps[k := ps[k].(videoCount := ps[k].videoCount + 1)], id)
  {
    var ps' := ps[k := ps[k].(videoCount := ps[k].videoCount + 1)];
    forall id | Listed(ps, id) ensures Listed(ps', id) {
      var m :| 0 <= m < |ps| && ps[m].playlistId == id;
      assert ps'[m].playlistId == id;
    }
  }

  lemma BumpDistinct(ps: seq<PlaylistSummary>, k: nat)
    requires k < |ps| && DistinctIds(ps)
    ensures DistinctIds(ps[k := ps[k].(videoCount := ps[k].videoCount + 1)])
  {
    var ps' := ps[k := ps[k].(videoCount := ps[k].videoCount + 1)];
    assert forall m :: 0 <= m < |ps| ==> ps'[m].playlistId == ps[m].playlistId;
  }

  lemma AbsorbPlaylistStep(p: seq<Entry>, e: Entry, ps: seq<PlaylistSummary>)
    requires PlaylistsGrouped(p, ps)
    ensures PlaylistsGrouped(p + [e], AbsorbPlaylist(ps, e))
  {
    var r := AbsorbPlaylist(ps, e);
    if !Counted(e) {
      assert r == ps;
      AbsorbPlaylistSkip(p, e, ps);
    } else {
      match SummaryIndex(ps, e.playlistId.value)
      case None =>
        assert r == ps + [NewSummary(e)];
        AbsorbPlaylistNew(p, e, ps);
      case Some(k) =>
        assert r == ps[k := ps[k].(videoCount := ps[k].videoCount + 1)];
        AbsorbPlaylistBump(p, e, ps, k);
    }
  }

  /** Groups the parsed entries as `enumeratePlaylists` does: one pass,
      remembering the first channel id and counting entries per playlist. */
  method GroupEntries(es: seq<Entry>) returns (r: ChannelListing)
    ensures IsGrouping(es, r)
  {
    assert [] + es == es;
    r := GroupRest([], es, None, None, []);
  }

  lemma ShiftOne<T>(seen: seq<T>, rest: seq<T>)
    requires |rest| > 0
    ensures (seen + [rest[0]]) + rest[1..] == seen + rest
  {
    assert rest == [rest[0]] + rest[1..];
  }

  /** The rest of the pass, with the state reached after the entries `seen`. */
  method GroupRest(ghost seen: seq<Entry>, rest: seq<Entry>, channelId: Option<string>, channelName: Option<string>,
                   playlists: seq<PlaylistSummary>) returns (r: ChannelListing)
    requires ChannelState(seen, channelId, channelName)
    requires PlaylistsGrouped(seen, playlists)
    ensures IsGrouping(seen + rest, r)
    decreases |rest|
  {
    if |rest| == 0 {
      assert seen + rest == seen;
      return ChannelListing(channelId, channelName, playlists);
    }
    var e := rest[0];
    AbsorbChannelStep(seen, e, channelId, channelName);
    AbsorbPlaylistStep(seen, e, playlists);
    var (c, n) := AbsorbChannel(channelId, channelName, e);
    ShiftOne(seen, rest);
    r := GroupRest(seen + [e], rest[1..], c, n, AbsorbPlaylist(playlists, e));
  }

  /** Parses each output line; the first line that fails to parse aborts. */
  function ParseLines(lines: seq<string>, parse: string -> Result<Entry>): (r: Result<seq<Entry>>)
    ensures r.Ok? <==> forall k :: 0 <= k < |lines| ==> parse(lines[k]).Ok?
    ensures r.Ok? ==> |r.value| == |lines| && forall k :: 0 <= k < |lines| ==> parse(lines[k]) == Ok(r.value[k])
    ensures r.Err? ==> exists k :: 0 <= k < |lines| && parse(lines[k]) == Err(r.message)
                                   && forall j :: 0 <= j < k ==> parse(lines[j]).Ok?
    decreases |lines|
  {
    if |lines| == 0 then Ok([])
    else
      match parse(lines[0])
      case Err(m) => Err(m)
      case Ok(e) =>
        match ParseLines(lines[1..], parse)
        case Err(m) => Err(m)
        case Ok(es) =>
          assert forall k :: 1 <= k < |lines| ==> lines[k] == lines[1..][k - 1];
          Ok([e] + es)
  }

  /** `enumeratePlaylists` once the process has closed: a non-zero (or
      missing) exit code rejects with the stderr text; otherwise the output
      lines are parsed and grouped. */
  method EnumeratePlaylists(exitCode: Option<int>, stdout: string, stderr: string,
                            parse: string -> Result<Entry>) returns (r: Result<ChannelListing>)
    ensures exitCode != Some(0) ==> r == Err("yt-dlp failed: " + stderr)
    ensures exitCode == Some(0) ==>
      (r.Ok? <==> ParseLines(OutputLines(stdout), parse).Ok?)
    ensures r.Ok? ==> IsGrouping(ParseLines(OutputLines(stdout), parse).value, r.value)
    ensures r.Err? && exitCode == Some(0) ==>
      r.message == "Failed to parse yt-dlp output: " + ParseLines(OutputLines(stdout), parse).message
  {
    if exitCode != Some(0) {
      return Err("yt-dlp failed: " + stderr);
    }
    var parsed := ParseLines(OutputLines(stdout), parse);
    if parsed.Err? {
      return Err("Failed to parse yt-dlp output: " + parsed.message);
    }
    var listing := GroupEntries(parsed.value);
    r := Ok(listing);
  }
}
